=== FILE: README.md ===
# nli.js in Dafny

This project models the interpreter in `nli.js`. The interpreter is a small untyped functional language with exact fractions, byte strings, lists, dictionaries and closures. The model covers the whole pipeline:

- **`fraction`** (`fraction.dfy`, `fraction_laws.dfy`). Pairs of unbounded integers. The source's `gcd` uses JavaScript's sign-keeping remainder; it is proved equal, up to sign, to a reference gcd. `simplify`, `debool`, `deint` and `operate` are modelled and related to rational arithmetic over `real`.
- **`lex`** (`lexer.dfy`). One left-to-right scan with a pending-run accumulator. It covers comments, string escapes, numeric literals with `_` and one `.`, brackets, specials, `_`, `@`, operator runs and word runs. The run still pending at the end of the text is dropped, as in the source.
- **`parse`** (`parser.dfy`, `parser_laws.dfy`). The recursive descent `pexp`/`plist`/`pdict` over a token index, then the fold over the eleven precedence tiers. The fold turns operator leaves into combinations and neighbouring operands into applications. Reading past the end of the tokens, where the source would crash on `undefined`, is the error `ReadPastEnd`.
- **`evaluate`** (`values.dfy`, `bits.dfy`, `evaluator.dfy`, `evaluator_laws.dfy`).
  - Values form a closed datatype. A closure holds the environment it was made in, its optional parameter and its body.
  - Dictionaries are sequences of entries kept in JavaScript's own key order: array indices first, ascending, then the other keys in insertion order.
  - Every place where the source would throw a JavaScript exception is a `Fail` result at the same point in the evaluation order.
  - Each closure call spends one unit of fuel.
- **`pretty`** (`formatter.dfy`). The printer. The four `replaceAll` passes are proved to be one escape per byte. The printed form of every string lexes back to the same string.

Program text, words, keys and strings are byte sequences (`seq<Byte>`). Characters are taken to be ASCII, so the UTF-8 conversions of the source are the identity.

Some behaviours of the code a reader may not expect:

- `[]` is a one-element list holding NULL.
- Comparisons do not normalise the sign of a negative denominator.
- `=` compares number pairs component by component.
- An unterminated string or comment is not an error.

## Model

| member | source | states |
|---|---|---|
| Fraction.JsGcdIsGcd | nli.js:38 | Euclid with JavaScript's remainder gives the greatest common divisor of the magnitudes, up to sign |
| Fraction.Simplify | nli.js:40-43 | both parts are divided exactly by the gcd (1 when it is 0); the value is unchanged (cross products agree); the result is coprime unless both parts are 0 |
| Fraction.Debool | nli.js:45 | a truth value is the pair 1/1 or 0/1, numerator 1 exactly when true |
| Fraction.Add | nli.js:64-68 | the simplified sum, cross-multiplied, equals `a.num·b.den + b.num·a.den` over `a.den·b.den`; non-zero denominators stay non-zero |
| Fraction.Lt | nli.js:73-74 | `<` is a truth value, 1 exactly when the cross products are ordered, whatever the denominators' signs |
| Fraction.Mul | nli.js:51-61 | the cross-cancelled product has the value of the product of the operands; non-zero denominators stay non-zero |
| Fraction.Operate | nli.js:49-82 | every comparison returns a boolean number: denominator 1, numerator 0 or 1 |
| FractionLaws.SimplifyKeepsValue | nli.js:40-43 | simplifying keeps the rational value |
| FractionLaws.MulLaws | nli.js:51-61 | `*` is symmetric in its operands and yields their product |
| FractionLaws.AddLaws | nli.js:64-68 | `+` is symmetric in its operands and yields their sum |
| FractionLaws.SubLaws | nli.js:69-70 | `-` is `+` of the negated right operand and yields the difference |
| FractionLaws.DivLaws | nli.js:62-63 | `/` is `*` by the swapped pair and yields the quotient when the divisor is not zero |
| FractionLaws.DivUndoesMul | nli.js:51-63 | dividing a product by a non-zero factor gives back the other factor's value |
| FractionLaws.AddKeepsCanonical | nli.js:64-68 | a sum of fractions in lowest terms is again in lowest terms |
| FractionLaws.LessLaws | nli.js:73-76 | `<` and `>` are the order of the values when both denominators are positive |
| FractionLaws.CanonicalUnique | nli.js:71-72 | two pairs in lowest terms with one value are the same pair, so componentwise `=` is value equality for them |
| FractionLaws.EqualityLaws | nli.js:71-80 | on pairs in lowest terms, `=` is value equality and `<=`, `>=` are the order of the values |
| FractionLaws.NegativeDenominator | nli.js:62-70 | `1 / (0 - 1)` yields the pair 1/-1: `0 - 1` is -1/1 and dividing 1 by it puts the sign in the denominator |
| FractionLaws.NegativeDenominatorLess | nli.js:73-74 | the pair 1/-1 is below 0 in value, yet `<` does not find it below 0/1 |
| FractionLaws.NegativeDenominatorEqual | nli.js:71-72 | 1/-1 and -1/1 have one value, yet `=` does not find them equal |
| Bytes.DecimalRoundTrip | nli.js:749 | the decimal text of a non-negative integer reads back as that integer |
| Bytes.NumeralRoundTrip | nli.js:526 | a numeral without leading zeros is the decimal text of its value |
| Lexer.EndToken | nli.js:96-107 | ending a pending run appends exactly one token after the ones already emitted; with no run pending the tokens are unchanged |
| Lexer.CommentEnd | nli.js:112-133 | the comment loop stops at the first `#` after the opening one, or at the end of the text |
| Lexer.ScanString | nli.js:135-180 | the string loop stops on a quote or at the end of the text, never before where it started |
| Lexer.ScanNumber | nli.js:243-262 | the numeric loop collects digits only and records the first `.` it meets |
| Lexer.ScanNumberMaximal | nli.js:243-262 | the numeric loop stops only at a byte that cannot continue the literal |
| Lexer.ScanNumberConsumes | nli.js:243-262 | every byte the numeric loop consumes is a digit, a `_`, or a `.` with no decimal point recorded before it |
| Lexer.ScanNumberFirstDot | nli.js:243-262 | the `.` the numeric loop records as the decimal point is the first `.` it consumes |
| Lexer.ScanNumberDigits | nli.js:243-262 | the collected digits are exactly the digits among the consumed bytes, in order |
| Lexer.NumberLiteral | nli.js:236-279 | a numeric literal always consumes at least its first digit |
| Lexer.StepOnDigit | nli.js:225-270 | a digit always ends the pending run and starts a numeric literal, even inside a word |
| Lexer.LexFrom | nli.js:109-313 | the scan only appends to the tokens emitted so far, and every token it emits is well formed |
| Lexer.Step | nli.js:109-311 | one iteration of the main loop advances, keeps the tokens emitted so far and emits only well-formed runs |
| Lexer.Lex | nli.js:88-314 | every OPERATOR and WORD token is a non-empty run of bytes of its class |
| Lexer.NumeralLexes | nli.js:226-279 | the decimal text of a non-negative integer lexes to exactly one NUMBER token n/1 |
| Lexer.PointLiteral | nli.js:264-275 | `a.b` reads as the digits of `a` and `b` over 10 to the length of `b`, simplified |
| Lexer.TrailingPoint | nli.js:276-278 | a `.` that ends a literal is not part of it; the scan resumes at the `.` |
| Lexer.SeparatorAfterPoint | nli.js:243-275 | underscores after the point count towards the denominator: `1.5_0` is 3/20 |
| Lexer.CommentSkipped | nli.js:112-133 | a comment is skipped without ending the pending run |
| Lexer.TrailingRunDropped | nli.js:313 | the run pending at the end of the text is never emitted: a lone word lexes to nothing |
| Parser.ParseOp | nli.js:446-449 | a recognised text is the text of the operator it is recognised as |
| Parser.Combined | nli.js:450-462 | folding an operator shortens the expression by two branches, or by one when the operator has no right neighbour |
| Parser.Applied | nli.js:464-475 | applying two neighbouring operands shortens the expression by one branch |
| ParserLaws.CombinedKeepsRest | nli.js:450-462 | combining puts a combination where the left operand was, leaves the branches before the left operand in place and moves those after the right operand down by two |
| ParserLaws.AppliedKeepsRest | nli.js:464-475 | applying puts an application where the function was, leaves the branches before the function in place and moves those after the argument down by one |
| Parser.TierPass | nli.js:445-477 | a pass never lengthens the expression, never empties it, and puts no bracket or special token into it |
| Parser.Collect | nli.js:389-442 | the `pexp` loop stops at the end of the tokens or at a closing token |
| Parser.Group | nli.js:397-414 | a bracketed group opened at `i` parses to a branch holding no bracket or special token and ends past `i` |
| Parser.Pexp | nli.js:386-484 | an expression parses to an EXPRESSION node holding no bracket or special token |
| Parser.PList | nli.js:317-343 | a list parses to a LIST node that keeps the elements read before, in order |
| Parser.PDict | nli.js:345-384 | a dictionary parses to a DICTIONARY node that keeps the entries read before, in order |
| Parser.PDictEntry | nli.js:357-365 | an entry's key is the key expression's content, and the entries before it are kept |
| Parser.PDictValue | nli.js:366-377 | an entry whose value follows its key is added after the entries before it, under the key expression's content |
| Parser.Parse | nli.js:486 | a parse result is an EXPRESSION node holding no bracket or special token |
| ParserLaws.SingleToken | nli.js:316-487 | a program of one literal or word parses to that token alone |
| ParserLaws.PassAlternates | nli.js:445-477 | after a pass over an expression without adjacent operator tokens, no two operands are neighbours |
| ParserLaws.PassClears | nli.js:445-477 | a pass combines every operator of its tier that is not in first position |
| ParserLaws.PassKeepsOperators | nli.js:445-477 | a pass leaves only operator tokens that were there before |
| ParserLaws.FoldClears | nli.js:444-478 | after all passes no operator of the table is left past the first position |
| ParserLaws.FoldsToOneTree | nli.js:444-483 | an expression that starts with an operand, has no two operator tokens in a row and uses known operators folds into one tree |
| ParserLaws.ParseOpText | nli.js:86 | every operator's text is recognised as that operator |
| ParserLaws.ParseOpExact | nli.js:446-449 | a text is left unrecognised exactly when it is no operator's text |
| ParserLaws.Precedence | nli.js:444-478 | of two operators the tighter tier takes its operands first; within a tier the left one does |
| ParserLaws.OperandsApplyLeftToRight | nli.js:464-475 | juxtaposed operands apply from the left: `f x y` is `(f x) y` |
| ParserLaws.OperatorAsOperand | nli.js:445-477 | in `a ~ . b` the unknown operator `~` becomes the left operand of `.`, leaving two operands side by side |
| ParserLaws.TrailingCombinationDropped | nli.js:480-483 | with the loosest tier the last combination is made but only the first branch is kept: `a ~ & b` is `a` |
| ParserLaws.EmptyExpression | nli.js:480-483 | an empty expression reads as NULL |
| ParserLaws.EmptyListHoldsNull | nli.js:324-330 | `[]` is a one-element list holding NULL, because the check compares the wrapper's type |
| ParserLaws.EmptyDictionary | nli.js:353-355 | `{}` is the empty dictionary |
| ParserLaws.BackslashAtEnd | nli.js:418-422 | a `\` with nothing after it reads past the end of the tokens |
| ParserLaws.UnclosedList | nli.js:320-336 | an unclosed list reads past the end of the tokens |
| ParserLaws.BackslashTakesNextToken | nli.js:418-425 | `\` takes the next token as its parameter slot; only a WORD names a parameter |
| ParserLaws.ListOfElements | nli.js:317-343 | a whole list `[e1 t1 e2 t2 ... en ]`, each element read where the one before it left off one token later, reads as exactly the elements `e1 ... en` in order and ends at its `]`, whatever the separators `t1 ... t(n-1)` other than `]` are |
| ParserLaws.ListSkipsOneToken | nli.js:322-336 | after each list element the next token is skipped whatever it is, unless it is `]` |
| ParserLaws.KeySkipsOneToken | nli.js:350-366 | after a dictionary key that `,` or `}` does not follow, the next token is skipped whatever it is |
| ParserLaws.ValueSkipsOneToken | nli.js:369-377 | after a dictionary value the next token is skipped whatever it is, unless it is `}` |
| Values.Find | nli.js:526 | the position found holds the key and no earlier position does; none means the key is absent |
| Values.Lookup | nli.js:526 | a property is found exactly when the key is among the object's keys |
| Values.Position | nli.js:694-706 | a new array index goes after the smaller array indices and before the rest |
| Values.PutKeepsOrder | nli.js:694-706 | assigning a property keeps the object's key order |
| Values.PutLookup | nli.js:694-706 | after assigning `k`, `k` reads the new value and every other key reads what it did before |
| Values.PutNamedKeys | nli.js:694-706 | a new key that is not an array index goes after the other such keys; a repeated key keeps its place |
| Values.SortKeysLaws | nli.js:556 | the key sort returns the keys in byte order, none dropped or added |
| Values.Subarray | nli.js:581 | `subarray` never lengthens; in range it is the plain slice; a start at or past the end gives nothing |
| Values.TrimsSplit | nli.js:572-584 | in range, `/<` keeps a prefix and `/>` a suffix, and the two trims split the string |
| Values.OverTrim | nli.js:572-583 | for `len < n <= 2 len`, `s /< n` counts `len - n` from the end and keeps `2 len - n` bytes |
| Values.NegativeStart | nli.js:572-583 | a negative count for `/>` counts from the end |
| Bits.ByteOp | nli.js:620-636 | the result is as long as the left string; each byte combines the left byte with the right byte or 0 past its end |
| Bits.XorUndoes | nli.js:620-636 | XOR with the same key twice gives the string back |
| Bits.SelfByteOp | nli.js:620-636 | `s & s` and `s \| s` are `s`; `s ^ s` is all zeros |
| Bits.Shift | nli.js:585-618 | a shifted string is as long as the original |
| Bits.ShiftLeftValue | nli.js:585-618 | `s << n` is the big-endian number of `s` times 2^n, modulo 256 to the length of `s` |
| Bits.ShiftRightValue | nli.js:585-618 | `s >> n` is the big-endian number of `s` divided by 2^n, rounded down |
| Bits.ToNatInjective | nli.js:585-618 | two strings of one length that write the same number are equal |
| Bits.ShiftByZero | nli.js:585-618 | shifting by zero bits is the identity |
| Bits.ShiftOut | nli.js:585-618 | shifting by at least the width in bits gives all zeros |
| Bits.OneBitLeft | nli.js:585-618 | `0x01 << 1` is `0x02` |
| Evaluator.LeafValue | nli.js:692-693 | a word evaluates to its binding, or NULL when it is unbound |
| Evaluator.ArrayIndex | nli.js:526 | a key names an array position only below the length |
| Evaluator.Index | nli.js:495-527 | indexing NULL fails; a list yields the element at an index in range, NULL for any other key but `length`, and a raw number (unmodelled) for the `length` of a non-empty list; a dictionary yields the entry or NULL; a number's `length` is raw; a function fails exactly on its own `length` and `name` and is NULL otherwise; an operator text's `length` is NULL exactly when it is empty (strings: `EvaluatorLaws.StringIndex`) |
| Evaluator.Spread | nli.js:535-539 | only lists and empty strings spread to value objects, and only values JavaScript can spread have a spread |
| Evaluator.AppendOf | nli.js:535-539 | `++` succeeds exactly when both operands spread to value objects (lists, empty strings) and yields the two spreads in order; an operand that cannot be spread is an error |
| Evaluator.ConcatOf | nli.js:530-534 | `..` succeeds exactly on two strings and yields their concatenation |
| Evaluator.LengthMinusOf | nli.js:545-546 | `--` succeeds exactly when `a` has a numeric length and `b.val` is a pair of integers, and then the result, cross-multiplied, is the length minus that pair |
| Evaluator.SlotOf | nli.js:49-82 | `v.val[i]` is a number's part, or a string's byte exactly when `i` is below the length |
| Evaluator.PairOf | nli.js:49-82 | `v.val` is a pair of integers for a number (its own pair) and for exactly the strings of two or more bytes, and for nothing else |
| Evaluator.CountOf | nli.js:575-576 | the count `b.val[0]` is a number's numerator, or a string's first byte; an empty string gives NaN |
| Evaluator.TrimOf | nli.js:572-584 | `/<` and `/>` succeed exactly on a string and a non-NULL count and never lengthen the string; a NaN count keeps nothing for `/<` and everything for `/>` |
| Evaluator.ShiftOf | nli.js:585-618 | `<<` and `>>` succeed exactly on a string and a count that is NaN or non-negative, and keep the length; a NaN count gives all zeros |
| Evaluator.BitwiseOf | nli.js:620-636 | a bitwise result is a string as long as the left operand; on two strings it is the bytewise combination; a number on the right acts as the low bytes of its numerator and denominator |
| Evaluator.SameSlot | nli.js:71-72 | `===` on two slots is decided unless both hold value objects |
| Evaluator.SlotsEqual | nli.js:71-72 | `=` of `fraction.operate` is 1 exactly when both slots of the operands are identical, and unknown only through object identity |
| Evaluator.Arith | nli.js:49-82 | a NULL operand is an error; on two integer pairs the operator computes on the pairs; `+ - * /` succeed exactly then; otherwise `<` and `>` are 0 and every comparison is a truth value |
| Evaluator.StrictEqual | nli.js:652-673 | `=` returns a boolean number, and values of different kinds are unequal |
| Evaluator.KeyText | nli.js:704 | a computed string key is its bytes; a NULL key is an error; a dictionary key is `[object Object]` exactly when it has no own `toString` entry, and otherwise calling that entry fails |
| Evaluator.Strict | nli.js:530-673 | every operator that evaluates both operands first fails on a NULL left operand, except `//`, `~=` and `=` |
| Evaluator.Combine | nli.js:492-676 | an operator node fails as its left operand does, and each operator but `.` builds its own kind: `++` and `.>` lists, string operators strings, arithmetic, comparison and `--` numbers |
| Evaluator.Evaluate | nli.js:489-730 | a list literal yields a list of its length; a dictionary literal yields an object in key order; a function literal yields a closure over the current environment |
| Evaluator.Apply | nli.js:675-690 | applying anything but a function fails; the built-in returns its argument |
| Evaluator.MapApply | nli.js:548-570 | mapping yields one result per element, each the call on that element |
| Evaluator.EvalItems | nli.js:713-725 | the list loop yields one value per remaining element |
| Evaluator.EvalEntries | nli.js:694-712 | the dictionary loop keeps the object's key order |
| EvaluatorLaws.Beta | nli.js:677-690 | calling a function literal evaluates its body with the parameter bound to the argument in the captured environment |
| EvaluatorLaws.Identity | nli.js:677-693 | `(\x x) e` evaluates like `e` |
| EvaluatorLaws.Constant | nli.js:681-688 | a function without a parameter evaluates its body in the captured environment as it is |
| EvaluatorLaws.NoFuel | nli.js:675-690 | a call with no fuel left runs out of fuel |
| EvaluatorLaws.TeeReturnsArgument | nli.js:786-790 | `TEE e` evaluates like `e` |
| EvaluatorLaws.SumMeaning | nli.js:641-649 | `+` on numbers yields a number whose value is the sum of theirs |
| EvaluatorLaws.DifferenceMeaning | nli.js:641-649 | `-` on numbers yields a number whose value is the difference of theirs |
| EvaluatorLaws.ProductMeaning | nli.js:641-649 | `*` on numbers yields a number whose value is the product of theirs |
| EvaluatorLaws.QuotientMeaning | nli.js:641-649 | `/` by a non-zero number yields the quotient of the values |
| EvaluatorLaws.LessMeaning | nli.js:641-649 | on numbers with positive denominators, `<` is 1 exactly when the first value is below the second |
| EvaluatorLaws.GreaterMeaning | nli.js:641-649 | on numbers with positive denominators, `>` is 1 exactly when the first value is above the second |
| EvaluatorLaws.AtMostMeaning | nli.js:641-649 | on numbers in lowest terms, `<=` is 1 exactly when the first value is at most the second |
| EvaluatorLaws.AtLeastMeaning | nli.js:641-649 | on numbers in lowest terms, `>=` is 1 exactly when the first value is at least the second |
| EvaluatorLaws.EqualMeaning | nli.js:652-673 | on numbers in lowest terms, `=` is 1 exactly when the values are equal |
| EvaluatorLaws.SameKindMeaning | nli.js:650-651 | `~=` is true exactly when both operands have one kind |
| EvaluatorLaws.LengthMinusMeaning | nli.js:545-546 | `a -- b` on a string or list and a number has the value of the length of `a` minus the value of `b` |
| EvaluatorLaws.StringAsPair | nli.js:49-70 | a string of two or more bytes takes part in `+ - * /` as the pair of its first two bytes |
| EvaluatorLaws.NaNComparison | nli.js:73-76 | `<` and `>` with an operand that is not an integer pair are 0 |
| EvaluatorLaws.EmptyStringAppend | nli.js:535-539 | `l ++ ""` and `"" ++ l` are `l` |
| EvaluatorLaws.CountByFirstByte | nli.js:572-618 | a string count of `/<`, `/>`, `<<`, `>>` acts as the number of its first byte |
| EvaluatorLaws.TrimsRejoin | nli.js:572-584 | `s /< n .. s /> (len - n)` is `s` |
| EvaluatorLaws.ShiftLeftMeaning | nli.js:585-618 | `s << n` keeps the length of `s` and its number is the number of `s` times 2^n, modulo 256^len |
| EvaluatorLaws.ShiftRightMeaning | nli.js:585-618 | `s >> n` keeps the length of `s` and its number is the number of `s` divided by 2^n |
| EvaluatorLaws.XorRoundTrip | nli.js:620-636 | `(s ^ k) ^ k` evaluates to `s` |
| EvaluatorLaws.AndSelf | nli.js:620-636 | `s & s` evaluates to `s` |
| EvaluatorLaws.OrSelf | nli.js:620-636 | `s \| s` evaluates to `s` |
| EvaluatorLaws.XorSelf | nli.js:620-636 | `s ^ s` evaluates to as many zero bytes as `s` has |
| EvaluatorLaws.ListLiteral | nli.js:713-725 | a list literal evaluates to a list of values exactly when each element evaluates to the value at its place |
| EvaluatorLaws.ListSound | nli.js:713-725 | the list a list literal evaluates to has one value per element, each the element's value |
| EvaluatorLaws.ListComplete | nli.js:713-725 | when every element evaluates, the list literal evaluates to the list of those values |
| EvaluatorLaws.MapOverDict | nli.js:548-560 | `d .> f` calls `f` on every key, as strings in sorted order, one result per key |
| EvaluatorLaws.MapOverNeedsFunction | nli.js:548-570 | mapping anything over an empty list or an empty dictionary yields `[]`; a non-function over a list with elements fails |
| EvaluatorLaws.ListIndex | nli.js:495-527 | `l.i` is element `i` of the list, or NULL past the end |
| EvaluatorLaws.StringIndex | nli.js:495-527 | `s.k` is NULL for a zero byte or a position out of range; a number key yields the one byte there; a numeral string key `n` yields the bytes from `n` up to `10n + 1` |
| EvaluatorLaws.DictField | nli.js:495-527 | `d.w` is the entry named `w`, or NULL |
| EvaluatorLaws.RepeatedKeyKeepsPlace | nli.js:694-706 | in `{a: x, b: y, a: z}` the repeated key takes the later value and keeps its first place |
| EvaluatorLaws.DictionaryKey | nli.js:698-705 | a dictionary literal whose computed key is a dictionary fails when that dictionary has an own `toString` entry, and otherwise holds its value under `[object Object]` |
| EvaluatorLaws.InterpretPrintedString | nli.js:732-740 | `Evaluator.Interpret` of the printed form of a string gives the string back |
| EvaluatorLaws.InterpretPrintedInteger | nli.js:732-740 | `Evaluator.Interpret` of the printed form of a whole number gives the number back |
| Formatter.Pretty | nli.js:744-782 | every value prints to a non-empty text |
| Formatter.EscapeIsPasses | nli.js:752 | escaping byte by byte is the four `replaceAll` passes |
| Formatter.StringRoundTrip | nli.js:752 | the printed text of every string lexes back to one STRING token with the same bytes |
| Formatter.IntegerRoundTrip | nli.js:749 | the printed text of a non-negative integer lexes back to the same NUMBER token |
| Formatter.FirstByteKind | nli.js:746-779 | the first printed byte tells the kind of value |

## Left out

- File and console I/O: reading the program file, the `console.log` driver, the unused `tee` helper. These are side effects, and the evaluator does not depend on them.
- The printing done by the `TEE` built-in. `TEE` is an identity closure (`Tee`). Its `console.log` is a side effect outside the model.
- UTF-8 decoding and encoding through `Buffer.from` and `toString`. Characters are taken to be ASCII, so every conversion is the identity. Invalid UTF-8 and multi-byte characters are outside the model.
- JavaScript number limits. Integers are unbounded, so `parseInt` precision loss, float overflow and `-0` are not modelled.
- Prototype properties of JavaScript objects. Names such as `toString` or `__proto__` in `ctx[...]` and `a.val[k]` read inherited properties of a plain object in the source, and `length` of a string's `Buffer` is an inherited getter too. A dictionary literal with the key `__proto__` (nli.js:700, 704) writes the object's prototype in the source, where the model stores an ordinary own entry. The model sees own properties only: the entries of a dictionary, the positions of an array or a string, and the own `length` and `name` that `Evaluator.Index` treats.
- The `//` operator spreads the whole value records rather than their maps, so the result is not a dictionary. It evaluates both operands and then fails with `Unmodelled`.
- Evaluator.StrictEqual: `=` on two strings is reference identity of buffers in the source. A value semantics cannot express that, so it is `Unmodelled`.
- Evaluator.ShiftOf: a negative shift count goes through JavaScript's shift-count masking and is `Unmodelled`. So is a left operand that is not a string (a list, a number, an operator, a function), whose entries the source coerces into a byte buffer.
- Operands of an unexpected kind follow the source's coercions where they yield a value of the language: comparisons with NaN are false, a string of two or more bytes is a pair in arithmetic, an empty string spreads to nothing, a string count is its first byte, a number is a pair of bytes to `&`, `|` and `^`. The cases below are `Unmodelled` instead, each because the source computes something no value of the language holds or that depends on object identity.
- Evaluator.Arith: `+`, `-`, `*` and `/` with an operand that is not a pair of integers give a pair with a NaN part. `<=` and `>=` between two operands whose `val[0]` or `val[1]` both hold value objects (two lists, two dictionaries) compare those objects by identity.
- Evaluator.AppendOf: a non-empty string, an operator text or a number spreads raw bytes, characters or integers into the list.
- Evaluator.LengthMinusOf: `.length` of a dictionary is `undefined`, and a right operand that is not a pair of integers gives NaN.
- Evaluator.BitwiseOf: a left operand that is a list, a number, an operator or a function is coerced into a byte buffer entry by entry.
- Evaluator.Index: `.` on a number returns a raw part of the pair, and on an operator a raw character. The own `length` of a non-empty list, of a number's pair and of a non-empty operator text is a raw JavaScript number, and so are the `length` and `name` (`val`) of a function. All of these are `Unmodelled`.
- The `.>` operator evaluates its left operand twice when it is a dictionary. The model evaluates it once, which gives the same value because evaluation has no effects inside the model.
- The `.>` operator on a value that is neither a list nor a dictionary returns JavaScript `undefined`. The model reports `BadOperands` there.
- Evaluator.LeafValue: bracket and special tokens never reach the evaluator, because a parse result holds none (`Parser.Parse`). Their case fails with `Unmodelled`.
- Evaluator.Evaluate: evaluation is bounded by fuel, one unit per closure call. A program that would run longer fails with `OutOfFuel` instead of diverging.
- Evaluator.KeyText: a function used as a computed dictionary key prints its JavaScript source text. That text is `Unmodelled`.
- Formatter.IntegerRoundTrip: only non-negative integers are covered. A negative number prints with a leading `-`, which lexes as an operator token.

=== FILE: bits.dfy ===
/** Byte-string bit operations: `&`, `|`, `^` byte by byte (nli.js:620-638)
    and the shifts `<<`, `>>` of a whole byte string (nli.js:585-618).

    A byte string is read as one big-endian number. The shifts move whole
    bytes first and then carry the remaining bits from byte to byte; the
    bitwise operators combine each byte of the left operand with the byte
    at the same index on the right, where a missing byte reads as 0. */
module Bits {
  import opened Bytes
  import opened Fraction

  datatype BitOp = AndBits | OrBits | XorBits

  function BitOf(op: BitOp, x: bool, y: bool): bool {
    match op
    case AndBits => x && y
    case OrBits => x || y
    case XorBits => x != y
  }

  /** A bitwise operator on naturals, one binary digit at a time. */
  function Bitwise(op: BitOp, a: nat, b: nat): nat
    decreases a + b
  {
    if a == 0 && b == 0 then 0
    else 2 * Bitwise(op, a / 2, b / 2) + (if BitOf(op, a % 2 == 1, b % 2 == 1) then 1 else 0)
  }

  /** The operator keeps values within `n` bits. */
  lemma {:induction false} BitwiseBound(op: BitOp, a: nat, b: nat, n: nat)
    requires a < Pow(2, n) && b < Pow(2, n)
    ensures Bitwise(op, a, b) < Pow(2, n)
    decreases a + b
  {
    if a != 0 || b != 0 {
      assert n > 0;
      BitwiseBound(op, a / 2, b / 2, n - 1);
    }
  }

  function ByteBitwise(op: BitOp, x: Byte, y: Byte): (r: Byte)
    ensures r == Bitwise(op, x, y)
  {
    BitwiseBound(op, x, y, 8);
    Bitwise(op, x, y)
  }

  /** `a & b`, `a | b`, `a ^ b` on byte strings: as long as `a`, with the
      bytes of `b` past its end read as 0. */
  function ByteOp(op: BitOp, a: seq<Byte>, b: seq<Byte>): (r: seq<Byte>)
    ensures |r| == |a|
    ensures forall i | 0 <= i < |a| :: r[i] == Bitwise(op, a[i], if i < |b| then b[i] else 0)
  {
    seq(|a|, i requires 0 <= i < |a| => ByteBitwise(op, a[i], if i < |b| then b[i] else 0))
  }

  // ---------------------------------------------------------------------
  // Shifts

  /** The byte-moving loop: every byte travels `ni` places, towards the
      front for a left shift and towards the end for a right shift; places
      nothing lands on stay 0. */
  function Moved(a: seq<Byte>, ni: nat, left: bool): (r: seq<Byte>)
    ensures |r| == |a|
  {
    seq(|a|, d requires 0 <= d < |a| =>
      if left then (if d + ni < |a| then a[d + ni] else 0)
      else (if d >= ni then a[d - ni] else 0))
  }

  /** One byte of a left shift's carrying loop: the byte's own bits moved
      up by `nr` (kept to 8 bits) ORed with the top `nr` bits of the byte
      after it. */
  function CarryLeft(x: Byte, next: Byte, nr: nat): (r: Byte)
    requires nr < 8
  {
    var lo := (x * Pow(2, nr)) % 256;
    var hi := next / Pow(2, 8 - nr);
    BitwiseBound(OrBits, lo, hi, 8);
    Bitwise(OrBits, lo, hi)
  }

  /** One byte of a right shift's carrying loop: the byte's own bits moved
      down by `nr` ORed with the bottom bits of the byte before it, moved
      up by `8 - nr`; the store keeps the low 8 bits. */
  function CarryRight(x: Byte, prev: Byte, nr: nat): (r: Byte)
    requires nr < 8
  {
    Bitwise(OrBits, x / Pow(2, nr), prev * Pow(2, 8 - nr)) % 256
  }

  /** The carrying loop for the remaining `nr` bits. The neighbour is the
      next byte for a left shift and the previous one for a right shift;
      past either end it reads as 0. */
  function Carried(r: seq<Byte>, nr: nat, left: bool): (out: seq<Byte>)
    requires nr < 8
    ensures |out| == |r|
  {
    seq(|r|, p requires 0 <= p < |r| =>
      if left then CarryLeft(r[p], if p + 1 < |r| then r[p + 1] else 0, nr)
      else CarryRight(r[p], if p > 0 then r[p - 1] else 0, nr))
  }

  /** `a << n` (left) or `a >> n` for a non-negative shift count. */
  function Shift(a: seq<Byte>, n: nat, left: bool): (r: seq<Byte>)
    ensures |r| == |a|
  {
    Carried(Moved(a, n / 8, left), n % 8, left)
  }

  /** The number a byte string writes, most significant byte first. */
  function ToNat(s: seq<Byte>): nat {
    if s == [] then 0 else ToNat(s[..|s| - 1]) * 256 + s[|s| - 1]
  }

  function Zeros(n: nat): (r: seq<Byte>)
    ensures |r| == n
  {
    seq(n, _ => 0)
  }

  // ---------------------------------------------------------------------
  // Laws of the bitwise operators

  lemma {:induction false} BitwiseCommutes(op: BitOp, a: nat, b: nat)
    ensures Bitwise(op, a, b) == Bitwise(op, b, a)
    decreases a + b
  {
    if a != 0 || b != 0 {
      BitwiseCommutes(op, a / 2, b / 2);
    }
  }

  /** `x ^ y ^ y` gives back `x`. */
  lemma {:induction false} XorTwice(x: nat, y: nat)
    ensures Bitwise(XorBits, Bitwise(XorBits, x, y), y) == x
    decreases x + y
  {
    var z := Bitwise(XorBits, x, y);
    if x == 0 && y == 0 {
    } else {
      XorTwice(x / 2, y / 2);
      assert z / 2 == Bitwise(XorBits, x / 2, y / 2) && z % 2 == (if (x % 2 == 1) != (y % 2 == 1) then 1 else 0);
    }
  }

  /** `x | x` and `x & x` are `x`; `x ^ x` is 0. */
  lemma {:induction false} SelfBitwise(op: BitOp, x: nat)
    ensures Bitwise(op, x, x) == (if op == XorBits then 0 else x)
  {
    if x != 0 {
      SelfBitwise(op, x / 2);
    }
  }

  /** XOR with the same key twice gives back the byte string. */
  lemma XorUndoes(a: seq<Byte>, key: seq<Byte>)
    ensures ByteOp(XorBits, ByteOp(XorBits, a, key), key) == a
  {
    var once := ByteOp(XorBits, a, key);
    forall i | 0 <= i < |a|
      ensures ByteOp(XorBits, once, key)[i] == a[i]
    {
      XorTwice(a[i], if i < |key| then key[i] else 0);
    }
  }

  /** `a | a` and `a & a` give `a`; `a ^ a` gives as many zero bytes. */
  lemma SelfByteOp(op: BitOp, a: seq<Byte>)
    ensures ByteOp(op, a, a) == (if op == XorBits then Zeros(|a|) else a)
  {
    forall i | 0 <= i < |a|
      ensures ByteOp(op, a, a)[i] == (if op == XorBits then 0 else a[i])
    {
      SelfBitwise(op, a[i]);
    }
  }

  /** ORing a multiple of `2^k` with a number below `2^k` adds them. */
  lemma {:induction false} OrDisjoint(m: nat, y: nat, k: nat)
    requires y < Pow(2, k)
    ensures Bitwise(OrBits, m * Pow(2, k), y) == m * Pow(2, k) + y
  {
    if k == 0 {
      OrZero(m);
    } else {
      var h := m * Pow(2, k - 1);
      assert m * Pow(2, k) == 2 * h;
      OrDisjoint(m, y / 2, k - 1);
      if 2 * h == 0 && y == 0 {
      } else {
        assert Bitwise(OrBits, 2 * h, y) == 2 * Bitwise(OrBits, h, y / 2) + y % 2;
      }
    }
  }

  lemma {:induction false} OrZero(x: nat)
    ensures Bitwise(OrBits, x, 0) == x
  {
    if x != 0 {
      OrZero(x / 2);
    }
  }

  // ---------------------------------------------------------------------
  // Arithmetic on powers

  lemma {:induction false} PowAdd(b: nat, m: nat, n: nat)
    ensures Pow(b, m + n) == Pow(b, m) * Pow(b, n)
  {
    if m > 0 {
      var x, y := Pow(b, m - 1), Pow(b, n);
      PowAdd(b, m - 1, n);
      assert Pow(b, m + n) == b * Pow(b, m - 1 + n);
      assert Pow(b, m) == b * x;
      MulAssoc(b, x, y);
    }
  }

  lemma MulAssoc(a: nat, x: nat, y: nat)
    ensures a * (x * y) == (a * x) * y
  {}

  lemma {:induction false} BytePow(k: nat)
    ensures Pow(256, k) == Pow(2, 8 * k)
  {
    if k > 0 {
      BytePow(k - 1);
      PowAdd(2, 8, 8 * (k - 1));
      assert Pow(2, 8) == 256;
    }
  }

  /** The two parts a shift count splits into multiply back to `2^n`. */
  lemma ShiftPow(n: nat)
    ensures Pow(2, n) == Pow(256, n / 8) * Pow(2, n % 8)
  {
    BytePow(n / 8);
    PowAdd(2, 8 * (n / 8), n % 8);
  }

  lemma SplitByte(nr: nat)
    requires nr < 8
    ensures Pow(2, nr) * Pow(2, 8 - nr) == 256
  {
    PowAdd(2, nr, 8 - nr);
    assert Pow(2, 8) == 256;
  }

  lemma PowGrows(b: nat, m: nat, n: nat)
    requires b > 0 && m <= n
    ensures Pow(b, m) <= Pow(b, n)
  {
    PowAdd(b, m, n - m);
    MulAtLeast(Pow(b, m), Pow(b, n - m));
  }

  lemma MulBelow(x: nat, y: nat, c: nat)
    requires x < y
    ensures x * c + c <= y * c
  {
    assert y * c == x * c + (y - x) * c;
    if c > 0 {
      MulAtLeast(c, y - x);
    }
  }

  /** Dividing by a product is dividing by one factor and then the other. */
  lemma DivDiv(x: nat, a: nat, b: nat)
    requires a > 0 && b > 0
    ensures x / (a * b) == (x / a) / b
  {
    var q, s := x / a, x % a;
    var q2, s2 := q / b, q % b;
    assert q == b * q2 + s2;
    assert x == a * q + s;
    assert x == (a * b) * q2 + (a * s2 + s) by {
      assert a * q == a * (b * q2) + a * s2;
    }
    MulBelow(s2, b, a);
    assert a * s2 + s < a * b by {
      assert s2 * a + a <= b * a;
    }
    DivModUnique(x, a * b, q2, a * s2 + s);
  }

  /** A common factor cancels in a quotient. */
  lemma DivCancel(x: nat, c: nat, y: nat)
    requires c > 0 && y > 0
    ensures (x * c) / (y * c) == x / y
  {
    var q, s := x / y, x % y;
    assert x * c == (y * c) * q + s * c by {
      assert x == y * q + s;
    }
    MulBelow(s, y, c);
    DivModUnique(x * c, y * c, q, s * c);
  }

  /** Reducing modulo `a * b` and then modulo `a` is reducing modulo `a`. */
  lemma ModMod(x: nat, a: nat, b: nat)
    requires a > 0 && b > 0
    ensures (x % (a * b)) % a == x % a
  {
    var s := x % (a * b);
    var q := x / (a * b);
    assert x == a * (b * q + s / a) + s % a by {
      assert x == (a * b) * q + s;
      assert s == a * (s / a) + s % a;
    }
    DivModUnique(x, a, b * q + s / a, s % a);
  }

  /** Multiplying after a reduction modulo `m` gives the same residue. */
  lemma MulMod(x: nat, c: nat, m: nat)
    requires m > 0
    ensures ((x % m) * c) % m == (x * c) % m
  {
    var q, s := x / m, x % m;
    var t := (s * c) / m;
    assert x * c == m * (q * c + t) + (s * c) % m by {
      assert x == m * q + s;
      assert s * c == m * t + (s * c) % m;
    }
    DivModUnique(x * c, m, q * c + t, (s * c) % m);
  }

  // ---------------------------------------------------------------------
  // Byte strings as numbers

  lemma {:induction false} ToNatAppend(a: seq<Byte>, b: seq<Byte>)
    ensures ToNat(a + b) == ToNat(a) * Pow(256, |b|) + ToNat(b)
    decreases |b|
  {
    if b == [] {
      assert a + b == a;
    } else {
      var b' := b[..|b| - 1];
      assert (a + b)[..|a + b| - 1] == a + b';
      ToNatAppend(a, b');
      ToNatLast(a + b);
      ToNatLast(b);
      AppendStep(ToNat(a), Pow(256, |b'|), ToNat(b'), b[|b| - 1], ToNat(a + b), Pow(256, |b|), ToNat(b));
    }
  }

  /** The numeric step of `ToNatAppend`. */
  lemma AppendStep(ta: nat, p: nat, tb: nat, last: nat, whole: nat, P: nat, TB: nat)
    requires whole == (ta * p + tb) * 256 + last && P == 256 * p && TB == tb * 256 + last
    ensures whole == ta * P + TB
  {}

  lemma {:induction false} ToNatBound(s: seq<Byte>)
    ensures ToNat(s) < Pow(256, |s|)
  {
    if s != [] {
      var s' := s[..|s| - 1];
      ToNatBound(s');
      MulBelow(ToNat(s'), Pow(256, |s'|), 256);
    }
  }

  lemma {:induction false} ToNatZeros(n: nat)
    ensures ToNat(Zeros(n)) == 0
  {
    if n > 0 {
      assert Zeros(n)[..n - 1] == Zeros(n - 1);
      ToNatZeros(n - 1);
    }
  }

  lemma {:induction false} ToNatFront(s: seq<Byte>)
    requires |s| > 0
    ensures ToNat(s) == s[0] * Pow(256, |s| - 1) + ToNat(s[1..])
    decreases |s|
  {
    var L := |s|;
    if L == 1 {
      assert s == [s[0]] && s[1..] == [];
      ToNatSingle(s[0]);
    } else {
      var init, tail := s[..L - 1], s[1..];
      ToNatFront(init);
      assert init[1..] == tail[..L - 2];
      ToNatLast(s);
      ToNatLast(tail);
      AppendStep(s[0], Pow(256, L - 2), ToNat(init[1..]), s[L - 1], ToNat(s), Pow(256, L - 1), ToNat(tail));
    }
  }

  lemma ToNatSingle(b: Byte)
    ensures ToNat([b]) == b
  {
    assert [b][..0] == [];
  }

  /** The leading byte is the number's top digit in base 256. */
  lemma FirstByte(s: seq<Byte>)
    requires |s| > 0
    ensures ToNat(s) / Pow(256, |s| - 1) == s[0]
  {
    ToNatFront(s);
    ToNatBound(s[1..]);
    Quotient(ToNat(s), s[0], Pow(256, |s| - 1), ToNat(s[1..]));
  }

  /** `x * P + rest` divided by `P` is `x` when `rest < P`. */
  lemma Quotient(t: nat, x: nat, P: nat, rest: nat)
    requires t == x * P + rest && rest < P
    ensures t / P == x && t % P == rest
  {
    DivModUnique(t, P, x, rest);
  }

  // ---------------------------------------------------------------------
  // The byte-moving phase

  lemma MovedLeftBytes(a: seq<Byte>, ni: nat)
    requires ni <= |a|
    ensures Moved(a, ni, true) == a[ni..] + Zeros(ni)
  {}

  lemma MovedRightBytes(a: seq<Byte>, ni: nat)
    requires ni <= |a|
    ensures Moved(a, ni, false) == Zeros(ni) + a[..|a| - ni]
  {}

  /** Moving bytes towards the front multiplies by `256^ni`, dropping what
      overflows the string's length. */
  lemma MovedLeftValue(a: seq<Byte>, ni: nat)
    ensures ToNat(Moved(a, ni, true)) == (ToNat(a) * Pow(256, ni)) % Pow(256, |a|)
  {
    if ni <= |a| {
      MovedLeftFits(a, ni);
    } else {
      MovedLeftOut(a, ni);
    }
  }

  lemma MovedLeftFits(a: seq<Byte>, ni: nat)
    requires ni <= |a|
    ensures ToNat(Moved(a, ni, true)) == (ToNat(a) * Pow(256, ni)) % Pow(256, |a|)
  {
    var hi, lo := a[..ni], a[ni..];
    assert a == hi + lo;
    ToNatAppend(hi, lo);
    MovedLeftBytes(a, ni);
    ToNatAppend(lo, Zeros(ni));
    ToNatZeros(ni);
    PowAdd(256, |lo|, ni);
    ToNatBound(lo);
    KeepLow(ToNat(a), ToNat(hi), ToNat(lo), Pow(256, |lo|), Pow(256, ni));
  }

  /** Moving every byte past the front leaves only zeros. */
  lemma MovedLeftOut(a: seq<Byte>, ni: nat)
    requires ni > |a|
    ensures ToNat(Moved(a, ni, true)) == (ToNat(a) * Pow(256, ni)) % Pow(256, |a|)
  {
    var L := |a|;
    var t, P, Q := ToNat(a), Pow(256, L), Pow(256, ni - L);
    assert ToNat(Moved(a, ni, true)) == 0 by {
      assert Moved(a, ni, true) == Zeros(L);
      ToNatZeros(L);
    }
    assert Pow(256, ni) == P * Q by { PowAdd(256, L, ni - L); }
    MultipleMod(t, P, Q);
  }

  lemma MultipleMod(t: nat, P: nat, Q: nat)
    requires P > 0
    ensures (t * (P * Q)) % P == 0
  {
    assert t * (P * Q) == P * (t * Q);
    DivModUnique(t * (P * Q), P, t * Q, 0);
  }

  /** `(H * P + T) * Q` kept below `P * Q` is `T * Q` when `T < P`. */
  lemma KeepLow(t: nat, H: nat, T: nat, P: nat, Q: nat)
    requires t == H * P + T && T < P && Q > 0
    ensures (T * Q) == (t * Q) % (P * Q)
  {
    MulBelow(T, P, Q);
    assert (H * P + T) * Q == (P * Q) * H + T * Q;
    DivModUnique((H * P + T) * Q, P * Q, H, T * Q);
  }

  /** Moving bytes towards the end divides by `256^ni`. */
  lemma MovedRightValue(a: seq<Byte>, ni: nat)
    ensures ToNat(Moved(a, ni, false)) == ToNat(a) / Pow(256, ni)
  {
    var L := |a|;
    if ni <= L {
      var hi, lo := a[..L - ni], a[L - ni..];
      assert a == hi + lo;
      ToNatAppend(hi, lo);
      MovedRightKeepsFront(a, ni);
      ToNatBound(lo);
      Quotient(ToNat(a), ToNat(hi), Pow(256, ni), ToNat(lo));
    } else {
      assert Moved(a, ni, false) == Zeros(L);
      ToNatZeros(L);
      ToNatBound(a);
      PowGrows(256, L, ni);
      Quotient(ToNat(a), 0, Pow(256, ni), ToNat(a));
    }
  }

  /** Moving bytes towards the end leaves the number the front bytes write. */
  lemma MovedRightKeepsFront(a: seq<Byte>, ni: nat)
    requires ni <= |a|
    ensures ToNat(Moved(a, ni, false)) == ToNat(a[..|a| - ni])
  {
    var hi := a[..|a| - ni];
    MovedRightBytes(a, ni);
    ToNatAppend(Zeros(ni), hi);
    ToNatZeros(ni);
  }

  // ---------------------------------------------------------------------
  // The carrying phase

  /** A left-shift byte is its own low bits moved up plus the neighbour's top bits. */
  lemma CarryLeftSum(x: Byte, next: Byte, nr: nat)
    requires nr < 8
    ensures CarryLeft(x, next, nr) == (x % Pow(2, 8 - nr)) * Pow(2, nr) + next / Pow(2, 8 - nr)
  {
    var A, B := Pow(2, nr), Pow(2, 8 - nr);
    SplitByte(nr);
    TopBits(next, A, B);
    LeftByte(x, next / B, A, B, nr);
  }

  /** Keeping `x * A` to a byte and ORing in `lo < A = 2^k`, when `A * B == 256`. */
  lemma LeftByte(x: nat, lo: nat, A: nat, B: nat, k: nat)
    requires B > 0 && A == Pow(2, k) && A * B == 256 && lo < A
    ensures Bitwise(OrBits, (x * A) % 256, lo) == (x % B) * A + lo
  {
    LowBitsUp(x, A, B);
    OrDisjoint(x % B, lo, k);
  }

  /** A right-shift byte is its own top bits moved down plus the neighbour's low bits. */
  lemma CarryRightSum(x: Byte, prev: Byte, nr: nat)
    requires nr < 8
    ensures CarryRight(x, prev, nr) == x / Pow(2, nr) + (prev % Pow(2, nr)) * Pow(2, 8 - nr)
  {
    var A, B := Pow(2, nr), Pow(2, 8 - nr);
    SplitByte(nr);
    TopBits(x, B, A);
    RightByte(prev, x / A, A, B, 8 - nr);
  }

  /** ORing `hi < B = 2^k` with `prev * B` and keeping a byte, when `A * B == 256`. */
  lemma RightByte(prev: nat, hi: nat, A: nat, B: nat, k: nat)
    requires A > 0 && B == Pow(2, k) && A * B == 256 && hi < B
    ensures Bitwise(OrBits, hi, prev * B) % 256 == hi + (prev % A) * B
  {
    var v := prev * B;
    BitwiseCommutes(OrBits, hi, v);
    OrDisjoint(prev, hi, k);
    LowBitsUpPlus(prev, hi, B, A);
    SameResidue(Bitwise(OrBits, hi, v), v + hi, hi + (prev % A) * B);
  }

  /** `x * A` kept to a byte is `x`'s low bits moved up, when `A * B == 256`. */
  lemma LowBitsUp(x: nat, A: nat, B: nat)
    requires A > 0 && B > 0 && A * B == 256
    ensures (x * A) % 256 == (x % B) * A
  {
    LowBitsUpPlus(x, 0, A, B);
  }

  /** `x * A + y` kept to a byte, for `y < A` and `A * B == 256`. */
  lemma LowBitsUpPlus(x: nat, y: nat, A: nat, B: nat)
    requires A > 0 && B > 0 && A * B == 256 && y < A
    ensures (x * A + y) % 256 == (x % B) * A + y
  {
    var h, low := x / B, x % B;
    assert x * A == 256 * h + low * A by {
      assert x == B * h + low;
    }
    MulBelow(low, B, A);
    DivModUnique(x * A + y, 256, h, low * A + y);
  }

  /** A byte's top bits above `B` are fewer than `A` when `A * B == 256`. */
  lemma TopBits(x: Byte, A: nat, B: nat)
    requires A > 0 && B > 0 && A * B == 256
    ensures x / B < A
  {
    assert B * (x / B) <= x;
    if x / B >= A {
      MulAtLeastBy(x / B, A, B);
    }
  }

  lemma CarriedLeftTail(r: seq<Byte>, nr: nat)
    requires nr < 8 && |r| > 0
    ensures Carried(r, nr, true)[1..] == Carried(r[1..], nr, true)
  {}

  lemma CarriedRightInit(r: seq<Byte>, nr: nat)
    requires nr < 8 && |r| > 0
    ensures Carried(r, nr, false)[..|r| - 1] == Carried(r[..|r| - 1], nr, false)
  {}

  lemma SameResidue(x: nat, y: nat, v: nat)
    requires x == y && y % 256 == v
    ensures x % 256 == v
  {}

  /** One step of the right-shift induction, in numbers: appending a low
      byte `c` to `R` and dividing by `A = 2^nr` appends the byte made of
      `c`'s top bits and `R`'s low bits. */
  lemma RightStep(R: nat, c: Byte, A: nat, B: nat)
    requires A > 0 && B > 0 && A * B == 256
    ensures (R * 256 + c) / A == (R / A) * 256 + (R % A) * B + c / A
  {
    var q, s := R / A, R % A;
    assert R * 256 + c == A * (q * 256 + s * B + c / A) + c % A by {
      assert R == A * q + s;
      assert c == A * (c / A) + c % A;
      assert R * 256 == A * (q * 256) + A * (s * B);
    }
    DivModUnique(R * 256 + c, A, q * 256 + s * B + c / A, c % A);
  }

  /** The carrying phase of `>>` divides by `2^nr`. */
  lemma {:induction false} CarriedRightValue(r: seq<Byte>, nr: nat)
    requires nr < 8
    ensures ToNat(Carried(r, nr, false)) == ToNat(r) / Pow(2, nr)
    decreases |r|
  {
    var A, B := Pow(2, nr), Pow(2, 8 - nr);
    var out := Carried(r, nr, false);
    if r == [] {
      assert out == [];
      DivModUnique(0, A, 0, 0);
    } else {
      var L := |r|;
      var init, c := r[..L - 1], r[L - 1];
      var prev: Byte := if L > 1 then r[L - 2] else 0;
      CarriedRightInit(r, nr);
      CarriedRightValue(init, nr);
      assert out[L - 1] == CarryRight(c, prev, nr);
      CarryRightSum(c, prev, nr);
      LastByte(init, prev);
      SplitByte(nr);
      ToNatLast(out);
      ToNatLast(r);
      RightValueStep(ToNat(init), c, prev, A, B, ToNat(out[..L - 1]), out[L - 1], ToNat(r), ToNat(out));
    }
  }

  lemma ToNatLast(s: seq<Byte>)
    requires |s| > 0
    ensures ToNat(s) == ToNat(s[..|s| - 1]) * 256 + s[|s| - 1]
  {}

  /** The last byte of a string is the number it writes modulo 256 (0 for the empty string). */
  lemma LastByte(s: seq<Byte>, b: Byte)
    requires if s == [] then b == 0 else b == s[|s| - 1]
    ensures ToNat(s) % 256 == b
  {
    if s != [] {
      ToNatBound(s[..|s| - 1]);
      Quotient(ToNat(s), ToNat(s[..|s| - 1]), 256, b);
    }
  }

  /** The numeric step of `CarriedRightValue`: the carried prefix and the
      carried last byte together write `(R * 256 + c) / A`. */
  lemma RightValueStep(R: nat, c: Byte, prev: Byte, A: nat, B: nat, front: nat, last: nat, whole: nat, result: nat)
    requires A > 0 && B > 0 && A * B == 256
    requires front == R / A && R % 256 == prev && last == c / A + (prev % A) * B
    requires whole == R * 256 + c && result == front * 256 + last
    ensures result == whole / A
  {
    ModMod(R, A, B);
    RightStep(R, c, A, B);
  }

  /** One step of the left-shift induction, in numbers: putting a top byte
      `x` in front of the `M`-byte number `T`, multiplying by `A = 2^nr`
      and keeping `M + 1` bytes gives `x`'s low bits moved up, plus the bits
      moved out of `T`, then `T * A` kept to `M` bytes. */
  lemma LeftStep(x: Byte, T: nat, P: nat, A: nat, B: nat)
    requires A > 0 && B > 0 && A * B == 256 && T < P
    ensures ((x % B) * A + (T * A) / P) * P + (T * A) % P == ((x * P + T) * A) % (256 * P)
  {
    ProductTop(T, P, A);
    LeftDigits(x, T, P, A, B, x / B, x % B, (T * A) / P, (T * A) % P);
  }

  /** `LeftStep` with the quotients and remainders named. */
  lemma LeftDigits(x: nat, T: nat, P: nat, A: nat, B: nat, h: nat, low: nat, q: nat, m: nat)
    requires A * B == 256 && x == B * h + low && low < B && T * A == P * q + m && q < A && m < P
    ensures (low * A + q) * P + m == ((x * P + T) * A) % (256 * P)
  {
    DigitFits(low, q, A, B);
    LeftSplit(x, T, P, A, B, h, low, q, m);
    TopDigit(h, low * A + q, m, P);
  }

  /** A digit below `B` scaled by `A`, plus less than `A`, stays a byte when `A * B == 256`. */
  lemma DigitFits(low: nat, q: nat, A: nat, B: nat)
    requires low < B && q < A && A * B == 256
    ensures low * A + q < 256
  {
    MulAtLeastBy(B, low + 1, A);
  }

  /** `(x * P + T) * A` in digits of `256 * P`, with `x = B * h + low` and `T * A = P * q + m`. */
  lemma LeftSplit(x: nat, T: nat, P: nat, A: nat, B: nat, h: nat, low: nat, q: nat, m: nat)
    requires A * B == 256 && x == B * h + low && T * A == P * q + m
    ensures (x * P + T) * A == (256 * P) * h + ((low * A + q) * P + m)
  {
    assert x * A == 256 * h + low * A;
    assert (x * P + T) * A == (x * A) * P + T * A;
  }

  /** Multiplying a number below `P` by `A` leaves fewer than `A` multiples of `P`. */
  lemma ProductTop(T: nat, P: nat, A: nat)
    requires T < P && A > 0
    ensures (T * A) / P < A
  {
    var q := (T * A) / P;
    assert P * q <= T * A;
    MulBelow(T, P, A);
    if q >= A {
      MulAtLeastBy(q, A, P);
    }
  }

  /** Below `256 * P`, a top byte `top` over an `m < P` stays put. */
  lemma TopDigit(h: nat, top: nat, m: nat, P: nat)
    requires top < 256 && m < P
    ensures ((256 * P) * h + (top * P + m)) % (256 * P) == top * P + m
  {
    MulBelow(top, 256, P);
    DivModUnique((256 * P) * h + (top * P + m), 256 * P, h, top * P + m);
  }

  lemma MulAtLeastBy(q: nat, a: nat, p: nat)
    requires q >= a
    ensures q * p >= a * p
  {
    assert q * p == a * p + (q - a) * p;
  }

  /** The bits a left-shift byte takes from the byte after it are the bits
      the rest of the string loses when multiplied by `2^nr`. */
  lemma CarryIn(s: seq<Byte>, nr: nat)
    requires nr < 8
    ensures (if |s| > 0 then s[0] else 0) / Pow(2, 8 - nr) == (ToNat(s) * Pow(2, nr)) / Pow(256, |s|)
  {
    var A, B := Pow(2, nr), Pow(2, 8 - nr);
    SplitByte(nr);
    if |s| == 0 {
      DivModUnique(0, 1, 0, 0);
      DivModUnique(0, B, 0, 0);
    } else {
      FirstByte(s);
      CarryInStep(ToNat(s), Pow(256, |s| - 1), A, B, s[0], Pow(256, |s|));
    }
  }

  /** The numeric core of `CarryIn`: the top byte `first` of `t` over `256^k = P`,
      cut to its top bits, is `t * A` over `256 * P`. */
  lemma CarryInStep(t: nat, P: nat, A: nat, B: nat, first: nat, M: nat)
    requires A > 0 && B > 0 && P > 0 && A * B == 256 && t / P == first && M == 256 * P
    ensures first / B == (t * A) / M
  {
    assert M == (P * B) * A;
    DivCancel(t, A, P * B);
    DivDiv(t, P, B);
  }

  /** The carrying phase of `<<` multiplies by `2^nr` and keeps the string's length. */
  lemma {:induction false} CarriedLeftValue(r: seq<Byte>, nr: nat)
    requires nr < 8
    ensures ToNat(Carried(r, nr, true)) == (ToNat(r) * Pow(2, nr)) % Pow(256, |r|)
    decreases |r|
  {
    var A, B := Pow(2, nr), Pow(2, 8 - nr);
    if r == [] {
      DivModUnique(0, 1, 0, 0);
    } else {
      var x, s := r[0], r[1..];
      var out := Carried(r, nr, true);
      var next: Byte := if |s| > 0 then s[0] else 0;
      CarriedLeftTail(r, nr);
      CarriedLeftValue(s, nr);
      ToNatFront(out);
      ToNatFront(r);
      assert out[0] == CarryLeft(x, next, nr);
      CarryLeftSum(x, next, nr);
      CarryIn(s, nr);
      SplitByte(nr);
      ToNatBound(s);
      assert Pow(256, |r|) == 256 * Pow(256, |s|);
      LeftValueStep(x, ToNat(s), Pow(256, |s|), A, B, out[0], ToNat(out[1..]), ToNat(r), ToNat(out), Pow(256, |r|));
    }
  }

  /** The numeric step of `CarriedLeftValue`, with the two sides named. */
  lemma LeftValueStep(x: Byte, T: nat, P: nat, A: nat, B: nat, first: nat, rest: nat, whole: nat, result: nat, M: nat)
    requires A > 0 && B > 0 && A * B == 256 && T < P && M == 256 * P
    requires first == (x % B) * A + (T * A) / P && rest == (T * A) % P
    requires whole == x * P + T && result == first * P + rest
    ensures result == (whole * A) % M
  {
    LeftStep(x, T, P, A, B);
  }

  // ---------------------------------------------------------------------
  // The shifts as a whole

  /** `a << n` is the number `a` writes times `2^n`, kept to `|a|` bytes. */
  lemma ShiftLeftValue(a: seq<Byte>, n: nat)
    ensures ToNat(Shift(a, n, true)) == (ToNat(a) * Pow(2, n)) % Pow(256, |a|)
  {
    var m := Moved(a, n / 8, true);
    MovedLeftValue(a, n / 8);
    CarriedLeftValue(m, n % 8);
    ShiftPow(n);
    ScaleTwice(ToNat(a), Pow(256, n / 8), Pow(2, n % 8), Pow(256, |a|), ToNat(m), ToNat(Shift(a, n, true)), Pow(2, n));
  }

  /** Scaling by `p`, keeping the residue, then by `q` is scaling by `p * q`. */
  lemma ScaleTwice(t: nat, p: nat, q: nat, M: nat, mid: nat, out: nat, pq: nat)
    requires M > 0 && mid == (t * p) % M && out == (mid * q) % M && pq == p * q
    ensures out == (t * pq) % M
  {
    MulMod(t * p, q, M);
    assert t * p * q == t * pq;
  }

  /** `a >> n` is the number `a` writes divided by `2^n`, rounded down. */
  lemma ShiftRightValue(a: seq<Byte>, n: nat)
    ensures ToNat(Shift(a, n, false)) == ToNat(a) / Pow(2, n)
  {
    var ni, nr := n / 8, n % 8;
    var m := Moved(a, ni, false);
    MovedRightValue(a, ni);
    CarriedRightValue(m, nr);
    DivDiv(ToNat(a), Pow(256, ni), Pow(2, nr));
    ShiftPow(n);
  }

  // ---------------------------------------------------------------------
  // Consequences for whole strings

  /** Two strings of one length that write the same number are equal. */
  lemma {:induction false} ToNatInjective(a: seq<Byte>, b: seq<Byte>)
    requires |a| == |b| && ToNat(a) == ToNat(b)
    ensures a == b
  {
    if a != [] {
      var n := |a| - 1;
      DivModUnique(ToNat(a), 256, ToNat(a[..n]), a[n]);
      DivModUnique(ToNat(a), 256, ToNat(b[..n]), b[n]);
      ToNatInjective(a[..n], b[..n]);
      assert a == a[..n] + [a[n]] && b == b[..n] + [b[n]];
    }
  }

  /** Shifting by zero bits changes nothing. */
  lemma ShiftByZero(a: seq<Byte>, left: bool)
    ensures Shift(a, 0, left) == a
  {
    var r, t, M := Shift(a, 0, left), ToNat(a), Pow(256, |a|);
    assert Pow(2, 0) == 1;
    if left {
      ShiftLeftValue(a, 0);
      assert t * 1 == t;
      ToNatBound(a);
      DivModUnique(t, M, 0, t);
    } else {
      ShiftRightValue(a, 0);
    }
    assert ToNat(r) == t;
    ToNatInjective(r, a);
  }

  /** Shifting by the whole width or more leaves only zero bytes. */
  lemma ShiftOut(a: seq<Byte>, n: nat, left: bool)
    requires n >= 8 * |a|
    ensures Shift(a, n, left) == Zeros(|a|)
  {
    var r, t, M := Shift(a, n, left), ToNat(a), Pow(256, |a|);
    var w := 8 * |a|;
    BytePow(|a|);
    PowAdd(2, w, n - w);
    if left {
      ShiftLeftValue(a, n);
      OutLeft(t, M, Pow(2, n - w), Pow(2, n), ToNat(r));
    } else {
      ShiftRightValue(a, n);
      ToNatBound(a);
      OutRight(t, M, Pow(2, n - w), Pow(2, n), ToNat(r));
    }
    ToNatZeros(|a|);
    ToNatInjective(r, Zeros(|a|));
  }

  /** A multiple of `M` kept below `M` is zero. */
  lemma OutLeft(t: nat, M: nat, Q: nat, N: nat, v: nat)
    requires M > 0 && N == M * Q && v == (t * N) % M
    ensures v == 0
  {
    MultipleMod(t, M, Q);
  }

  /** A number below `M` divided by a multiple of `M` is zero. */
  lemma OutRight(t: nat, M: nat, Q: nat, N: nat, v: nat)
    requires t < M && Q > 0 && N == M * Q && v == t / N
    ensures v == 0
  {
    MulAtLeast(M, Q);
    DivModUnique(t, N, 0, t);
  }

  /** One bit left moves the low bit of a byte up: `0x01 << 1` is `0x02`. */
  lemma OneBitLeft()
    ensures Shift([1], 1, true) == [2]
  {
    var r := Shift([1], 1, true);
    ShiftLeftValue([1], 1);
    assert ToNat([1]) == 1 && ToNat([2]) == 2 by {
      assert [1][..0] == [] && [2][..0] == [];
    }
    assert Pow(2, 1) == 2 && Pow(256, 1) == 256;
    DivModUnique(2, 256, 0, 2);
    assert ToNat(r) == 2;
    ToNatInjective(r, [2]);
  }
}

=== FILE: bytes.dfy ===
/** Bytes, ASCII text and decimal numerals.

    Program text, words, dictionary keys, string values and formatter output
    are all byte sequences. The source converts between JavaScript strings and
    buffers with UTF-8; restricted to ASCII that conversion is the identity, so
    one character is one byte throughout the model. */
module Bytes {

  type Byte = b: int | 0 <= b < 256

  /** The bytes of an ASCII string literal. */
  function Text(s: string): (r: seq<Byte>)
    requires forall i | 0 <= i < |s| :: s[i] as int < 256
    ensures |r| == |s|
    ensures forall i | 0 <= i < |s| :: r[i] == s[i] as int
  {
    seq(|s|, i requires 0 <= i < |s| => s[i] as int)
  }

  const Zero: Byte := '0' as int

  predicate IsDigit(c: Byte) {
    '0' as int <= c <= '9' as int
  }

  predicate AllDigits(s: seq<Byte>) {
    forall i | 0 <= i < |s| :: IsDigit(s[i])
  }

  function Pow(b: nat, e: nat): (r: nat)
    ensures b > 0 ==> r > 0
  {
    if e == 0 then 1 else b * Pow(b, e - 1)
  }

  /** The value of a string of decimal digits, most significant first: what
      `parseInt` gives for such a string. */
  function DigitsValue(s: seq<Byte>): nat
    requires AllDigits(s)
  {
    if s == [] then 0 else DigitsValue(s[..|s| - 1]) * 10 + (s[|s| - 1] - Zero)
  }

  /** The shortest decimal numeral of `n`, as `Number.prototype.toString`
      writes a non-negative integer. */
  function Decimal(n: nat): (r: seq<Byte>)
    ensures |r| > 0 && AllDigits(r)
    ensures r[0] == Zero ==> n == 0
  {
    if n < 10 then [Zero + n] else Decimal(n / 10) + [Zero + n % 10]
  }

  /** The text of an integer, with a leading `-` when it is negative. */
  function IntText(n: int): (r: seq<Byte>)
    ensures |r| > 0
    ensures n >= 0 <==> r[0] != '-' as int
  {
    if n < 0 then Text("-") + Decimal(-n) else Decimal(n)
  }

  /** Reading back a numeral gives the number it was written from. */
  lemma {:induction false} DecimalRoundTrip(n: nat)
    ensures DigitsValue(Decimal(n)) == n
  {
    if n >= 10 {
      var s := Decimal(n);
      assert s[..|s| - 1] == Decimal(n / 10);
      DecimalRoundTrip(n / 10);
    }
  }

  /** Numerals are canonical: two numbers with the same text are equal. */
  lemma DecimalInjective(m: nat, n: nat)
    requires Decimal(m) == Decimal(n)
    ensures m == n
  {
    DecimalRoundTrip(m);
    DecimalRoundTrip(n);
  }

  /** A numeral without leading zeros, the form `Decimal` writes. */
  predicate IsNumeral(s: seq<Byte>) {
    |s| > 0 && AllDigits(s) && (s[0] == Zero ==> |s| == 1)
  }

  lemma DecimalIsNumeral(n: nat)
    ensures IsNumeral(Decimal(n))
  {}

  /** Writing back the value of a numeral without leading zeros gives the numeral. */
  lemma {:induction false} NumeralRoundTrip(s: seq<Byte>)
    requires IsNumeral(s)
    ensures Decimal(DigitsValue(s)) == s
  {
    if |s| > 1 {
      var p, d := s[..|s| - 1], s[|s| - 1] - Zero;
      assert p[0] == s[0];
      NumeralRoundTrip(p);
      NumeralPositive(p);
      var n := DigitsValue(s);
      assert n == DigitsValue(p) * 10 + d;
      assert n / 10 == DigitsValue(p) && n % 10 == d;
      assert s == p + [Zero + d];
    }
  }

  lemma {:induction false} NumeralPositive(s: seq<Byte>)
    requires |s| > 0 && AllDigits(s) && s[0] != Zero
    ensures DigitsValue(s) >= 1
  {
    if |s| > 1 {
      var p := s[..|s| - 1];
      assert p[0] == s[0];
      NumeralPositive(p);
    }
  }

  /** Numerals without leading zeros are equal when their values are. */
  lemma NumeralInjective(a: seq<Byte>, b: seq<Byte>)
    requires IsNumeral(a) && IsNumeral(b) && DigitsValue(a) == DigitsValue(b)
    ensures a == b
  {
    NumeralRoundTrip(a);
    NumeralRoundTrip(b);
  }
}

=== FILE: evaluator.dfy ===
/** `evaluate` (nli.js:489-730): the tree-walking evaluator.

    Operands are evaluated left to right, each operator then inspects what
    it got. Errors the source raises as JavaScript exceptions (reading a
    property of `undefined`, calling a non-function) become `Fail` results
    at the point where the source would throw, so that which error wins is
    decided by the same evaluation order. Closure calls spend one unit of
    `fuel`; a program that needs more fails with `OutOfFuel`. */
module Evaluator {
  import opened Bytes
  import opened Fraction
  import opened Results
  import opened Lexer
  import opened Parser
  import opened Values
  import opened Bits

  // ---------------------------------------------------------------------
  // Tree sizes, the termination measure

  function Size(b: Branch): (n: nat)
    ensures n >= 1
    decreases b, 1
  {
    match b
    case Leaf(_) => 1
    case Combination(_, x, y) => 1 + Size(x) + Size(y)
    case Application(x, y) => 1 + Size(x) + Size(y)
    case Function(_, body) => 1 + Size(body)
    case ListBranch(_) => 1 + ItemsSize(b, 0)
    case DictBranch(_) => 1 + EntriesSize(b, 0)
    case Expression(c) => 1 + Size(c)
    case Absent => 1
  }

  /** The sizes of the list elements from index `i` on. */
  function ItemsSize(b: Branch, i: nat): nat
    requires b.ListBranch? && i <= |b.items|
    decreases b, 0, |b.items| - i
  {
    if i == |b.items| then 0 else Size(b.items[i]) + ItemsSize(b, i + 1)
  }

  /** The sizes of the dictionary keys and values from entry `i` on. */
  function EntriesSize(b: Branch, i: nat): nat
    requires b.DictBranch? && i <= |b.entries|
    decreases b, 0, |b.entries| - i
  {
    if i == |b.entries| then 0
    else Size(b.entries[i].0) + Size(b.entries[i].1) + EntriesSize(b, i + 1)
  }

  // ---------------------------------------------------------------------
  // Operators on evaluated operands

  /** A leaf evaluated: literals are themselves, a word is looked up (an
      unbound word is NULL), an operator token comes back as it is. */
  function LeafValue(t: Token, env: Env): (r: Result<Value>)
    ensures t.WordToken? ==> r == Ok(if t.text in env then env[t.text] else Null)
  {
    match t
    case WordToken(w) => Ok(if w in env then env[w] else Null)
    case NumberToken(f) => Ok(Number(f))
    case StringToken(s) => Ok(Str(s))
    case NullToken => Ok(Null)
    case OperatorToken(text) => Ok(Stray(text))
    case BracketToken(_) => Fail(Unmodelled)
    case SpecialToken(_) => Fail(Unmodelled)
  }

  /** The property key of `a.b`: a word's text, a number's numerator, a
      string's bytes, or JavaScript's `undefined` for anything else. */
  datatype Key = NumKey(n: int) | NameKey(name: seq<Byte>) | NoKey

  function KeyOf(v: Value): Key {
    match v
    case Number(f) => NumKey(f.num)
    case Str(s) => NameKey(s)
    case _ => NoKey
  }

  /** The property name a key becomes on a plain object. */
  function KeyName(k: Key): seq<Byte> {
    match k
    case NumKey(n) => IntText(n)
    case NameKey(w) => w
    case NoKey => ['u' as int, 'n' as int, 'd' as int, 'e' as int, 'f' as int, 'i' as int, 'n' as int, 'e' as int, 'd' as int]
  }

  /** The array position a key names, if it names one below `len`. */
  function ArrayIndex(k: Key, len: nat): (r: Option<nat>)
    ensures r.Some? ==> r.value < len
  {
    match k
    case NumKey(n) => if 0 <= n < len then Some(n) else None
    case NameKey(w) => if IsNumeral(w) && DigitsValue(w) < len then Some(DigitsValue(w)) else None
    case NoKey => None
  }

  /** `length`: an own property of arrays, strings and functions. */
  function LengthName(): seq<Byte> {
    ['l' as int, 'e' as int, 'n' as int, 'g' as int, 't' as int, 'h' as int]
  }

  /** `name`: an own property of functions. A closure's arrow function is
      the `val` of an object literal, so its name is `val`. */
  function FunctionName(): seq<Byte> {
    ['n' as int, 'a' as int, 'm' as int, 'e' as int]
  }

  /** `a.b` once both sides are known (nli.js:495-527). A string yields the
      byte at a numeric position, NULL for a zero byte or a position out of
      range; a numeral name `n` yields the bytes from `n` up to `10n + 1`,
      because the source slices to `k + 1` with `k` a string. A list yields
      its element, a dictionary the entry, a number a non-zero numerator or
      denominator only as a raw JavaScript number. The own `length` of an
      array or a string and the own `length` and `name` of a function are
      raw JavaScript values too, except a zero length, which reads as NULL. */
  function Index(a: Value, k: Key): (r: Result<Value>)
    ensures a.Null? <==> r == Fail(BadOperands)
    ensures a.List? && ArrayIndex(k, |a.items|).Some? ==> r == Ok(a.items[ArrayIndex(k, |a.items|).value])
    ensures a.List? ==> (r.Fail? <==> k == NameKey(LengthName()) && |a.items| > 0)
    ensures a.List? && ArrayIndex(k, |a.items|).None? && r.Ok? ==> r.value == Null
    ensures a.Dict? ==> r == Ok(match Lookup(a.entries, KeyName(k)) case Some(v) => v case None => Null)
    ensures a.Number? && k == NameKey(LengthName()) ==> r == Fail(Unmodelled)
    ensures a.Stray? && k == NameKey(LengthName()) ==> (r.Ok? <==> |a.text| == 0)
    ensures a.Closure? || a.Tee? ==> (r.Fail? <==> k == NameKey(LengthName()) || k == NameKey(FunctionName()))
    ensures (a.Closure? || a.Tee?) && r.Ok? ==> r.value == Null
  {
    match a
    case Str(s) =>
      (match ArrayIndex(k, |s|)
       case None => Ok(Null)
       case Some(n) =>
         if s[n] == 0 then Ok(Null)
         else if k.NumKey? then Ok(Str([s[n]]))
         else Ok(Str(s[n..if 10 * n + 1 < |s| then 10 * n + 1 else |s|])))
    case List(items) =>
      if k == NameKey(LengthName()) then (if |items| == 0 then Ok(Null) else Fail(Unmodelled))
      else
        (match ArrayIndex(k, |items|)
         case None => Ok(Null)
         case Some(n) => Ok(items[n]))
    case Dict(e) =>
      (match Lookup(e, KeyName(k))
       case Some(v) => Ok(v)
       case None => Ok(Null))
    case Number(f) =>
      if k == NameKey(LengthName()) then Fail(Unmodelled)
      else
        (match ArrayIndex(k, 2)
         case None => Ok(Null)
         case Some(n) => if (if n == 0 then f.num else f.den) == 0 then Ok(Null) else Fail(Unmodelled))
    case Null => Fail(BadOperands)
    case Closure(_, _, _) => if k == NameKey(LengthName()) || k == NameKey(FunctionName()) then Fail(Unmodelled) else Ok(Null)
    case Tee => if k == NameKey(LengthName()) || k == NameKey(FunctionName()) then Fail(Unmodelled) else Ok(Null)
    case Stray(t) =>
      if k == NameKey(LengthName()) then (if |t| == 0 then Ok(Null) else Fail(Unmodelled))
      else if ArrayIndex(k, |t|).Some? then Fail(Unmodelled) else Ok(Null)
  }

  /** Values whose `val` JavaScript can spread into an array. */
  predicate Iterable(v: Value) {
    v.List? || v.Str? || v.Number? || v.Stray?
  }

  /** The value objects spreading `v.val` adds to an array. A string or an
      operator text adds nothing when it is empty and raw bytes or
      characters otherwise, a number adds its two raw integers: those leave
      the language, so they have no spread here. */
  function Spread(v: Value): (r: Option<seq<Value>>)
    ensures r.Some? ==> Iterable(v)
  {
    match v
    case List(items) => Some(items)
    case Str(s) => if s == [] then Some([]) else None
    case Stray(t) => if t == [] then Some([]) else None
    case _ => None
  }

  /** `a ++ b` (nli.js:535-539): the spreads of both operands, in order. */
  function AppendOf(a: Value, b: Value): (r: Result<Value>)
    requires Iterable(a)
    ensures r.Ok? <==> Spread(a).Some? && Spread(b).Some?
    ensures r.Ok? ==> r.value == List(Spread(a).value + Spread(b).value)
    ensures !Iterable(b) ==> r == Fail(BadOperands)
  {
    if !Iterable(b) then Fail(BadOperands)
    else if Spread(a).Some? && Spread(b).Some? then Ok(List(Spread(a).value + Spread(b).value))
    else Fail(Unmodelled)
  }

  /** `a .. b` (nli.js:530-534): byte strings concatenate. */
  function ConcatOf(a: Value, b: Value): (r: Result<Value>)
    ensures r.Ok? <==> a.Str? && b.Str?
    ensures r.Ok? ==> r.value == Str(a.bytes + b.bytes)
  {
    if a.Str? && b.Str? then Ok(Str(a.bytes + b.bytes)) else Fail(BadOperands)
  }

  /** `a.val.length` of a value that is not NULL, where it is a number. */
  function LengthOf(v: Value): Option<int> {
    match v
    case Number(_) => Some(2)
    case Str(s) => Some(|s|)
    case List(items) => Some(|items|)
    case Closure(_, _, _) => Some(1)
    case Tee => Some(1)
    case Stray(t) => Some(|t|)
    case _ => None
  }

  /** What `v.val[i]` holds in JavaScript: an integer (a number's part, a
      string's byte), a one-character string (an operator text's character,
      which reads as no number), a value object (a list element, a
      dictionary entry), or `undefined`. */
  datatype Slot = IntSlot(n: int) | CharSlot(c: Byte) | ObjectSlot | NoSlot

  function SlotOf(v: Value, i: nat): (r: Slot)
    requires i < 2
    ensures v.Number? ==> r == IntSlot(if i == 0 then v.frac.num else v.frac.den)
    ensures v.Str? ==> (r.IntSlot? <==> i < |v.bytes|)
  {
    match v
    case Number(f) => IntSlot(if i == 0 then f.num else f.den)
    case Str(s) => if i < |s| then IntSlot(s[i]) else NoSlot
    case List(items) => if i < |items| then ObjectSlot else NoSlot
    case Dict(e) => if Lookup(e, IntText(i)).Some? then ObjectSlot else NoSlot
    case Stray(t) => if i < |t| then CharSlot(t[i]) else NoSlot
    case _ => NoSlot
  }

  /** `v.val` read as the pair `[v.val[0], v.val[1]]` when both are integers:
      a number, or a string of at least two bytes. */
  function PairOf(v: Value): (r: Option<Frac>)
    ensures v.Number? ==> r == Some(v.frac)
    ensures v.Str? ==> (r.Some? <==> |v.bytes| >= 2)
    ensures r.Some? ==> v.Number? || v.Str?
  {
    match (SlotOf(v, 0), SlotOf(v, 1))
    case (IntSlot(n), IntSlot(d)) => Some(Frac(n, d))
    case _ => None
  }

  /** `a -- b` (nli.js:545-546) once both operands are known and `a` is not
      NULL: `fraction.operate('-')` of the length of `a` and `b.val`. */
  function LengthMinusOf(a: Value, b: Value): (r: Result<Value>)
    requires !a.Null?
    ensures r.Ok? <==> !b.Null? && LengthOf(a).Some? && PairOf(b).Some?
    ensures r.Ok? ==> r.value.Number?
    ensures r.Ok? ==>
      r.value.frac.num * PairOf(b).value.den == (LengthOf(a).value * PairOf(b).value.den - PairOf(b).value.num) * r.value.frac.den
    ensures b.Null? ==> r == Fail(BadOperands)
  {
    if b.Null? then Fail(BadOperands)
    else if LengthOf(a).None? || PairOf(b).None? then Fail(Unmodelled)
    else Ok(Number(Sub(Deint(LengthOf(a).value), PairOf(b).value)))
  }

  /** The byte count `n = b.val[0]` of `/<`, `/>`, `<<` and `>>`: an integer,
      or NaN (`None`) when the slot holds no number. */
  function CountOf(b: Value): (r: Option<int>)
    requires !b.Null?
    ensures b.Number? ==> r == Some(b.frac.num)
    ensures b.Str? ==> (r.Some? <==> |b.bytes| > 0) && (r.Some? ==> r.value == b.bytes[0])
  {
    match SlotOf(b, 0)
    case IntSlot(n) => Some(n)
    case _ => None
  }

  /** `s /< n` drops the last `n` bytes, `s /> n` the first `n` (nli.js:572-584).
      A NaN count is position 0 to `subarray`, so `/<` then keeps nothing and
      `/>` everything. */
  function TrimOf(a: Value, b: Value, left: bool): (r: Result<Value>)
    ensures r.Ok? <==> a.Str? && !b.Null?
    ensures r.Ok? ==> r.value.Str? && |r.value.bytes| <= |a.bytes|
    ensures r.Ok? && CountOf(b).None? ==> r.value.bytes == if left then [] else a.bytes
  {
    if b.Null? || !a.Str? then Fail(BadOperands)
    else
      var s := a.bytes;
      match CountOf(b)
      case Some(n) => Ok(Str(if left then Subarray(s, 0, |s| - n) else Subarray(s, n, |s|)))
      case None => Ok(Str(if left then [] else s))
  }

  /** `s << n` and `s >> n` (nli.js:585-618) for a count that is a
      non-negative integer. A NaN count moves no byte and shifts by 0, which
      leaves the zeroed result buffer as it is. */
  function ShiftOf(a: Value, b: Value, left: bool): (r: Result<Value>)
    ensures r.Ok? <==> a.Str? && !b.Null? && (CountOf(b).None? || CountOf(b).value >= 0)
    ensures r.Ok? ==> r.value.Str? && |r.value.bytes| == |a.bytes|
    ensures r.Ok? && CountOf(b).None? ==> r.value.bytes == Zeros(|a.bytes|)
  {
    if b.Null? || a.Null? || a.Dict? then Fail(BadOperands)
    else if !a.Str? then Fail(Unmodelled)
    else
      match CountOf(b)
      case Some(n) => if n < 0 then Fail(Unmodelled) else Ok(Str(Shift(a.bytes, n, left)))
      case None => Ok(Str(Zeros(|a.bytes|)))
  }

  /** `a & b`, `a | b`, `a ^ b` (nli.js:620-636): as many bytes as `a`. A
      number on the right reads as its numerator and denominator, of which
      the one-byte result keeps the low byte. A right operand with no
      numeric entries (a list, a dictionary, a closure, an operator) reads
      as zeros. */
  function BitwiseOf(op: BitOp, a: Value, b: Value): (r: Result<Value>)
    ensures r.Ok? ==> a.Str? && r.value.Str? && |r.value.bytes| == |a.bytes|
    ensures a.Str? && b.Str? ==> r == Ok(Str(ByteOp(op, a.bytes, b.bytes)))
    ensures a.Str? && b.Number? ==> r == Ok(Str(ByteOp(op, a.bytes, [b.frac.num % 256, b.frac.den % 256])))
  {
    if a.Null? || a.Dict? then Fail(BadOperands)
    else if !a.Str? then Fail(Unmodelled)
    else if a.bytes == [] then Ok(Str([]))
    else if b.Null? then Fail(BadOperands)
    else if b.Str? then Ok(Str(ByteOp(op, a.bytes, b.bytes)))
    else if b.Number? then Ok(Str(ByteOp(op, a.bytes, [b.frac.num % 256, b.frac.den % 256])))
    else Ok(Str(ByteOp(op, a.bytes, [])))
  }

  /** The fraction operation an arithmetic or comparison operator performs. */
  function ArithOf(op: Op): Option<ArithOp> {
    match op
    case Times => Some(ArithOp.Times)
    case Over => Some(ArithOp.Over)
    case Plus => Some(ArithOp.Plus)
    case Minus => Some(ArithOp.Minus)
    case Less => Some(ArithOp.Less)
    case Greater => Some(ArithOp.Greater)
    case AtMost => Some(ArithOp.AtMost)
    case AtLeast => Some(ArithOp.AtLeast)
    case _ => None
  }

  /** The operators whose result is a truth value. */
  predicate IsComparison(op: ArithOp) {
    op in {ArithOp.Equal, ArithOp.Less, ArithOp.Greater, ArithOp.AtMost, ArithOp.AtLeast}
  }

  /** `x === y` on two slots: `None` when it depends on which value objects
      they are. */
  function SameSlot(x: Slot, y: Slot): (r: Option<bool>)
    ensures r.None? <==> x.ObjectSlot? && y.ObjectSlot?
  {
    if x.ObjectSlot? && y.ObjectSlot? then None else Some(x == y)
  }

  /** `fraction.operate('=')` on two operands that are not NULL: the slots
      compared pairwise with `===`. */
  function SlotsEqual(a: Value, b: Value): (r: Result<Value>)
    requires !a.Null? && !b.Null?
    ensures r.Ok? ==> r.value.Number? && IsBool(r.value.frac)
    ensures r.Ok? ==> (r.value.frac.num == 1 <==> SlotOf(a, 0) == SlotOf(b, 0) && SlotOf(a, 1) == SlotOf(b, 1))
    ensures r.Fail? ==> r == Fail(Unmodelled)
  {
    match (SameSlot(SlotOf(a, 0), SlotOf(b, 0)), SameSlot(SlotOf(a, 1), SlotOf(b, 1)))
    case (Some(false), _) => Ok(Number(Debool(false)))
    case (_, Some(false)) => Ok(Number(Debool(false)))
    case (Some(true), Some(true)) => Ok(Number(Debool(true)))
    case _ => Fail(Unmodelled)
  }

  /** `fraction.operate` on two evaluated operands (nli.js:49-82, 641-649).
      It reads `a.val[0]`, `a.val[1]`, `b.val[0]` and `b.val[1]`. When all
      four are integers it computes on the pairs. Otherwise some product is
      NaN: arithmetic then yields a NaN part, which no value of the language
      holds, and `<` and `>` are false, so `<=` and `>=` reduce to `===` on
      the slots, as `=` does. */
  function Arith(op: ArithOp, a: Value, b: Value): (r: Result<Value>)
    ensures a.Null? || b.Null? ==> r == Fail(BadOperands)
    ensures r.Ok? ==> r.value.Number? && (IsComparison(op) ==> IsBool(r.value.frac))
    ensures PairOf(a).Some? && PairOf(b).Some? ==> r == Ok(Number(Operate(op, PairOf(a).value, PairOf(b).value)))
    ensures !IsComparison(op) ==> (r.Ok? <==> PairOf(a).Some? && PairOf(b).Some?)
    ensures op in {ArithOp.Less, ArithOp.Greater} && !a.Null? && !b.Null? && (PairOf(a).None? || PairOf(b).None?) ==>
      r == Ok(Number(Debool(false)))
  {
    if a.Null? || b.Null? then Fail(BadOperands)
    else if PairOf(a).Some? && PairOf(b).Some? then Ok(Number(Operate(op, PairOf(a).value, PairOf(b).value)))
    else if op == ArithOp.Less || op == ArithOp.Greater then Ok(Number(Debool(false)))
    else if op == ArithOp.Equal || op == ArithOp.AtMost || op == ArithOp.AtLeast then SlotsEqual(a, b)
    else Fail(Unmodelled)
  }

  /** `a = b` (nli.js:652-673): numbers compare by `fraction.operate`, values
      of different types are unequal, as is anything else; strings compare
      by object identity in the source. */
  function StrictEqual(a: Value, b: Value): (r: Result<Value>)
    ensures r.Ok? ==> r.value.Number? && IsBool(r.value.frac)
    ensures KindOf(a) != KindOf(b) ==> r == Ok(Number(Debool(false)))
  {
    if KindOf(a) != KindOf(b) then Ok(Number(Debool(false)))
    else if a.Number? then Ok(Number(Eq(a.frac, b.frac)))
    else if a.Str? then Fail(Unmodelled)
    else Ok(Number(Debool(false)))
  }

  /** The text `[object Object]`. */
  function ObjectText(): seq<Byte> {
    ['[' as int, 'o' as int, 'b' as int, 'j' as int, 'e' as int, 'c' as int, 't' as int, ' ' as int,
     'O' as int, 'b' as int, 'j' as int, 'e' as int, 'c' as int, 't' as int, ']' as int]
  }

  /** `n` copies of `[object Object]` joined by commas: an array of objects as a string. */
  function ObjectList(n: nat): seq<Byte> {
    if n == 0 then [] else if n == 1 then ObjectText() else ObjectList(n - 1) + [',' as int] + ObjectText()
  }

  /** The property name `toString`. */
  function ToStringName(): seq<Byte> {
    ['t' as int, 'o' as int, 'S' as int, 't' as int, 'r' as int, 'i' as int, 'n' as int, 'g' as int]
  }

  /** `val.toString('utf8')` of a computed dictionary key (nli.js:704). A
      number's pair prints as `num,den`. A dictionary with an own `toString`
      entry holds a value record there, and calling it throws. */
  function KeyText(v: Value): (r: Result<seq<Byte>>)
    ensures v.Str? ==> r == Ok(v.bytes)
    ensures v.Null? ==> r == Fail(BadOperands)
    ensures v.Dict? ==> (r.Ok? <==> ToStringName() !in Keys(v.entries))
    ensures v.Dict? && r.Ok? ==> r.value == ObjectText()
    ensures v.Dict? && r.Fail? ==> r.error == NotCallable
  {
    match v
    case Str(s) => Ok(s)
    case Number(f) => Ok(IntText(f.num) + [',' as int] + IntText(f.den))
    case Null => Fail(BadOperands)
    case List(items) => Ok(ObjectList(|items|))
    case Dict(e) => if Lookup(e, ToStringName()).Some? then Fail(NotCallable) else Ok(ObjectText())
    case Stray(t) => Ok(t)
    case Closure(_, _, _) => Fail(Unmodelled)
    case Tee => Fail(Unmodelled)
  }

  predicate Callable(v: Value) {
    v.Closure? || v.Tee?
  }

  /** The dictionary keys `.>` passes to its function: sorted, as strings. */
  function KeyStrings(e: seq<(seq<Byte>, Value)>): (r: seq<Value>)
    ensures |r| == |e|
  {
    var ks := SortKeys(Keys(e));
    SortKeysLength(Keys(e));
    seq(|ks|, i requires 0 <= i < |ks| => Str(ks[i]))
  }

  /** The operators that evaluate both operands before looking at either. */
  predicate IsStrict(op: Op) {
    !op.Dot? && !op.Append? && !op.LengthMinus? && !op.MapOver?
  }

  /** What a strict operator makes of its two evaluated operands. */
  function Strict(op: Op, a: Value, b: Value): (r: Result<Value>)
    requires IsStrict(op)
    ensures a.Null? && !op.Merge? && !op.SameKind? && !op.Equal? ==> r == Fail(BadOperands)
  {
    match op
    case Concat => ConcatOf(a, b)
    case Merge => Fail(Unmodelled)
    case TrimEnd => TrimOf(a, b, true)
    case TrimStart => TrimOf(a, b, false)
    case ShiftLeft => ShiftOf(a, b, true)
    case ShiftRight => ShiftOf(a, b, false)
    case And => BitwiseOf(AndBits, a, b)
    case Or => BitwiseOf(OrBits, a, b)
    case Xor => BitwiseOf(XorBits, a, b)
    case SameKind => Ok(Number(Debool(KindOf(a) == KindOf(b))))
    case Equal => StrictEqual(a, b)
    case Times | Over | Plus | Minus | Less | Greater | AtMost | AtLeast =>
      Arith(ArithOf(op).value, a, b)
  }

  // ---------------------------------------------------------------------
  // The evaluator

  /** `evaluate(branch, ctx)` with at most `fuel` nested closure calls. */
  function Evaluate(b: Branch, env: Env, fuel: nat): (r: Result<Value>)
    ensures r.Ok? && b.ListBranch? ==> r.value.List? && |r.value.items| == |b.items|
    ensures r.Ok? && b.DictBranch? ==> r.value.Dict? && PropertyOrder(r.value.entries)
    ensures b.Function? ==> r == Ok(Closure(env, b.param, b.body))
    decreases fuel, Size(b), 1, 0
  {
    match b
    case Expression(c) => Evaluate(c, env, fuel)
    case Leaf(t) => LeafValue(t, env)
    case Absent => Fail(MissingOperand)
    case Combination(_, _, _) => Combine(b, env, fuel)
    case Application(x, y) =>
      var f :- Evaluate(x, env, fuel);
      var v :- Evaluate(y, env, fuel);
      Apply(f, v, fuel)
    case Function(p, body) => Ok(Closure(env, p, body))
    case ListBranch(_) =>
      var vs :- EvalItems(b, 0, env, fuel);
      Ok(List(vs))
    case DictBranch(_) =>
      var es :- EvalEntries(b, 0, env, fuel, []);
      Ok(Dict(es))
  }

  /** A call `f(x)`: a closure evaluates its body with the parameter bound
      to `x` in the environment it was made in; `TEE` returns `x`. */
  function Apply(f: Value, x: Value, fuel: nat): (r: Result<Value>)
    ensures !Callable(f) ==> r == Fail(NotCallable)
    ensures f.Tee? ==> r == Ok(x)
    decreases fuel, 0, 0, 0
  {
    match f
    case Closure(env, p, body) =>
      if fuel == 0 then Fail(OutOfFuel)
      else Evaluate(body, if p.Some? then env[p.value := x] else env, fuel - 1)
    case Tee => Ok(x)
    case _ => Fail(NotCallable)
  }

  /** `xs.map(f)`: the calls in order, stopping at the first failure. */
  function MapApply(f: Value, xs: seq<Value>, fuel: nat): (r: Result<seq<Value>>)
    ensures r.Ok? ==> |r.value| == |xs|
    ensures r.Ok? ==> forall i | 0 <= i < |xs| :: Apply(f, xs[i], fuel) == Ok(r.value[i])
    decreases fuel, 0, 1, |xs|
  {
    if xs == [] then Ok([])
    else
      var y :- Apply(f, xs[0], fuel);
      var ys :- MapApply(f, xs[1..], fuel);
      Ok([y] + ys)
  }

  /** The list literal loop (nli.js:713-725) from element `i`. */
  function EvalItems(b: Branch, i: nat, env: Env, fuel: nat): (r: Result<seq<Value>>)
    requires b.ListBranch? && i <= |b.items|
    ensures r.Ok? ==> |r.value| == |b.items| - i
    decreases fuel, ItemsSize(b, i), 2, 0
  {
    if i == |b.items| then Ok([])
    else
      var v :- Evaluate(b.items[i], env, fuel);
      var vs :- EvalItems(b, i + 1, env, fuel);
      Ok([v] + vs)
  }

  /** The dictionary literal loop (nli.js:694-712) from entry `i`, with the
      object `acc` built so far. A word key is its own text; any other key
      is evaluated and turned into a string before the value is evaluated. */
  function EvalEntries(b: Branch, i: nat, env: Env, fuel: nat, acc: seq<(seq<Byte>, Value)>): (r: Result<seq<(seq<Byte>, Value)>>)
    requires b.DictBranch? && i <= |b.entries| && PropertyOrder(acc)
    ensures r.Ok? ==> PropertyOrder(r.value)
    decreases fuel, EntriesSize(b, i), 2, 0
  {
    if i == |b.entries| then Ok(acc)
    else
      var kb, vb := b.entries[i].0, b.entries[i].1;
      var key :-
        if kb.Leaf? && kb.token.WordToken? then Ok(kb.token.text)
        else
          var kv :- Evaluate(kb, env, fuel);
          KeyText(kv);
      var v :- Evaluate(vb, env, fuel);
      PutKeepsOrder(acc, key, v);
      EvalEntries(b, i + 1, env, fuel, Put(acc, key, v))
  }

  /** An operator node (nli.js:492-676). The left operand is evaluated
      first, and every operator but `.` builds a value of one kind. */
  function Combine(b: Branch, env: Env, fuel: nat): (r: Result<Value>)
    requires b.Combination?
    ensures Evaluate(b.a, env, fuel).Fail? ==> r == Evaluate(b.a, env, fuel)
    ensures r.Ok? && (b.op.Append? || b.op.MapOver?) ==> r.value.List?
    ensures r.Ok? && b.op in {Op.Concat, Op.TrimEnd, Op.TrimStart, Op.ShiftLeft, Op.ShiftRight, Op.And, Op.Or, Op.Xor} ==> r.value.Str?
    ensures r.Ok? && b.op in {Op.LengthMinus, Op.SameKind, Op.Equal, Op.Times, Op.Over, Op.Plus, Op.Minus, Op.Less, Op.Greater,
                               Op.AtMost, Op.AtLeast} ==>
      r.value.Number?
    decreases fuel, Size(b), 0, 0
  {
    var x, y := b.a, b.b;
    var av :- Evaluate(x, env, fuel);
    match b.op
    case Dot =>
      var k :-
        if y.Leaf? && y.token.WordToken? then Ok(NameKey(y.token.text))
        else
          var bv :- Evaluate(y, env, fuel);
          Ok(KeyOf(bv));
      Index(av, k)
    case Append =>
      if !Iterable(av) then Fail(BadOperands)
      else
        var bv :- Evaluate(y, env, fuel);
        AppendOf(av, bv)
    case LengthMinus =>
      if av.Null? then Fail(BadOperands)
      else
        var bv :- Evaluate(y, env, fuel);
        LengthMinusOf(av, bv)
    case MapOver =>
      var f :- Evaluate(y, env, fuel);
      if av.Dict? then
        var vs :- MapApply(f, KeyStrings(av.entries), fuel);
        Ok(List(vs))
      else if av.List? then
        var vs :- MapApply(f, av.items, fuel);
        Ok(List(vs))
      else Fail(BadOperands)
    case _ =>
      var bv :- Evaluate(y, env, fuel);
      Strict(b.op, av, bv)
  }

  /** `interpret(script, ctx)`: lex, parse and evaluate a program. */
  function Interpret(src: seq<Byte>, env: Env, fuel: nat): Result<Value> {
    var tree :- Parse(Lex(src));
    Evaluate(tree, env, fuel)
  }

  /** The environment the program runs in: `TEE` bound to the built-in. */
  function TopLevel(): Env {
    map[['T' as int, 'E' as int, 'E' as int] := Tee]
  }
}

=== FILE: evaluator_laws.dfy ===
/** What programs mean: the evaluator related to rational arithmetic, to the
    byte-string laws, to the key order of objects, and to itself (calls,
    list literals). */
module EvaluatorLaws {
  import opened Bytes
  import opened Fraction
  import opened FractionLaws
  import opened Results
  import opened Lexer
  import opened Parser
  import opened Values
  import opened Bits
  import opened Evaluator
  import ParserLaws
  import Formatter

  // ---------------------------------------------------------------------
  // Calls

  /** Applying a function literal evaluates the argument, then the body with
      the parameter bound to the argument's value, one unit of fuel down. */
  lemma Beta(w: seq<Byte>, body: Branch, e: Branch, env: Env, fuel: nat)
    ensures Evaluate(Application(Function(Some(w), body), e), env, fuel + 1) ==
      match Evaluate(e, env, fuel + 1)
      case Ok(v) => Evaluate(body, env[w := v], fuel)
      case Fail(err) => Fail(err)
  {
    var f := Closure(env, Some(w), body);
    assert Evaluate(Function(Some(w), body), env, fuel + 1) == Ok(f);
    match Evaluate(e, env, fuel + 1)
    case Ok(v) =>
      assert Apply(f, v, fuel + 1) == Evaluate(body, env[w := v], fuel);
    case Fail(_) =>
  }

  /** `(\x x) e` is `e`. */
  lemma Identity(w: seq<Byte>, e: Branch, env: Env, fuel: nat)
    ensures Evaluate(Application(Function(Some(w), Leaf(WordToken(w))), e), env, fuel + 1) ==
      Evaluate(e, env, fuel + 1)
  {
    Beta(w, Leaf(WordToken(w)), e, env, fuel);
    match Evaluate(e, env, fuel + 1)
    case Ok(v) =>
      assert Evaluate(Leaf(WordToken(w)), env[w := v], fuel) == Ok(v);
    case Fail(_) =>
  }

  /** A function without a parameter ignores its argument, once that has
      been evaluated. */
  lemma Constant(body: Branch, e: Branch, env: Env, fuel: nat, v: Value)
    requires Evaluate(e, env, fuel + 1) == Ok(v)
    ensures Evaluate(Application(Function(None, body), e), env, fuel + 1) == Evaluate(body, env, fuel)
  {
    var f := Closure(env, None, body);
    assert Evaluate(Function(None, body), env, fuel + 1) == Ok(f);
    assert Apply(f, v, fuel + 1) == Evaluate(body, env, fuel);
  }

  /** Calling a closure with no fuel left runs out of fuel. */
  lemma NoFuel(w: seq<Byte>, body: Branch, e: Branch, env: Env, v: Value)
    requires Evaluate(e, env, 0) == Ok(v)
    ensures Evaluate(Application(Function(Some(w), body), e), env, 0) == Fail(OutOfFuel)
  {
    assert Evaluate(Function(Some(w), body), env, 0) == Ok(Closure(env, Some(w), body));
  }

  /** `TEE` at top level hands back its argument. */
  lemma TeeReturnsArgument(e: Branch, fuel: nat)
    ensures Evaluate(Application(Leaf(WordToken(['T' as int, 'E' as int, 'E' as int])), e), TopLevel(), fuel) ==
      Evaluate(e, TopLevel(), fuel)
  {
    var tee := Leaf(WordToken(['T' as int, 'E' as int, 'E' as int]));
    assert Evaluate(tee, TopLevel(), fuel) == Ok(Tee);
    match Evaluate(e, TopLevel(), fuel)
    case Ok(v) => assert Apply(Tee, v, fuel) == Ok(v);
    case Fail(_) =>
  }

  // ---------------------------------------------------------------------
  // Arithmetic is rational arithmetic

  /** `+` on two numbers gives the sum of their values. */
  lemma SumMeaning(x: Branch, y: Branch, env: Env, fuel: nat, f: Frac, g: Frac)
    requires Evaluate(x, env, fuel) == Ok(Number(f)) && Evaluate(y, env, fuel) == Ok(Number(g))
    requires f.den != 0 && g.den != 0
    ensures Evaluate(Combination(Op.Plus, x, y), env, fuel) == Ok(Number(Add(f, g)))
    ensures FractionLaws.Value(Add(f, g)) == FractionLaws.Value(f) + FractionLaws.Value(g)
  {
    AddLaws(f, g);
    ArithStep(Op.Plus, x, y, env, fuel, f, g);
  }

  /** `-` on two numbers gives the difference of their values. */
  lemma DifferenceMeaning(x: Branch, y: Branch, env: Env, fuel: nat, f: Frac, g: Frac)
    requires Evaluate(x, env, fuel) == Ok(Number(f)) && Evaluate(y, env, fuel) == Ok(Number(g))
    requires f.den != 0 && g.den != 0
    ensures Evaluate(Combination(Op.Minus, x, y), env, fuel) == Ok(Number(Sub(f, g)))
    ensures FractionLaws.Value(Sub(f, g)) == FractionLaws.Value(f) - FractionLaws.Value(g)
  {
    SubLaws(f, g);
    ArithStep(Op.Minus, x, y, env, fuel, f, g);
  }

  /** `*` on two numbers gives the product of their values. */
  lemma ProductMeaning(x: Branch, y: Branch, env: Env, fuel: nat, f: Frac, g: Frac)
    requires Evaluate(x, env, fuel) == Ok(Number(f)) && Evaluate(y, env, fuel) == Ok(Number(g))
    requires f.den != 0 && g.den != 0
    ensures Evaluate(Combination(Op.Times, x, y), env, fuel) == Ok(Number(Mul(f, g)))
    ensures FractionLaws.Value(Mul(f, g)) == FractionLaws.Value(f) * FractionLaws.Value(g)
  {
    MulLaws(f, g);
    ArithStep(Op.Times, x, y, env, fuel, f, g);
  }

  /** `/` by a non-zero number gives the quotient of the values. */
  lemma QuotientMeaning(x: Branch, y: Branch, env: Env, fuel: nat, f: Frac, g: Frac)
    requires Evaluate(x, env, fuel) == Ok(Number(f)) && Evaluate(y, env, fuel) == Ok(Number(g))
    requires f.den != 0 && g.den != 0 && g.num != 0
    ensures Evaluate(Combination(Op.Over, x, y), env, fuel) == Ok(Number(Div(f, g)))
    ensures FractionLaws.Value(Div(f, g)) == FractionLaws.Value(f) / FractionLaws.Value(g)
  {
    DivLaws(f, g);
    ArithStep(Op.Over, x, y, env, fuel, f, g);
  }

  /** `<` on numbers with positive denominators is the order of their values. */
  lemma LessMeaning(x: Branch, y: Branch, env: Env, fuel: nat, f: Frac, g: Frac)
    requires Evaluate(x, env, fuel) == Ok(Number(f)) && Evaluate(y, env, fuel) == Ok(Number(g))
    requires f.den > 0 && g.den > 0
    ensures Evaluate(Combination(Op.Less, x, y), env, fuel) == Ok(Number(Debool(FractionLaws.Value(f) < FractionLaws.Value(g))))
  {
    LessIsOrder(f, g);
    ArithStep(Op.Less, x, y, env, fuel, f, g);
  }

  /** `>` on numbers with positive denominators is the order of their values. */
  lemma GreaterMeaning(x: Branch, y: Branch, env: Env, fuel: nat, f: Frac, g: Frac)
    requires Evaluate(x, env, fuel) == Ok(Number(f)) && Evaluate(y, env, fuel) == Ok(Number(g))
    requires f.den > 0 && g.den > 0
    ensures Evaluate(Combination(Op.Greater, x, y), env, fuel) == Ok(Number(Debool(FractionLaws.Value(f) > FractionLaws.Value(g))))
  {
    LessIsOrder(f, g);
    ArithStep(Op.Greater, x, y, env, fuel, f, g);
  }

  /** `<=` on numbers in lowest terms is the order of their values. */
  lemma AtMostMeaning(x: Branch, y: Branch, env: Env, fuel: nat, f: Frac, g: Frac)
    requires Evaluate(x, env, fuel) == Ok(Number(f)) && Evaluate(y, env, fuel) == Ok(Number(g))
    requires Canonical(f) && Canonical(g)
    ensures Evaluate(Combination(Op.AtMost, x, y), env, fuel) == Ok(Number(Debool(FractionLaws.Value(f) <= FractionLaws.Value(g))))
  {
    EqualityIsOrder(f, g);
    ArithStep(Op.AtMost, x, y, env, fuel, f, g);
  }

  /** `>=` on numbers in lowest terms is the order of their values. */
  lemma AtLeastMeaning(x: Branch, y: Branch, env: Env, fuel: nat, f: Frac, g: Frac)
    requires Evaluate(x, env, fuel) == Ok(Number(f)) && Evaluate(y, env, fuel) == Ok(Number(g))
    requires Canonical(f) && Canonical(g)
    ensures Evaluate(Combination(Op.AtLeast, x, y), env, fuel) == Ok(Number(Debool(FractionLaws.Value(f) >= FractionLaws.Value(g))))
  {
    EqualityIsOrder(f, g);
    ArithStep(Op.AtLeast, x, y, env, fuel, f, g);
  }

  /** `=` on numbers in lowest terms is the equality of their values. */
  lemma EqualMeaning(x: Branch, y: Branch, env: Env, fuel: nat, f: Frac, g: Frac)
    requires Evaluate(x, env, fuel) == Ok(Number(f)) && Evaluate(y, env, fuel) == Ok(Number(g))
    requires Canonical(f) && Canonical(g)
    ensures Evaluate(Combination(Op.Equal, x, y), env, fuel) == Ok(Number(Debool(FractionLaws.Value(f) == FractionLaws.Value(g))))
  {
    EqualityIsOrder(f, g);
    StrictStep(Op.Equal, x, y, env, fuel, Number(f), Number(g));
  }

  /** One arithmetic operator on two evaluated numbers. */
  lemma ArithStep(op: Op, x: Branch, y: Branch, env: Env, fuel: nat, f: Frac, g: Frac)
    requires ArithOf(op).Some?
    requires Evaluate(x, env, fuel) == Ok(Number(f)) && Evaluate(y, env, fuel) == Ok(Number(g))
    ensures Evaluate(Combination(op, x, y), env, fuel) == Ok(Number(Operate(ArithOf(op).value, f, g)))
  {
    StrictStep(op, x, y, env, fuel, Number(f), Number(g));
  }

  /** A strict operator node is its operator applied to its operands' values. */
  lemma StrictStep(op: Op, x: Branch, y: Branch, env: Env, fuel: nat, a: Value, c: Value)
    requires IsStrict(op)
    requires Evaluate(x, env, fuel) == Ok(a) && Evaluate(y, env, fuel) == Ok(c)
    ensures Evaluate(Combination(op, x, y), env, fuel) == Strict(op, a, c)
  {
    var b := Combination(op, x, y);
    assert Evaluate(b, env, fuel) == Combine(b, env, fuel);
  }

  /** `~` compares kinds: it is true exactly when both operands are of one kind. */
  lemma SameKindMeaning(x: Branch, y: Branch, env: Env, fuel: nat, a: Value, c: Value)
    requires Evaluate(x, env, fuel) == Ok(a) && Evaluate(y, env, fuel) == Ok(c)
    ensures var r := Evaluate(Combination(SameKind, x, y), env, fuel);
      r.Ok? && r.value.Number? && IsBool(r.value.frac) && (r.value.frac.num == 1 <==> KindOf(a) == KindOf(c))
  {
    StrictStep(SameKind, x, y, env, fuel, a, c);
  }

  /** `a -- b` on a string or a list and a number is the length of `a` minus
      the value of `b`. */
  lemma LengthMinusMeaning(x: Branch, y: Branch, env: Env, fuel: nat, a: Value, g: Frac)
    requires Evaluate(x, env, fuel) == Ok(a) && (a.Str? || a.List?)
    requires Evaluate(y, env, fuel) == Ok(Number(g)) && g.den != 0
    ensures var len := if a.Str? then |a.bytes| else |a.items|;
      var r := Evaluate(Combination(LengthMinus, x, y), env, fuel);
      && r == Ok(Number(Sub(Deint(len), g)))
      && FractionLaws.Value(r.value.frac) == len as real - FractionLaws.Value(g)
  {
    var b := Combination(LengthMinus, x, y);
    var len := if a.Str? then |a.bytes| else |a.items|;
    assert Evaluate(b, env, fuel) == Combine(b, env, fuel);
    SubLaws(Deint(len), g);
  }

  /** A string of at least two bytes takes part in `+`, `-`, `*` and `/` as
      the pair of its first two bytes, as `a.val[0]` and `a.val[1]` read
      them: `"ab" + 1` is `97/98 + 1`. */
  lemma StringAsPair(op: Op, x: Branch, z: Branch, y: Branch, env: Env, fuel: nat, s: seq<Byte>, c: Value)
    requires op in {Op.Plus, Op.Minus, Op.Times, Op.Over}
    requires |s| >= 2 && Evaluate(x, env, fuel) == Ok(Str(s)) && Evaluate(z, env, fuel) == Ok(Number(Frac(s[0], s[1])))
    requires Evaluate(y, env, fuel) == Ok(c)
    ensures Evaluate(Combination(op, x, y), env, fuel) == Evaluate(Combination(op, z, y), env, fuel)
  {
    var a, n := Str(s), Number(Frac(s[0], s[1]));
    StrictStep(op, x, y, env, fuel, a, c);
    StrictStep(op, z, y, env, fuel, n, c);
    SamePairArith(ArithOf(op).value, a, n, c);
  }

  /** Two operands with one integer pair are alike to `+`, `-`, `*` and `/`. */
  lemma SamePairArith(op: ArithOp, a: Value, n: Value, c: Value)
    requires !IsComparison(op) && PairOf(a).Some? && PairOf(a) == PairOf(n) && !a.Null? && !n.Null?
    ensures Arith(op, a, c) == Arith(op, n, c)
  {}

  /** When either operand of `<` or `>` is not a pair of integers (a string
      shorter than two bytes, a list, a dictionary, a function), a product is
      NaN and the comparison is false: `"a" < 1` is 0. */
  lemma NaNComparison(op: Op, x: Branch, y: Branch, env: Env, fuel: nat, a: Value, c: Value)
    requires op in {Op.Less, Op.Greater}
    requires Evaluate(x, env, fuel) == Ok(a) && Evaluate(y, env, fuel) == Ok(c)
    requires !a.Null? && !c.Null? && (PairOf(a).None? || PairOf(c).None?)
    ensures Evaluate(Combination(op, x, y), env, fuel) == Ok(Number(Frac(0, 1)))
  {
    StrictStep(op, x, y, env, fuel, a, c);
  }

  /** `l ++ ""` and `"" ++ l` are `l`: an empty string spreads to nothing. */
  lemma EmptyStringAppend(x: Branch, y: Branch, env: Env, fuel: nat, items: seq<Value>)
    requires Evaluate(x, env, fuel) == Ok(Str([])) && Evaluate(y, env, fuel) == Ok(List(items))
    ensures Evaluate(Combination(Append, x, y), env, fuel) == Ok(List(items))
    ensures Evaluate(Combination(Append, y, x), env, fuel) == Ok(List(items))
  {
    var b1, b2 := Combination(Append, x, y), Combination(Append, y, x);
    assert Evaluate(b1, env, fuel) == Combine(b1, env, fuel);
    assert Evaluate(b2, env, fuel) == Combine(b2, env, fuel);
    assert [] + items == items && items + [] == items;
  }

  /** A string count of `/<`, `/>`, `<<` and `>>` counts as its first byte,
      the `val[0]` the operator reads: `"ab" /< "\x01"` is `"a"`. */
  lemma CountByFirstByte(op: Op, x: Branch, y: Branch, z: Branch, env: Env, fuel: nat, s: seq<Byte>, c: seq<Byte>, d: int)
    requires op in {Op.TrimEnd, Op.TrimStart, Op.ShiftLeft, Op.ShiftRight}
    requires Evaluate(x, env, fuel) == Ok(Str(s)) && |c| > 0
    requires Evaluate(y, env, fuel) == Ok(Str(c)) && Evaluate(z, env, fuel) == Ok(Number(Frac(c[0], d)))
    ensures Evaluate(Combination(op, x, y), env, fuel) == Evaluate(Combination(op, x, z), env, fuel)
  {
    StrictStep(op, x, y, env, fuel, Str(s), Str(c));
    StrictStep(op, x, z, env, fuel, Str(s), Number(Frac(c[0], d)));
  }

  // ---------------------------------------------------------------------
  // Byte strings

  /** `s /< n .. s /> (len - n)` puts a string back together. */
  lemma TrimsRejoin(x: Branch, n: Branch, m: Branch, env: Env, fuel: nat, s: seq<Byte>, f: Frac, g: Frac)
    requires Evaluate(x, env, fuel) == Ok(Str(s))
    requires Evaluate(n, env, fuel) == Ok(Number(f)) && Evaluate(m, env, fuel) == Ok(Number(g))
    requires 0 <= f.num <= |s| && g.num == |s| - f.num
    ensures Evaluate(Combination(Concat, Combination(TrimEnd, x, n), Combination(TrimStart, x, m)), env, fuel) ==
      Ok(Str(s))
  {
    var front, back := Combination(TrimEnd, x, n), Combination(TrimStart, x, m);
    var p, q := Subarray(s, 0, |s| - f.num), Subarray(s, g.num, |s|);
    TrimEndNode(x, n, env, fuel, s, f);
    TrimStartNode(x, m, env, fuel, s, g);
    ConcatNode(front, back, env, fuel, p, q);
    TrimsSplit(s, f.num);
  }

  /** One `..` node over two evaluated strings. */
  lemma ConcatNode(x: Branch, y: Branch, env: Env, fuel: nat, p: seq<Byte>, q: seq<Byte>)
    requires Evaluate(x, env, fuel) == Ok(Str(p)) && Evaluate(y, env, fuel) == Ok(Str(q))
    ensures Evaluate(Combination(Concat, x, y), env, fuel) == Ok(Str(p + q))
  {
    StrictStep(Concat, x, y, env, fuel, Str(p), Str(q));
  }

  /** One `/<` node over an evaluated string and a number. */
  lemma TrimEndNode(x: Branch, y: Branch, env: Env, fuel: nat, s: seq<Byte>, f: Frac)
    requires Evaluate(x, env, fuel) == Ok(Str(s)) && Evaluate(y, env, fuel) == Ok(Number(f))
    ensures Evaluate(Combination(TrimEnd, x, y), env, fuel) == Ok(Str(Subarray(s, 0, |s| - f.num)))
  {
    StrictStep(TrimEnd, x, y, env, fuel, Str(s), Number(f));
  }

  /** One `/>` node over an evaluated string and a number. */
  lemma TrimStartNode(x: Branch, y: Branch, env: Env, fuel: nat, s: seq<Byte>, f: Frac)
    requires Evaluate(x, env, fuel) == Ok(Str(s)) && Evaluate(y, env, fuel) == Ok(Number(f))
    ensures Evaluate(Combination(TrimStart, x, y), env, fuel) == Ok(Str(Subarray(s, f.num, |s|)))
  {
    StrictStep(TrimStart, x, y, env, fuel, Str(s), Number(f));
  }

  /** `s << n` multiplies the string, read as a big-endian number, by `2^n`
      and keeps as many bytes as `s` has. */
  lemma ShiftLeftMeaning(x: Branch, y: Branch, env: Env, fuel: nat, s: seq<Byte>, f: Frac)
    requires Evaluate(x, env, fuel) == Ok(Str(s)) && Evaluate(y, env, fuel) == Ok(Number(f))
    requires f.num >= 0
    ensures var r := Evaluate(Combination(ShiftLeft, x, y), env, fuel);
      r.Ok? && r.value.Str? && |r.value.bytes| == |s| &&
      ToNat(r.value.bytes) == (ToNat(s) * Pow(2, f.num)) % Pow(256, |s|)
  {
    ShiftNode(true, x, y, env, fuel, s, f);
    ShiftLeftValue(s, f.num);
  }

  /** `s >> n` divides the string, read as a big-endian number, by `2^n`. */
  lemma ShiftRightMeaning(x: Branch, y: Branch, env: Env, fuel: nat, s: seq<Byte>, f: Frac)
    requires Evaluate(x, env, fuel) == Ok(Str(s)) && Evaluate(y, env, fuel) == Ok(Number(f))
    requires f.num >= 0
    ensures var r := Evaluate(Combination(ShiftRight, x, y), env, fuel);
      r.Ok? && r.value.Str? && |r.value.bytes| == |s| &&
      ToNat(r.value.bytes) == ToNat(s) / Pow(2, f.num)
  {
    ShiftNode(false, x, y, env, fuel, s, f);
    ShiftRightValue(s, f.num);
  }

  /** One shift node over an evaluated string and a non-negative count. */
  lemma ShiftNode(left: bool, x: Branch, y: Branch, env: Env, fuel: nat, s: seq<Byte>, f: Frac)
    requires Evaluate(x, env, fuel) == Ok(Str(s)) && Evaluate(y, env, fuel) == Ok(Number(f))
    requires f.num >= 0
    ensures Evaluate(Combination(if left then ShiftLeft else ShiftRight, x, y), env, fuel) == Ok(Str(Shift(s, f.num, left)))
  {
    StrictStep(if left then ShiftLeft else ShiftRight, x, y, env, fuel, Str(s), Number(f));
  }

  /** XOR with the same key twice gives the string back. */
  lemma XorRoundTrip(x: Branch, k: Branch, env: Env, fuel: nat, s: seq<Byte>, key: seq<Byte>)
    requires Evaluate(x, env, fuel) == Ok(Str(s)) && Evaluate(k, env, fuel) == Ok(Str(key))
    ensures Evaluate(Combination(Xor, Combination(Xor, x, k), k), env, fuel) == Ok(Str(s))
  {
    var once := Combination(Xor, x, k);
    StrictStep(Xor, x, k, env, fuel, Str(s), Str(key));
    StrictStep(Xor, once, k, env, fuel, Str(ByteOp(XorBits, s, key)), Str(key));
    XorUndoes(s, key);
  }

  /** A string ANDed with itself is itself. */
  lemma AndSelf(x: Branch, env: Env, fuel: nat, s: seq<Byte>)
    requires Evaluate(x, env, fuel) == Ok(Str(s))
    ensures Evaluate(Combination(And, x, x), env, fuel) == Ok(Str(s))
  {
    StrictStep(And, x, x, env, fuel, Str(s), Str(s));
    SelfByteOp(AndBits, s);
  }

  /** A string ORed with itself is itself. */
  lemma OrSelf(x: Branch, env: Env, fuel: nat, s: seq<Byte>)
    requires Evaluate(x, env, fuel) == Ok(Str(s))
    ensures Evaluate(Combination(Or, x, x), env, fuel) == Ok(Str(s))
  {
    StrictStep(Or, x, x, env, fuel, Str(s), Str(s));
    SelfByteOp(OrBits, s);
  }

  /** A string XORed with itself is all zeros, as long as the string. */
  lemma XorSelf(x: Branch, env: Env, fuel: nat, s: seq<Byte>)
    requires Evaluate(x, env, fuel) == Ok(Str(s))
    ensures Evaluate(Combination(Xor, x, x), env, fuel) == Ok(Str(Zeros(|s|)))
  {
    StrictStep(Xor, x, x, env, fuel, Str(s), Str(s));
    SelfByteOp(XorBits, s);
  }

  // ---------------------------------------------------------------------
  // Lists and dictionaries

  /** A list literal evaluates to a list of exactly its elements' values. */
  lemma ListLiteral(items: seq<Branch>, env: Env, fuel: nat, vs: seq<Value>)
    ensures Evaluate(ListBranch(items), env, fuel) == Ok(List(vs)) <==>
      |vs| == |items| && forall i | 0 <= i < |items| :: Evaluate(items[i], env, fuel) == Ok(vs[i])
  {
    if Evaluate(ListBranch(items), env, fuel) == Ok(List(vs)) {
      ListSound(items, env, fuel, vs);
    }
    if |vs| == |items| && forall i | 0 <= i < |items| :: Evaluate(items[i], env, fuel) == Ok(vs[i]) {
      ListComplete(items, env, fuel, vs);
    }
  }

  /** The list a list literal evaluates to holds its elements' values. */
  lemma ListSound(items: seq<Branch>, env: Env, fuel: nat, vs: seq<Value>)
    requires Evaluate(ListBranch(items), env, fuel) == Ok(List(vs))
    ensures |vs| == |items| && forall i | 0 <= i < |items| :: Evaluate(items[i], env, fuel) == Ok(vs[i])
  {
    var b := ListBranch(items);
    assert EvalItems(b, 0, env, fuel) == Ok(vs);
    ItemsSound(b, 0, env, fuel, vs);
    forall i | 0 <= i < |items|
      ensures Evaluate(items[i], env, fuel) == Ok(vs[i])
    {
      assert b.items[0 + i] == items[i];
    }
  }

  /** A list literal whose elements all evaluate gives the list of their values. */
  lemma ListComplete(items: seq<Branch>, env: Env, fuel: nat, vs: seq<Value>)
    requires |vs| == |items| && forall i | 0 <= i < |items| :: Evaluate(items[i], env, fuel) == Ok(vs[i])
    ensures Evaluate(ListBranch(items), env, fuel) == Ok(List(vs))
  {
    var b := ListBranch(items);
    forall j | 0 <= j < |vs|
      ensures Evaluate(b.items[0 + j], env, fuel) == Ok(vs[j])
    {
      assert b.items[0 + j] == items[j];
    }
    ItemsComplete(b, 0, env, fuel, vs);
  }

  /** The values the list loop collects from element `i` on are the
      elements' values, in order. */
  lemma {:induction false} ItemsSound(b: Branch, i: nat, env: Env, fuel: nat, vs: seq<Value>)
    requires b.ListBranch? && i <= |b.items|
    requires EvalItems(b, i, env, fuel) == Ok(vs)
    ensures |vs| == |b.items| - i && forall j | 0 <= j < |vs| :: Evaluate(b.items[i + j], env, fuel) == Ok(vs[j])
    decreases |b.items| - i
  {
    if i < |b.items| {
      ItemsSound(b, i + 1, env, fuel, vs[1..]);
      forall j | 0 <= j < |vs|
        ensures Evaluate(b.items[i + j], env, fuel) == Ok(vs[j])
      {
        if j > 0 {
          assert Evaluate(b.items[i + 1 + (j - 1)], env, fuel) == Ok(vs[1..][j - 1]);
        }
      }
    }
  }

  /** When every element from `i` on evaluates, the list loop collects
      exactly those values. */
  lemma {:induction false} ItemsComplete(b: Branch, i: nat, env: Env, fuel: nat, vs: seq<Value>)
    requires b.ListBranch? && i <= |b.items|
    requires |vs| == |b.items| - i && forall j | 0 <= j < |vs| :: Evaluate(b.items[i + j], env, fuel) == Ok(vs[j])
    ensures EvalItems(b, i, env, fuel) == Ok(vs)
    decreases |b.items| - i
  {
    if i < |b.items| {
      assert Evaluate(b.items[i + 0], env, fuel) == Ok(vs[0]);
      forall j | 0 <= j < |vs[1..]|
        ensures Evaluate(b.items[i + 1 + j], env, fuel) == Ok(vs[1..][j])
      {
        assert Evaluate(b.items[i + (j + 1)], env, fuel) == Ok(vs[j + 1]);
      }
      ItemsComplete(b, i + 1, env, fuel, vs[1..]);
      assert vs == [vs[0]] + vs[1..];
    }
  }

  /** `d .> f` calls `f` on each key of `d`, the keys as strings in code-unit
      order; the results form a list, one per key. */
  lemma MapOverDict(x: Branch, y: Branch, env: Env, fuel: nat, e: seq<(seq<Byte>, Value)>, f: Value)
    requires Evaluate(x, env, fuel) == Ok(Dict(e)) && Evaluate(y, env, fuel) == Ok(f)
    ensures var r := Evaluate(Combination(MapOver, x, y), env, fuel);
      var ks := SortKeys(Keys(e));
      && Sorted(ks) && multiset(ks) == multiset(Keys(e))
      && (r.Ok? ==>
            (&& r.value.List? && |r.value.items| == |e| == |ks|
             && forall i | 0 <= i < |ks| :: Apply(f, Str(ks[i]), fuel) == Ok(r.value.items[i])))
  {
    var b := Combination(MapOver, x, y);
    assert Evaluate(b, env, fuel) == Combine(b, env, fuel);
    SortKeysLaws(Keys(e));
    SortKeysLength(Keys(e));
    var ks := SortKeys(Keys(e));
    var xs := KeyStrings(e);
    assert forall i | 0 <= i < |ks| :: xs[i] == Str(ks[i]);
  }

  /** `[].map` calls nothing, so mapping anything over an empty list or an
      empty dictionary gives `[]`; over a list with elements, a value that is
      not a function fails at the first call. */
  lemma MapOverNeedsFunction(x: Branch, y: Branch, env: Env, fuel: nat, items: seq<Value>, f: Value)
    requires Evaluate(y, env, fuel) == Ok(f)
    ensures Evaluate(x, env, fuel) == Ok(List([])) ==>
      Evaluate(Combination(MapOver, x, y), env, fuel) == Ok(List([]))
    ensures Evaluate(x, env, fuel) == Ok(Dict([])) ==>
      Evaluate(Combination(MapOver, x, y), env, fuel) == Ok(List([]))
    ensures Evaluate(x, env, fuel) == Ok(List(items)) && |items| > 0 && !Callable(f) ==>
      Evaluate(Combination(MapOver, x, y), env, fuel) == Fail(NotCallable)
  {
    var b := Combination(MapOver, x, y);
    assert Evaluate(b, env, fuel) == Combine(b, env, fuel);
    assert MapApply(f, [], fuel) == Ok([]);
    if Evaluate(x, env, fuel) == Ok(Dict([])) {
      assert KeyStrings([]) == [];
    }
    if |items| > 0 && !Callable(f) {
      assert MapApply(f, items, fuel) == Fail(NotCallable);
    }
  }

  /** `l.i` picks element `i` of a list; past the end it is NULL. */
  lemma ListIndex(x: Branch, env: Env, fuel: nat, items: seq<Value>, n: int)
    requires Evaluate(x, env, fuel) == Ok(List(items))
    ensures var r := Evaluate(Combination(Dot, x, Leaf(NumberToken(Frac(n, 1)))), env, fuel);
      r == Ok(if 0 <= n < |items| then items[n] else Null)
  {
    var b := Combination(Dot, x, Leaf(NumberToken(Frac(n, 1))));
    assert Evaluate(b, env, fuel) == Combine(b, env, fuel);
    assert Evaluate(Leaf(NumberToken(Frac(n, 1))), env, fuel) == Ok(Number(Frac(n, 1)));
  }

  /** `s.k` on a string: a zero byte or a position out of range is NULL. A
      number key yields the one byte there. A numeral string key `n` yields
      the bytes from `n` to `10n + 1`, because `k + 1` appends a digit to the
      text of `k`. */
  lemma StringIndex(x: Branch, y: Branch, env: Env, fuel: nat, s: seq<Byte>, c: Value)
    requires Evaluate(x, env, fuel) == Ok(Str(s)) && Evaluate(y, env, fuel) == Ok(c)
    requires !(y.Leaf? && y.token.WordToken?)
    ensures var r := Evaluate(Combination(Dot, x, y), env, fuel);
      c.Number? ==>
        var n := c.frac.num;
        r == Ok(if 0 <= n < |s| && s[n] != 0 then Str([s[n]]) else Null)
    ensures var r := Evaluate(Combination(Dot, x, y), env, fuel);
      c.Str? && IsNumeral(c.bytes) ==>
        var n := DigitsValue(c.bytes);
        r == Ok(if n < |s| && s[n] != 0 then Str(s[n..if 10 * n + 1 < |s| then 10 * n + 1 else |s|]) else Null)
  {
    var b := Combination(Dot, x, y);
    assert Evaluate(b, env, fuel) == Combine(b, env, fuel);
    if c.Number? && 0 <= c.frac.num < |s| {
      assert s[c.frac.num..c.frac.num + 1] == [s[c.frac.num]];
    }
  }

  /** `d.w` for a word `w` is the entry named `w`, or NULL. */
  lemma DictField(x: Branch, env: Env, fuel: nat, e: seq<(seq<Byte>, Value)>, w: seq<Byte>)
    requires Evaluate(x, env, fuel) == Ok(Dict(e))
    ensures var r := Evaluate(Combination(Dot, x, Leaf(WordToken(w))), env, fuel);
      (w in Keys(e) ==> r.Ok? && r.value == e[Find(e, w).value].1)
      && (w !in Keys(e) ==> r == Ok(Null))
  {
    var b := Combination(Dot, x, Leaf(WordToken(w)));
    assert Evaluate(b, env, fuel) == Combine(b, env, fuel);
  }

  /** In a dictionary literal a word key names itself, and a repeated key
      takes the later value but keeps the place of its first occurrence:
      `{a: x, b: y, a: z}` is `{a: z, b: y}`. */
  lemma RepeatedKeyKeepsPlace(k1: seq<Byte>, k2: seq<Byte>, x: Branch, y: Branch, z: Branch, env: Env, fuel: nat,
                              vx: Value, vy: Value, vz: Value)
    requires k1 != k2 && !IsIndexKey(k1) && !IsIndexKey(k2)
    requires Evaluate(x, env, fuel) == Ok(vx) && Evaluate(y, env, fuel) == Ok(vy) && Evaluate(z, env, fuel) == Ok(vz)
    ensures Evaluate(DictBranch([(Leaf(WordToken(k1)), x), (Leaf(WordToken(k2)), y), (Leaf(WordToken(k1)), z)]), env, fuel)
      == Ok(Dict([(k1, vz), (k2, vy)]))
  {
    var b := DictBranch([(Leaf(WordToken(k1)), x), (Leaf(WordToken(k2)), y), (Leaf(WordToken(k1)), z)]);
    var e1 := [(k1, vx)];
    var e2 := [(k1, vx), (k2, vy)];
    var e3 := [(k1, vz), (k2, vy)];
    assert Put([], k1, vx) == e1;
    assert Find(e1, k2) == None;
    assert Put(e1, k2, vy) == e2;
    assert Find(e2, k1) == Some(0);
    assert Put(e2, k1, vz) == e3;
    assert EvalEntries(b, 3, env, fuel, e3) == Ok(e3);
    assert EvalEntries(b, 2, env, fuel, e2) == Ok(e3);
    assert EvalEntries(b, 1, env, fuel, e1) == Ok(e3);
    assert EvalEntries(b, 0, env, fuel, []) == Ok(e3);
  }

  /** A dictionary used as a computed key prints as `[object Object]`,
      unless it has an own `toString` entry: that entry is a value record,
      and calling it throws before the value is evaluated. */
  lemma DictionaryKey(k: Branch, x: Branch, env: Env, fuel: nat, e: seq<(seq<Byte>, Value)>, v: Value)
    requires !(k.Leaf? && k.token.WordToken?)
    requires Evaluate(k, env, fuel) == Ok(Dict(e)) && Evaluate(x, env, fuel) == Ok(v)
    ensures ToStringName() in Keys(e) ==> Evaluate(DictBranch([(k, x)]), env, fuel) == Fail(NotCallable)
    ensures ToStringName() !in Keys(e) ==> Evaluate(DictBranch([(k, x)]), env, fuel) == Ok(Dict([(ObjectText(), v)]))
  {
    var b := DictBranch([(k, x)]);
    if ToStringName() !in Keys(e) {
      assert !IsIndexKey(ObjectText()) by { assert ObjectText()[0] == '[' as int; }
      assert Put([], ObjectText(), v) == [(ObjectText(), v)];
      assert EvalEntries(b, 1, env, fuel, [(ObjectText(), v)]) == Ok([(ObjectText(), v)]);
    }
  }

  // ---------------------------------------------------------------------
  // Whole programs

  /** Interpreting the printed form of a string gives the string back. */
  lemma InterpretPrintedString(s: seq<Byte>, tab: nat, env: Env, fuel: nat)
    ensures Interpret(Formatter.Pretty(Str(s), tab), env, fuel) == Ok(Str(s))
  {
    var t := StringToken(s);
    Formatter.StringRoundTrip(s, tab);
    ParserLaws.SingleToken(t);
    InterpretOneToken(Formatter.Pretty(Str(s), tab), t, env, fuel);
  }

  /** Interpreting the printed form of a whole number gives the number back. */
  lemma InterpretPrintedInteger(n: nat, tab: nat, env: Env, fuel: nat)
    ensures Interpret(Formatter.Pretty(Number(Frac(n, 1)), tab), env, fuel) == Ok(Number(Frac(n, 1)))
  {
    var t := NumberToken(Frac(n, 1));
    Formatter.IntegerRoundTrip(n, tab);
    ParserLaws.SingleToken(t);
    InterpretOneToken(Formatter.Pretty(Number(Frac(n, 1)), tab), t, env, fuel);
  }

  /** A text that parses to one leaf evaluates as that leaf. */
  lemma InterpretOneToken(src: seq<Byte>, t: Token, env: Env, fuel: nat)
    requires Parse(Lex(src)) == Ok(Expression(Leaf(t)))
    ensures Interpret(src, env, fuel) == LeafValue(t, env)
  {
    InterpretTree(src, Expression(Leaf(t)), env, fuel);
    EvaluateOneLeaf(t, env, fuel);
  }

  lemma InterpretTree(src: seq<Byte>, tree: Branch, env: Env, fuel: nat)
    requires Parse(Lex(src)) == Ok(tree)
    ensures Interpret(src, env, fuel) == Evaluate(tree, env, fuel)
  {}

  lemma EvaluateOneLeaf(t: Token, env: Env, fuel: nat)
    ensures Evaluate(Expression(Leaf(t)), env, fuel) == LeafValue(t, env)
  {
    assert Evaluate(Expression(Leaf(t)), env, fuel) == Evaluate(Leaf(t), env, fuel);
  }
}

=== FILE: formatter.dfy ===
/** `pretty` (nli.js:744-782): the printed form of a value.

    Numbers print as `n` or `n / d`, strings between double quotes with
    backslash, quote, newline and tab escaped, NULL as `_`, lists on one line,
    dictionaries one entry per line indented by tabs, and functions as
    `(\x)`. The printed forms of strings and of non-negative integers lex back
    to the token they came from. */
module Formatter {
  import opened Bytes
  import opened Fraction
  import opened Results
  import opened Lexer
  import opened Values

  const Backslash: Byte := '\\' as int
  const Quote: Byte := '"' as int
  const Newline: Byte := '\n' as int
  const Tab: Byte := '\t' as int

  // ---------------------------------------------------------------------
  // String escapes

  /** The escape of one byte. */
  function EscapeByte(c: Byte): (r: seq<Byte>)
    ensures 1 <= |r| <= 2
  {
    if c == Backslash then [Backslash, Backslash]
    else if c == Quote then [Backslash, Quote]
    else if c == Newline then [Backslash, 'n' as int]
    else if c == Tab then [Backslash, 't' as int]
    else [c]
  }

  /** Every byte escaped, in order. */
  function Escape(s: seq<Byte>): seq<Byte> {
    if s == [] then [] else EscapeByte(s[0]) + Escape(s[1..])
  }

  /** `replaceAll` with a one-byte pattern: every occurrence of `c`, left to
      right, becomes `rep`. */
  function ReplaceAll(s: seq<Byte>, c: Byte, rep: seq<Byte>): seq<Byte> {
    if s == [] then [] else (if s[0] == c then rep else [s[0]]) + ReplaceAll(s[1..], c, rep)
  }

  /** The four `replaceAll` passes of the source, in their order. */
  function Passes(s: seq<Byte>): seq<Byte> {
    var s1 := ReplaceAll(s, Backslash, [Backslash, Backslash]);
    var s2 := ReplaceAll(s1, Quote, [Backslash, Quote]);
    var s3 := ReplaceAll(s2, Newline, [Backslash, 'n' as int]);
    ReplaceAll(s3, Tab, [Backslash, 't' as int])
  }

  /** A quoted, escaped string. */
  function Quoted(s: seq<Byte>): (r: seq<Byte>)
    ensures |r| >= 2 && r[0] == Quote && r[|r| - 1] == Quote
  {
    [Quote] + Escape(s) + [Quote]
  }

  // ---------------------------------------------------------------------
  // The printer

  /** `n` tab bytes: `new Array(n + 1).join('\t')`. */
  function Tabs(n: nat): (r: seq<Byte>)
    ensures |r| == n && forall i | 0 <= i < n :: r[i] == Tab
  {
    seq(n, i => Tab)
  }

  function NumberText(f: Frac): (r: seq<Byte>)
    ensures |r| > 0
  {
    if f.den == 1 then IntText(f.num)
    else IntText(f.num) + Text(" / ") + IntText(f.den)
  }

  /** `pretty(v, tab)`: `tab` is the indentation of the enclosing dictionary. */
  function Pretty(v: Value, tab: nat): (r: seq<Byte>)
    ensures |r| > 0
    decreases v, 1
  {
    match v
    case Number(f) => NumberText(f)
    case Str(s) => Quoted(s)
    case Null => ['_' as int]
    case Dict(_) => Text("{\n") + PrettyEntries(v, 0, tab) + Tabs(tab) + ['}' as int]
    case List(items) => ['[' as int] + PrettyItems(v, 0, tab) + [']' as int]
    case Closure(_, _, _) => Text("(\\x)")
    case Tee => Text("(\\x)")
    case Stray(_) => Text("(# UNKNOWN #)")
  }

  /** The list elements from `i` on, joined by `, `. */
  function PrettyItems(v: Value, i: nat, tab: nat): seq<Byte>
    requires v.List? && i <= |v.items|
    decreases v, 0, |v.items| - i
  {
    if i == |v.items| then []
    else if i + 1 == |v.items| then Pretty(v.items[i], tab)
    else Pretty(v.items[i], tab) + Text(", ") + PrettyItems(v, i + 1, tab)
  }

  /** The dictionary entries from `i` on, one line each. */
  function PrettyEntries(v: Value, i: nat, tab: nat): seq<Byte>
    requires v.Dict? && i <= |v.entries|
    decreases v, 0, |v.entries| - i
  {
    if i == |v.entries| then []
    else
      var (k, x) := v.entries[i];
      assert x < v.entries[i];
      Tabs(tab) + [Tab] + Quoted(k) + Text(": ") + Pretty(x, tab + 1) + Text(",\n")
        + PrettyEntries(v, i + 1, tab)
  }

  // ---------------------------------------------------------------------
  // Escapes: one byte at a time is the four passes

  lemma {:induction false} ReplaceAllAppend(a: seq<Byte>, b: seq<Byte>, c: Byte, rep: seq<Byte>)
    ensures ReplaceAll(a + b, c, rep) == ReplaceAll(a, c, rep) + ReplaceAll(b, c, rep)
  {
    if a == [] {
      assert a + b == b;
    } else {
      assert (a + b)[1..] == a[1..] + b;
      ReplaceAllAppend(a[1..], b, c, rep);
    }
  }

  lemma PassesAppend(a: seq<Byte>, b: seq<Byte>)
    ensures Passes(a + b) == Passes(a) + Passes(b)
  {
    var a1, b1 := ReplaceAll(a, Backslash, [Backslash, Backslash]), ReplaceAll(b, Backslash, [Backslash, Backslash]);
    ReplaceAllAppend(a, b, Backslash, [Backslash, Backslash]);
    var a2, b2 := ReplaceAll(a1, Quote, [Backslash, Quote]), ReplaceAll(b1, Quote, [Backslash, Quote]);
    ReplaceAllAppend(a1, b1, Quote, [Backslash, Quote]);
    var a3, b3 := ReplaceAll(a2, Newline, [Backslash, 'n' as int]), ReplaceAll(b2, Newline, [Backslash, 'n' as int]);
    ReplaceAllAppend(a2, b2, Newline, [Backslash, 'n' as int]);
    ReplaceAllAppend(a3, b3, Tab, [Backslash, 't' as int]);
  }

  /** `ReplaceAll` of a byte sequence none of whose bytes is the pattern. */
  lemma {:induction false} ReplaceAbsent(s: seq<Byte>, c: Byte, rep: seq<Byte>)
    requires forall i | 0 <= i < |s| :: s[i] != c
    ensures ReplaceAll(s, c, rep) == s
  {
    if s != [] {
      ReplaceAbsent(s[1..], c, rep);
    }
  }

  /** `ReplaceAll` on a single byte. */
  lemma ReplaceOne(c: Byte, p: Byte, rep: seq<Byte>)
    ensures ReplaceAll([c], p, rep) == if c == p then rep else [c]
  {
    assert [c][1..] == [];
  }

  lemma PassesByte(c: Byte)
    ensures Passes([c]) == EscapeByte(c)
  {
    ReplaceOne(c, Backslash, [Backslash, Backslash]);
    var s1 := ReplaceAll([c], Backslash, [Backslash, Backslash]);
    if c == Backslash {
      ReplaceAbsent(s1, Quote, [Backslash, Quote]);
      ReplaceAbsent(s1, Newline, [Backslash, 'n' as int]);
      ReplaceAbsent(s1, Tab, [Backslash, 't' as int]);
    } else {
      ReplaceOne(c, Quote, [Backslash, Quote]);
      var s2 := ReplaceAll(s1, Quote, [Backslash, Quote]);
      if c == Quote {
        ReplaceAbsent(s2, Newline, [Backslash, 'n' as int]);
        ReplaceAbsent(s2, Tab, [Backslash, 't' as int]);
      } else {
        ReplaceOne(c, Newline, [Backslash, 'n' as int]);
        var s3 := ReplaceAll(s2, Newline, [Backslash, 'n' as int]);
        if c == Newline {
          ReplaceAbsent(s3, Tab, [Backslash, 't' as int]);
        } else {
          ReplaceOne(c, Tab, [Backslash, 't' as int]);
        }
      }
    }
  }

  /** Escaping byte by byte is what the source's four `replaceAll` passes do:
      no pass touches the backslashes an earlier pass inserted. */
  lemma {:induction false} EscapeIsPasses(s: seq<Byte>)
    ensures Escape(s) == Passes(s)
  {
    if s != [] {
      assert s == [s[0]] + s[1..];
      PassesAppend([s[0]], s[1..]);
      PassesByte(s[0]);
      EscapeIsPasses(s[1..]);
    }
  }

  // ---------------------------------------------------------------------
  // Printed strings lex back

  /** The text `t` sits in `src` from index `i` on. */
  predicate At(src: seq<Byte>, i: nat, t: seq<Byte>) {
    i + |t| <= |src| && forall k | 0 <= k < |t| :: src[i + k] == t[k]
  }

  /** The string loop reading one escaped byte. */
  lemma ScanEscapedByte(src: seq<Byte>, i: nat, c: Byte, acc: seq<Byte>)
    requires At(src, i, EscapeByte(c))
    ensures ScanString(src, i, false, acc) == ScanString(src, i + |EscapeByte(c)|, false, acc + [c])
  {
    var e := EscapeByte(c);
    assert src[i + 0] == e[0];
    if |e| == 2 {
      assert src[i + 1] == e[1];
    }
  }

  /** The escape of `s` followed by a closing quote sits in `src` from
      index `i` on, one escaped byte after the other. */
  predicate EscapedAt(src: seq<Byte>, i: nat, s: seq<Byte>)
    decreases |s|
  {
    if s == [] then i < |src| && src[i] == Quote
    else At(src, i, EscapeByte(s[0])) && EscapedAt(src, i + |EscapeByte(s[0])|, s[1..])
  }

  /** The string loop reads an escaped text back up to the closing quote. */
  lemma {:induction false} ScanEscaped(src: seq<Byte>, i: nat, s: seq<Byte>, acc: seq<Byte>)
    requires EscapedAt(src, i, s)
    ensures ScanString(src, i, false, acc) == (acc + s, i + |Escape(s)|)
    decreases |s|
  {
    if s == [] {
      assert acc + s == acc;
    } else {
      var e := EscapeByte(s[0]);
      var acc' := acc + [s[0]];
      ScanEscaped(src, i + |e|, s[1..], acc');
      assert acc' + s[1..] == acc + s;
      assert |Escape(s)| == |e| + |Escape(s[1..])|;
      ScanEscapedByte(src, i, s[0], acc);
    }
  }

  /** An escaped text between `pre` and a closing quote is in place. */
  lemma {:induction false} QuotedEscapedAt(pre: seq<Byte>, s: seq<Byte>, post: seq<Byte>)
    ensures EscapedAt(pre + Escape(s) + [Quote] + post, |pre|, s)
    decreases |s|
  {
    var src := pre + Escape(s) + [Quote] + post;
    if s == [] {
      assert src[|pre|] == Quote;
    } else {
      var e := EscapeByte(s[0]);
      assert src == (pre + e) + Escape(s[1..]) + [Quote] + post;
      QuotedEscapedAt(pre + e, s[1..], post);
      forall k | 0 <= k < |e| ensures src[|pre| + k] == e[k] {
        assert src[|pre| + k] == (pre + e)[|pre| + k];
      }
    }
  }

  /** Every byte string prints to a text that lexes back to that string. */
  lemma StringRoundTrip(s: seq<Byte>, tab: nat)
    ensures Lex(Pretty(Str(s), tab)) == [StringToken(s)]
  {
    var src := Quoted(s);
    assert Pretty(Str(s), tab) == src;
    QuotedEscapedAt([Quote], s, []);
    assert src == [Quote] + Escape(s) + [Quote] + [];
    ScanEscaped(src, 1, s, []);
    assert [] + s == s;
    assert src[0] == '"' as int;
    assert Step(src, 0, Idle, []) == (|src|, Idle, [StringToken(s)]);
    assert LexFrom(src, |src|, Idle, [StringToken(s)]) == [StringToken(s)];
  }

  /** Every non-negative integer prints to its numeral, which lexes back to it. */
  lemma IntegerRoundTrip(n: nat, tab: nat)
    ensures Lex(Pretty(Number(Frac(n, 1)), tab)) == [NumberToken(Frac(n, 1))]
  {
    NumeralLexes(n);
  }

  // ---------------------------------------------------------------------
  // The printed form tells the kind of value

  /** The first byte of a printed value tells its kind: a quote for a
      string, `_` for NULL, brackets for lists and dictionaries, `(` for a
      function or an unknown value, and a digit or `-` for a number. */
  lemma FirstByteKind(v: Value, tab: nat)
    ensures var c := Pretty(v, tab)[0];
      && (c == Quote <==> v.Str?)
      && (c == '_' as int <==> v.Null?)
      && (c == '[' as int <==> v.List?)
      && (c == '{' as int <==> v.Dict?)
      && (c == '(' as int <==> v.Closure? || v.Tee? || v.Stray?)
      && (IsDigit(c) || c == '-' as int <==> v.Number?)
  {
    if v.Number? {
      var f := v.frac;
      assert NumberText(f)[0] == IntText(f.num)[0];
      if f.num >= 0 {
        assert IsDigit(Decimal(f.num)[0]);
      }
    }
  }
}

=== FILE: fraction.dfy ===
/** Exact fractions (nli.js:37-83): a gcd-based `simplify`, the number
    constructors `debool`/`deint`, and `operate` for `* / + - = < > <= >=`.

    A fraction is a numerator/denominator pair of unbounded integers. Nothing
    checks for a zero denominator: the `@` literal is 1/0 and arithmetic
    carries such pairs along. Multiplication and division cancel crosswise
    before multiplying; addition and subtraction simplify their result. */
module Fraction {

  datatype Frac = Frac(num: int, den: int)

  function Abs(x: int): nat {
    if x < 0 then -x else x
  }

  // ---------------------------------------------------------------------
  // Divisibility and the greatest common divisor

  predicate Divides(k: nat, n: int)
    requires k > 0
  {
    n % k == 0
  }

  /** Euclidean division is unique: a quotient/remainder pair that fits is the one `/` and `%` give. */
  lemma DivModUnique(n: int, d: int, q: int, r: int)
    requires d > 0 && n == d * q + r && 0 <= r < d
    ensures n / d == q && n % d == r
  {
    var q', r' := n / d, n % d;
    assert n == d * q' + r';
    if q > q' {
      MulAtLeast(d, q - q');
    } else if q < q' {
      MulAtLeast(d, q' - q);
    }
  }

  lemma MulAtLeast(d: nat, k: int)
    requires k >= 1
    ensures d * k >= d
  {
    assert d * k == d * (k - 1) + d;
  }

  lemma MultipleDivides(k: nat, q: int)
    requires k > 0
    ensures Divides(k, k * q) && (k * q) / k == q
  {
    DivModUnique(k * q, k, q, 0);
  }

  /** The remainder of JavaScript's `%`, which takes the sign of the dividend. */
  function JsRem(a: int, b: int): (r: int)
    requires b != 0
    ensures Abs(r) == Abs(a) % Abs(b)
  {
    if a >= 0 then a % Abs(b) else -((-a) % Abs(b))
  }

  /** `fraction.gcd` as written (nli.js:38): Euclid with JavaScript's remainder,
      so the result may be negative. */
  function JsGcd(a: int, b: int): int
    decreases Abs(b)
  {
    if b == 0 then a else JsGcd(b, JsRem(a, b))
  }

  /** The reference greatest common divisor of two naturals, with Gcd(0, 0) == 0. */
  function Gcd(a: nat, b: nat): nat
    decreases b
  {
    if b == 0 then a else Gcd(b, a % b)
  }

  /** The source's gcd agrees with the reference one up to sign. */
  lemma {:induction false} JsGcdIsGcd(a: int, b: int)
    ensures Abs(JsGcd(a, b)) == Gcd(Abs(a), Abs(b))
    decreases Abs(b)
  {
    if b != 0 {
      JsGcdIsGcd(b, JsRem(a, b));
    }
  }

  lemma {:induction false} GcdZero(a: nat, b: nat)
    ensures Gcd(a, b) == 0 <==> a == 0 && b == 0
    decreases b
  {
    if b != 0 {
      GcdZero(b, a % b);
    }
  }

  /** The gcd divides both of its arguments. */
  lemma {:induction false} GcdDividesBoth(a: nat, b: nat)
    requires Gcd(a, b) > 0
    ensures Divides(Gcd(a, b), a) && Divides(Gcd(a, b), b)
    decreases b
  {
    if b == 0 {
      MultipleDivides(a, 1);
      MultipleDivides(a, 0);
    } else {
      assert Gcd(a, b) == Gcd(b, a % b);
      GcdDividesBoth(b, a % b);
      DividesDividend(a, b, Gcd(a, b));
    }
  }

  /** A divisor of `b` and of `a % b` divides `a`. */
  lemma DividesDividend(a: nat, b: nat, g: nat)
    requires b > 0 && g > 0 && Divides(g, b) && Divides(g, a % b)
    ensures Divides(g, a)
  {
    var r := a % b;
    var p, q, k := b / g, r / g, a / b;
    assert b == g * p && r == g * q;
    assert a == b * k + r;
    FactorSum(a, b, r, g, p, q, k);
    MultipleDivides(g, p * k + q);
  }

  lemma FactorSum(a: int, b: int, r: int, g: int, p: int, q: int, k: int)
    requires b == g * p && r == g * q && a == b * k + r
    ensures a == g * (p * k + q)
  {}

  /** Every common divisor divides the gcd. */
  lemma {:induction false} CommonDivisorDividesGcd(c: nat, a: nat, b: nat)
    requires c > 0 && Divides(c, a) && Divides(c, b)
    ensures Divides(c, Gcd(a, b))
    decreases b
  {
    if b != 0 {
      var p, q, k := a / c, b / c, a / b;
      assert a % b == a - b * k;
      FactorDifference(a % b, a, b, c, p, q, k);
      MultipleDivides(c, p - q * k);
      CommonDivisorDividesGcd(c, b, a % b);
    }
  }

  lemma FactorDifference(m: int, a: int, b: int, c: int, p: int, q: int, k: int)
    requires a == c * p && b == c * q && m == a - b * k
    ensures m == c * (p - q * k)
  {}

  lemma ModScale(g: nat, x: nat, y: nat)
    requires g > 0 && y > 0
    ensures (g * x) % (g * y) == g * (x % y)
  {
    var q, r := x / y, x % y;
    ScaleDivision(g, x, y, q, r);
    DivModUnique(g * x, g * y, q, g * r);
  }

  lemma ScaleDivision(g: nat, x: nat, y: nat, q: int, r: int)
    requires g > 0 && x == y * q + r && 0 <= r < y
    ensures g * x == (g * y) * q + g * r && 0 <= g * r < g * y
  {
    MulAtLeast(g, y - r);
  }

  /** Scaling both arguments scales the gcd. */
  lemma {:induction false} GcdScale(g: nat, x: nat, y: nat)
    requires g > 0
    ensures Gcd(g * x, g * y) == g * Gcd(x, y)
    decreases y
  {
    if y != 0 {
      ModScale(g, x, y);
      GcdScale(g, y, x % y);
    }
  }

  predicate Coprime(x: int, y: int) {
    Gcd(Abs(x), Abs(y)) == 1
  }

  /** Euclid's lemma: a divisor of a product that is coprime to one factor divides the other. */
  lemma EuclidLemma(k: nat, m: nat, n: nat)
    requires k > 0 && Divides(k, m * n) && Gcd(k, m) == 1
    ensures Divides(k, n)
  {
    if n == 0 {
      MultipleDivides(k, 0);
    } else {
      var nk, nm := n * k, n * m;
      MultipleDivides(k, n);
      assert nk == k * n && nm == m * n;
      CommonDivisorDividesGcd(k, nk, nm);
      GcdScale(n, k, m);
      assert Gcd(nk, nm) == n * 1;
    }
  }

  // ---------------------------------------------------------------------
  // simplify, debool, deint

  /** The factor `simplify` divides by: the gcd of the parts, or 1 when both are 0. */
  function Reduction(n: int, d: int): (g: nat)
    ensures g > 0
  {
    var g := Gcd(Abs(n), Abs(d));
    if g == 0 then 1 else g
  }

  /** `fraction.simplify` (nli.js:40-43): divide both parts by the magnitude of
      the source's gcd, or by 1 when that is 0. */
  function Simplify(n: int, d: int): (r: Frac)
    ensures r.num * Reduction(n, d) == n && r.den * Reduction(n, d) == d
    ensures r.num * d == n * r.den
    ensures n != 0 || d != 0 ==> Coprime(r.num, r.den)
    ensures n == 0 && d == 0 ==> r == Frac(0, 0)
  {
    JsGcdIsGcd(n, d);
    var g := Abs(JsGcd(n, d));
    var g' := if g == 0 then 1 else g;
    SimplifyParts(n, d);
    Frac(n / g', d / g')
  }

  /** Dividing both parts by their gcd is exact and leaves coprime parts. */
  lemma SimplifyParts(n: int, d: int)
    ensures n / Reduction(n, d) * Reduction(n, d) == n
    ensures d / Reduction(n, d) * Reduction(n, d) == d
    ensures n / Reduction(n, d) * d == n * (d / Reduction(n, d))
    ensures n != 0 || d != 0 ==> Coprime(n / Reduction(n, d), d / Reduction(n, d))
  {
    var g := Reduction(n, d);
    GcdZero(Abs(n), Abs(d));
    if n == 0 && d == 0 {
      return;
    }
    GcdDividesBoth(Abs(n), Abs(d));
    var p := ExactQuotient(n, g);
    var q := ExactQuotient(d, g);
    CrossEqual(n, d, g, p, q);
    GcdScale(g, Abs(p), Abs(q));
    assert g * Gcd(Abs(p), Abs(q)) == g * 1;
  }

  /** The quotient of `n` by a divisor of its magnitude, which `/` computes exactly. */
  lemma ExactQuotient(n: int, g: nat) returns (p: int)
    requires g > 0 && Divides(g, Abs(n))
    ensures n == g * p && n / g == p && Abs(n) == g * Abs(p)
  {
    var m := Abs(n) / g;
    assert Abs(n) == g * m;
    p := if n < 0 then -m else m;
    MultipleDivides(g, p);
  }

  lemma CrossEqual(n: int, d: int, g: int, p: int, q: int)
    requires n == g * p && d == g * q
    ensures p * d == n * q
  {}

  /** `fraction.debool` (nli.js:45): a truth value as the number 1 or 0. */
  function Debool(b: bool): (r: Frac)
    ensures IsBool(r) && (r.num == 1 <==> b)
  {
    Frac(if b then 1 else 0, 1)
  }

  /** `fraction.deint` (nli.js:47): an integer count as a whole number. */
  function Deint(n: int): (r: Frac)
    ensures r.den == 1 && r.num == n
  {
    Frac(n, 1)
  }

  /** A comparison result: denominator 1 and numerator 0 or 1. */
  predicate IsBool(f: Frac) {
    f.den == 1 && (f.num == 0 || f.num == 1)
  }

  // ---------------------------------------------------------------------
  // operate

  datatype ArithOp = Times | Over | Plus | Minus | Equal | Less | Greater | AtMost | AtLeast

  /** `fraction.operate` (nli.js:49-82). */
  function Operate(op: ArithOp, a: Frac, b: Frac): (r: Frac)
    ensures op in {Equal, Less, Greater, AtMost, AtLeast} ==> IsBool(r)
  {
    match op
    case Times => Mul(a, b)
    case Over => Div(a, b)
    case Plus => Add(a, b)
    case Minus => Sub(a, b)
    case Equal => Eq(a, b)
    case Less => Lt(a, b)
    case Greater => Gt(a, b)
    case AtMost => Le(a, b)
    case AtLeast => Ge(a, b)
  }

  /** `*`: cancel each numerator against the other denominator, then multiply;
      the product is not simplified again. */
  function Mul(a: Frac, b: Frac): (r: Frac)
    ensures r.num * (a.den * b.den) == (a.num * b.num) * r.den
    ensures a.den != 0 && b.den != 0 ==> r.den != 0
  {
    var f1 := Simplify(a.num, b.den);
    var f2 := Simplify(b.num, a.den);
    MulCross(a, b, f1, f2);
    Frac(f1.num * f2.num, f1.den * f2.den)
  }

  lemma MulCross(a: Frac, b: Frac, f1: Frac, f2: Frac)
    requires f1.num * b.den == a.num * f1.den && f2.num * a.den == b.num * f2.den
    requires f1.den * Reduction(a.num, b.den) == b.den && f2.den * Reduction(b.num, a.den) == a.den
    ensures (f1.num * f2.num) * (a.den * b.den) == (a.num * b.num) * (f1.den * f2.den)
    ensures a.den != 0 && b.den != 0 ==> f1.den * f2.den != 0
  {
    CrossProducts(f1.num, f2.num, a.den, b.den, a.num, b.num, f1.den, f2.den);
    if a.den != 0 && b.den != 0 {
      NonZeroFactor(f1.den, Reduction(a.num, b.den), b.den);
      NonZeroFactor(f2.den, Reduction(b.num, a.den), a.den);
      NonZeroProduct(f1.den, f2.den);
    }
  }

  /** From x/y = w/v and u/z = p/q, crosswise: (x u)(z y) = (w p)(v q). */
  lemma CrossProducts(x: int, u: int, z: int, y: int, w: int, p: int, v: int, q: int)
    requires x * y == w * v && u * z == p * q
    ensures (x * u) * (z * y) == (w * p) * (v * q)
  {
    Regroup(x, u, z, y);
    Regroup(w, p, q, v);
    assert (x * y) * (u * z) == (w * v) * (p * q);
    assert q * v == v * q;
  }

  /** (w x)(y z) == (w z)(x y) */
  lemma Regroup(w: int, x: int, y: int, z: int)
    ensures (w * x) * (y * z) == (w * z) * (x * y)
  {}

  lemma NonZeroFactor(x: int, y: int, z: int)
    requires x * y == z && z != 0
    ensures x != 0
  {}

  lemma NonZeroProduct(x: int, y: int)
    requires x != 0 && y != 0
    ensures x * y != 0
  {}

  /** `/`: multiplication by the reciprocal pair (nli.js:63). */
  function Div(a: Frac, b: Frac): (r: Frac)
    ensures r.num * (a.den * b.num) == (a.num * b.den) * r.den
  {
    Mul(a, Frac(b.den, b.num))
  }

  /** `+`: common-denominator cross terms, then simplified (nli.js:64-68). */
  function Add(a: Frac, b: Frac): (r: Frac)
    ensures r.num * (a.den * b.den) == (a.num * b.den + b.num * a.den) * r.den
    ensures a.den != 0 && b.den != 0 ==> r.den != 0
  {
    Simplify(a.num * b.den + b.num * a.den, a.den * b.den)
  }

  /** `-`: addition of the pair with its numerator negated (nli.js:70). */
  function Sub(a: Frac, b: Frac): (r: Frac)
    ensures r.num * (a.den * b.den) == (a.num * b.den - b.num * a.den) * r.den
  {
    assert -b.num * a.den == -(b.num * a.den);
    Add(a, Frac(-b.num, b.den))
  }

  /** `=`: the two pairs are identical, component by component (nli.js:72). */
  function Eq(a: Frac, b: Frac): (r: Frac)
    ensures IsBool(r) && (r.num == 1 <==> a == b)
  {
    Debool(a.num == b.num && a.den == b.den)
  }

  /** `<`: cross-multiplied comparison, with no regard to the denominators' signs (nli.js:74). */
  function Lt(a: Frac, b: Frac): (r: Frac)
    ensures IsBool(r) && (r.num == 1 <==> a.num * b.den < b.num * a.den)
  {
    Debool(a.num * b.den < b.num * a.den)
  }

  /** `>`: `<` with the operands swapped (nli.js:76). */
  function Gt(a: Frac, b: Frac): (r: Frac)
    ensures IsBool(r)
  {
    Lt(b, a)
  }

  /** `<=`: `=` or `<` (nli.js:78). */
  function Le(a: Frac, b: Frac): (r: Frac)
    ensures IsBool(r)
  {
    Debool(Eq(a, b).num != 0 || Lt(a, b).num != 0)
  }

  /** `>=`: `<=` with the operands swapped (nli.js:80). */
  function Ge(a: Frac, b: Frac): (r: Frac)
    ensures IsBool(r)
  {
    Le(b, a)
  }
}

=== FILE: fraction_laws.dfy ===
/** What the fraction operations mean, stated against the rational value
    `num / den` of a pair (with Dafny's `real`), plus the algebraic laws and
    the sign quirk of the cross-multiplied comparisons. */
module FractionLaws {
  import opened Fraction

  /** The rational number a pair with a non-zero denominator stands for. */
  function Value(f: Frac): real
    requires f.den != 0
  {
    f.num as real / f.den as real
  }

  /** Lowest terms with a positive denominator: the form literals and sums of such take. */
  predicate Canonical(f: Frac) {
    f.den > 0 && Coprime(f.num, f.den)
  }

  /** Cross-multiplied equality of two pairs is equality of their values. */
  lemma SameValue(x: int, y: int, u: int, v: int)
    requires y != 0 && v != 0
    ensures x * v == u * y <==> x as real / y as real == u as real / v as real
  {
    var X, Y, U, V := x as real, y as real, u as real, v as real;
    assert (x * v) as real == X * V && (u * y) as real == U * Y;
    assert X / Y == U / V <==> X * V == U * Y;
  }

  /** Cross-multiplied order is the order of the values when both denominators are positive. */
  lemma SmallerValue(x: int, y: int, u: int, v: int)
    requires y > 0 && v > 0
    ensures x * v < u * y <==> x as real / y as real < u as real / v as real
  {
    var X, Y, U, V := x as real, y as real, u as real, v as real;
    assert (x * v) as real == X * V && (u * y) as real == U * Y;
    assert X / Y < U / V <==> X * V < U * Y;
  }

  // ---------------------------------------------------------------------
  // Arithmetic

  lemma SimplifyKeepsValue(n: int, d: int)
    requires d != 0
    ensures Simplify(n, d).den != 0
    ensures Value(Simplify(n, d)) == n as real / d as real
  {
    var r := Simplify(n, d);
    SameValue(r.num, r.den, n, d);
  }

  /** `*` gives the two operands' product and is symmetric in them. */
  lemma MulLaws(a: Frac, b: Frac)
    requires a.den != 0 && b.den != 0
    ensures Mul(a, b) == Mul(b, a)
    ensures Mul(a, b).den != 0 && Value(Mul(a, b)) == Value(a) * Value(b)
  {
    MulCommutes(a, b);
    ProductValue(Mul(a, b), a, b);
  }

  lemma MulCommutes(a: Frac, b: Frac)
    ensures Mul(a, b) == Mul(b, a)
  {
    var f1, f2 := Simplify(a.num, b.den), Simplify(b.num, a.den);
    assert Mul(a, b) == Frac(f1.num * f2.num, f1.den * f2.den);
    assert Mul(b, a) == Frac(f2.num * f1.num, f2.den * f1.den);
  }

  /** A pair cross-equal to the product of two others has the product of their values. */
  lemma ProductValue(r: Frac, a: Frac, b: Frac)
    requires a.den != 0 && b.den != 0 && r.den != 0
    requires r.num * (a.den * b.den) == (a.num * b.num) * r.den
    ensures Value(r) == Value(a) * Value(b)
  {
    NonZeroProduct(a.den, b.den);
    SameValue(r.num, r.den, a.num * b.num, a.den * b.den);
    ProductOfQuotients(a.num, a.den, b.num, b.den);
  }

  lemma ProductOfQuotients(x: int, y: int, u: int, v: int)
    requires y != 0 && v != 0
    ensures (x * u) as real / (y * v) as real == (x as real / y as real) * (u as real / v as real)
  {
    assert (x * u) as real == x as real * u as real;
    assert (y * v) as real == y as real * v as real;
  }

  /** `+` gives the two operands' sum and is symmetric in them. */
  lemma AddLaws(a: Frac, b: Frac)
    requires a.den != 0 && b.den != 0
    ensures Add(a, b) == Add(b, a)
    ensures Add(a, b).den != 0 && Value(Add(a, b)) == Value(a) + Value(b)
  {
    AddCommutes(a, b);
    var r := Add(a, b);
    var n, d := a.num * b.den + b.num * a.den, a.den * b.den;
    assert r == Simplify(n, d);
    SimplifyKeepsValue(n, d);
    SumOfQuotients(a.num, a.den, b.num, b.den);
  }

  lemma AddCommutes(a: Frac, b: Frac)
    ensures Add(a, b) == Add(b, a)
  {
    assert a.num * b.den + b.num * a.den == b.num * a.den + a.num * b.den;
    assert a.den * b.den == b.den * a.den;
  }

  lemma SumOfQuotients(x: int, y: int, u: int, v: int)
    requires y != 0 && v != 0
    ensures (x * v + u * y) as real / (y * v) as real == x as real / y as real + u as real / v as real
  {
    var X, Y, U, V := x as real, y as real, u as real, v as real;
    assert (x * v + u * y) as real == X * V + U * Y;
    assert (y * v) as real == Y * V;
    assert (X * V + U * Y) / (Y * V) == X / Y + U / V;
  }

  /** `-` gives the difference of the operands. */
  lemma SubLaws(a: Frac, b: Frac)
    requires a.den != 0 && b.den != 0
    ensures Sub(a, b).den != 0 && Value(Sub(a, b)) == Value(a) - Value(b)
  {
    var nb := Frac(-b.num, b.den);
    assert Sub(a, b) == Add(a, nb);
    AddLaws(a, nb);
    NegatedQuotient(b.num, b.den);
  }

  lemma NegatedQuotient(x: int, y: int)
    requires y != 0
    ensures (-x) as real / y as real == -(x as real / y as real)
  {}

  /** `/` gives the quotient of the operands when the divisor is not zero. */
  lemma DivLaws(a: Frac, b: Frac)
    requires a.den != 0 && b.den != 0 && b.num != 0
    ensures Div(a, b).den != 0 && Value(Div(a, b)) == Value(a) / Value(b)
  {
    var rb := Frac(b.den, b.num);
    assert Div(a, b) == Mul(a, rb);
    MulLaws(a, rb);
    Reciprocal(b.num, b.den);
    NonZeroQuotient(b.num, b.den);
    TimesReciprocal(Value(a), Value(b), Value(rb));
  }

  lemma TimesReciprocal(x: real, y: real, z: real)
    requires y != 0.0 && z == 1.0 / y
    ensures x * z == x / y
  {}

  lemma Reciprocal(x: int, y: int)
    requires x != 0 && y != 0
    ensures y as real / x as real == 1.0 / (x as real / y as real)
  {}

  /** Dividing a product by one factor gives back the other one's value. */
  lemma DivUndoesMul(a: Frac, b: Frac)
    requires a.den != 0 && b.den != 0 && b.num != 0
    ensures Mul(a, b).den != 0 && Div(Mul(a, b), b).den != 0
    ensures Value(Div(Mul(a, b), b)) == Value(a)
  {
    MulLaws(a, b);
    DivideProduct(a, b, Mul(a, b));
  }

  lemma DivideProduct(a: Frac, b: Frac, m: Frac)
    requires a.den != 0 && b.den != 0 && b.num != 0 && m.den != 0
    requires Value(m) == Value(a) * Value(b)
    ensures Div(m, b).den != 0 && Value(Div(m, b)) == Value(a)
  {
    DivLaws(m, b);
    NonZeroQuotient(b.num, b.den);
    CancelValue(a, b, m, Div(m, b));
  }

  lemma CancelValue(a: Frac, b: Frac, m: Frac, q: Frac)
    requires a.den != 0 && b.den != 0 && m.den != 0 && q.den != 0 && Value(b) != 0.0
    requires Value(m) == Value(a) * Value(b) && Value(q) == Value(m) / Value(b)
    ensures Value(q) == Value(a)
  {
    CancelFactor(Value(a), Value(b), Value(m), Value(q));
  }

  lemma NonZeroQuotient(x: int, y: int)
    requires x != 0 && y != 0
    ensures x as real / y as real != 0.0
  {}

  lemma CancelFactor(x: real, y: real, p: real, q: real)
    requires y != 0.0 && p == x * y && q == p / y
    ensures q == x
  {}

  /** A sum of canonical fractions is canonical again, since `+` simplifies. */
  lemma AddKeepsCanonical(a: Frac, b: Frac)
    requires Canonical(a) && Canonical(b)
    ensures Canonical(Add(a, b))
  {
    var d := a.den * b.den;
    assert d > 0;
    var r := Add(a, b);
    assert r.den * Reduction(a.num * b.den + b.num * a.den, d) == d;
  }

  // ---------------------------------------------------------------------
  // Comparisons

  /** `<` and `>` order by value when both denominators are positive. */
  lemma LessLaws(a: Frac, b: Frac)
    requires a.den > 0 && b.den > 0
    ensures Lt(a, b).num == 1 <==> Value(a) < Value(b)
    ensures Gt(a, b).num == 1 <==> Value(a) > Value(b)
  {
    SmallerValue(a.num, a.den, b.num, b.den);
    SmallerValue(b.num, b.den, a.num, a.den);
  }

  /** Canonical fractions with the same value are the same pair. */
  lemma {:induction false} CanonicalUnique(a: Frac, b: Frac)
    requires Canonical(a) && Canonical(b) && Value(a) == Value(b)
    ensures a == b
  {
    SameValue(a.num, a.den, b.num, b.den);
    DenominatorDivides(a.num, a.den, b.num, b.den);
    DenominatorDivides(b.num, b.den, a.num, a.den);
    MutualDivisors(a.den, b.den);
    CancelPositive(a.num, b.num, a.den);
  }

  /** Two positive numbers that divide each other are equal. */
  lemma MutualDivisors(x: int, y: int)
    requires x > 0 && y > 0 && Divides(x, y) && Divides(y, x)
    ensures x == y
  {
    var p, q := y / x, x / y;
    assert y == x * p && x == y * q;
    assert x == x * (p * q);
    OneFactor(x, p * q);
    OneFactor(x, p);
  }

  lemma CancelPositive(x: int, y: int, k: int)
    requires k > 0 && x * k == y * k
    ensures x == y
  {}

  lemma OneFactor(x: int, k: int)
    requires x > 0 && (x == x * k || (x * k == x * 1 && k >= 0))
    ensures k == 1
  {
    assert x * k == x * 1;
  }

  /** In x/y == u/v with x/y in lowest terms, y divides v. */
  lemma DenominatorDivides(x: int, y: int, u: int, v: int)
    requires y > 0 && v > 0 && Coprime(x, y) && x * v == u * y
    ensures Divides(y, v)
  {
    assert Abs(u * y) == Abs(u) * y;
    assert Abs(x * v) == Abs(x) * v;
    MultipleDivides(y, Abs(u));
    assert Abs(u) * y == y * Abs(u);
    assert Divides(y, Abs(x) * v);
    GcdSymmetric(Abs(x), y);
    EuclidLemma(y, Abs(x), v);
  }

  lemma GcdSymmetric(a: nat, b: nat)
    ensures Gcd(a, b) == Gcd(b, a)
  {
    if a < b {
      GcdSwap(a, b);
    } else if b < a {
      GcdSwap(b, a);
    }
  }

  lemma GcdSwap(a: nat, b: nat)
    requires a < b
    ensures Gcd(a, b) == Gcd(b, a)
  {
    assert a % b == a;
  }

  /** `<` and `>` are the truth values of the value order when both
      denominators are positive. */
  lemma LessIsOrder(a: Frac, b: Frac)
    requires a.den > 0 && b.den > 0
    ensures Lt(a, b) == Debool(Value(a) < Value(b)) && Gt(a, b) == Debool(Value(a) > Value(b))
  {
    LessLaws(a, b);
  }

  /** `=`, `<=` and `>=` are the truth values of the value relations on
      fractions in lowest terms. */
  lemma EqualityIsOrder(a: Frac, b: Frac)
    requires Canonical(a) && Canonical(b)
    ensures Eq(a, b) == Debool(Value(a) == Value(b))
    ensures Le(a, b) == Debool(Value(a) <= Value(b)) && Ge(a, b) == Debool(Value(a) >= Value(b))
  {
    EqualityLaws(a, b);
  }

  /** On canonical fractions `=` is equality of values and `<=`, `>=` order by value. */
  lemma EqualityLaws(a: Frac, b: Frac)
    requires Canonical(a) && Canonical(b)
    ensures Eq(a, b).num == 1 <==> Value(a) == Value(b)
    ensures Le(a, b).num == 1 <==> Value(a) <= Value(b)
    ensures Ge(a, b).num == 1 <==> Value(a) >= Value(b)
  {
    if Value(a) == Value(b) {
      CanonicalUnique(a, b);
    }
    LessLaws(a, b);
  }

  /** `1 / (0 - 1)` produces the pair 1/-1: division swaps the pair and
      leaves the sign in the denominator. */
  lemma NegativeDenominator()
    ensures Sub(Frac(0, 1), Frac(1, 1)) == Frac(-1, 1)
    ensures Div(Frac(1, 1), Frac(-1, 1)) == Frac(1, -1)
  {
    ZeroMinusOne();
    OneOverMinusOnePair();
  }

  /** `<` ignores the sign of a negative denominator: 1/-1 is below 0 in
      value, yet not `<` 0. */
  lemma NegativeDenominatorLess()
    ensures Value(Frac(1, -1)) < Value(Frac(0, 1)) && Lt(Frac(1, -1), Frac(0, 1)).num == 0
  {
    MinusOneValues();
  }

  /** `=` compares pairs, not values: 1/-1 and -1/1 are both -1, yet not `=`. */
  lemma NegativeDenominatorEqual()
    ensures Value(Frac(1, -1)) == Value(Frac(-1, 1)) && Eq(Frac(1, -1), Frac(-1, 1)).num == 0
  {
    MinusOneValues();
  }

  lemma MinusOneValues()
    ensures Value(Frac(1, -1)) == -1.0 && Value(Frac(-1, 1)) == -1.0 && Value(Frac(0, 1)) == 0.0
  {
    assert (-1) as real == -1.0 && 1 as real == 1.0 && 0 as real == 0.0;
    assert 1.0 / -1.0 == -1.0 && -1.0 / 1.0 == -1.0;
  }

  lemma ZeroMinusOne()
    ensures Sub(Frac(0, 1), Frac(1, 1)) == Frac(-1, 1)
  {
    assert Sub(Frac(0, 1), Frac(1, 1)) == Simplify(-1, 1);
    MinusOneSimplified();
  }

  lemma OneOverMinusOnePair()
    ensures Div(Frac(1, 1), Frac(-1, 1)) == Frac(1, -1)
  {
    assert Div(Frac(1, 1), Frac(-1, 1)) == Mul(Frac(1, 1), Frac(1, -1));
    OneOverMinusOne();
    OneSimplified();
  }

  lemma OneSimplified()
    ensures Simplify(1, 1) == Frac(1, 1)
  {
    assert JsRem(1, 1) == 0;
    assert JsGcd(1, 1) == 1;
  }

  lemma MinusOneSimplified()
    ensures Simplify(-1, 1) == Frac(-1, 1)
  {
    assert JsRem(-1, 1) == 0;
    assert JsGcd(-1, 1) == 1;
  }

  lemma OneOverMinusOne()
    ensures Simplify(1, -1) == Frac(1, -1)
  {
    assert JsRem(1, -1) == 0;
    assert JsGcd(1, -1) == -1;
  }
}

=== FILE: lexer.dfy ===
/** The lexer (`lex`, nli.js:88-314): one left-to-right scan over the program
    text with a pending-token accumulator.

    Brackets, the specials `\ : ,`, `_` and `@` are one-byte tokens; runs of
    operator bytes and runs of other bytes accumulate into OPERATOR and WORD
    tokens; string and numeric literals are scanned by inner loops. The
    quirks of the source are kept: a backslash inside a comment does nothing,
    a comment does not end the pending token, a digit always starts a number
    token, and the token still pending at the end of the text is dropped. */
module Lexer {
  import opened Bytes
  import opened Fraction
  import opened Results

  datatype Bracket = OpenParen | CloseParen | OpenSquare | CloseSquare | OpenCurly | CloseCurly

  datatype Special = Backslash | Colon | Comma

  datatype Token =
    | BracketToken(bracket: Bracket)
    | SpecialToken(special: Special)
    | OperatorToken(text: seq<Byte>)
    | WordToken(text: seq<Byte>)
    | NumberToken(value: Frac)
    | StringToken(bytes: seq<Byte>)
    | NullToken

  // ---------------------------------------------------------------------
  // Byte classes (nli.js:182-310)

  predicate IsWhitespace(c: Byte) {
    c == ' ' as int || c == '\t' as int || c == '\r' as int || c == '\n' as int
  }

  function BracketOf(c: Byte): Option<Bracket> {
    if c == '(' as int then Some(OpenParen)
    else if c == ')' as int then Some(CloseParen)
    else if c == '[' as int then Some(OpenSquare)
    else if c == ']' as int then Some(CloseSquare)
    else if c == '{' as int then Some(OpenCurly)
    else if c == '}' as int then Some(CloseCurly)
    else None
  }

  function SpecialOf(c: Byte): Option<Special> {
    if c == '\\' as int then Some(Backslash)
    else if c == ':' as int then Some(Colon)
    else if c == ',' as int then Some(Comma)
    else None
  }

  predicate IsOperatorByte(c: Byte) {
    c in {'+' as int, '-' as int, '*' as int, '/' as int, '<' as int, '>' as int,
          '=' as int, '.' as int, '~' as int, '&' as int, '|' as int, '^' as int}
  }

  /** Bytes that the `default` branch adds to a WORD run. */
  predicate IsWordByte(c: Byte) {
    && c != '#' as int && c != '"' as int && c != '_' as int && c != '@' as int
    && !IsWhitespace(c) && BracketOf(c).None? && SpecialOf(c).None?
    && !IsDigit(c) && !IsOperatorByte(c)
  }

  // ---------------------------------------------------------------------
  // The pending accumulator (`ctype` and `token`, nli.js:91-107)

  datatype RunKind = OperatorRun | WordRun

  /** No run in progress, or a non-empty run of one kind. */
  datatype Pending = Idle | Run(kind: RunKind, text: seq<Byte>)

  /** `endToken`: emit the pending run, if any. */
  function EndToken(p: Pending, toks: seq<Token>): (r: seq<Token>)
    ensures p.Idle? ==> r == toks
    ensures p.Run? ==> |r| == |toks| + 1 && r[..|toks|] == toks
    ensures PendingWellFormed(p) && AllWellFormed(toks) ==> AllWellFormed(r)
  {
    match p
    case Idle => toks
    case Run(OperatorRun, t) => toks + [OperatorToken(t)]
    case Run(WordRun, t) => toks + [WordToken(t)]
  }

  /** A token the lexer can emit: runs are non-empty and made of bytes of their class. */
  predicate WellFormed(t: Token) {
    match t
    case OperatorToken(s) => |s| > 0 && forall i | 0 <= i < |s| :: IsOperatorByte(s[i])
    case WordToken(s) => |s| > 0 && forall i | 0 <= i < |s| :: IsWordByte(s[i])
    case _ => true
  }

  predicate PendingWellFormed(p: Pending) {
    match p
    case Idle => true
    case Run(OperatorRun, s) => WellFormed(OperatorToken(s))
    case Run(WordRun, s) => WellFormed(WordToken(s))
  }

  predicate AllWellFormed(toks: seq<Token>) {
    forall i | 0 <= i < |toks| :: WellFormed(toks[i])
  }

  // ---------------------------------------------------------------------
  // Inner scans

  /** The comment loop (nli.js:112-133): the index of the closing `#`, or the
      end of the text. A backslash sets a flag that is never read, so it does
      not stop a `#` from closing the comment. */
  function CommentEnd(src: seq<Byte>, i: nat): (r: nat)
    requires i <= |src|
    ensures i <= r <= |src|
    ensures r < |src| ==> src[r] == '#' as int
    ensures forall j | i <= j < r :: src[j] != '#' as int
    decreases |src| - i
  {
    if i == |src| || src[i] == '#' as int then i else CommentEnd(src, i + 1)
  }

  /** The string-literal loop (nli.js:135-180). Returns the bytes read and the
      index of the closing quote, or the end of the text when there is none. */
  function ScanString(src: seq<Byte>, i: nat, escaped: bool, acc: seq<Byte>): (r: (seq<Byte>, nat))
    requires i <= |src|
    ensures i <= r.1 <= |src|
    ensures r.1 < |src| ==> src[r.1] == '"' as int
    decreases |src| - i
  {
    if i == |src| then (acc, i)
    else
      var c := src[i];
      if !escaped && c == '\\' as int then ScanString(src, i + 1, true, acc)
      else if !escaped && c == '"' as int then (acc, i)
      else
        var b := if escaped && c == 'n' as int then '\n' as int
                 else if escaped && c == 't' as int then '\t' as int
                 else c;
        ScanString(src, i + 1, false, acc + [b])
  }

  /** The digits among some bytes, in order. */
  function DigitsOf(s: seq<Byte>): (r: seq<Byte>)
    ensures AllDigits(r) && |r| <= |s|
  {
    if s == [] then []
    else if IsDigit(s[|s| - 1]) then DigitsOf(s[..|s| - 1]) + [s[|s| - 1]]
    else DigitsOf(s[..|s| - 1])
  }

  /** Bytes a numeric literal consumes, given whether a `.` has been seen. */
  predicate InNumber(c: Byte, seenDot: bool) {
    IsDigit(c) || c == '_' as int || (c == '.' as int && !seenDot)
  }

  datatype NumberScan = NumberScan(digits: seq<Byte>, dot: Option<nat>, end: nat)

  /** The numeric-literal loop (nli.js:243-262): digits are collected, `_` is
      skipped, and the first `.` is remembered as the decimal point. */
  function ScanNumber(src: seq<Byte>, i: nat, dot: Option<nat>, digits: seq<Byte>): (r: NumberScan)
    requires i <= |src| && AllDigits(digits)
    ensures i <= r.end <= |src| && AllDigits(r.digits)
    ensures dot.Some? ==> r.dot == dot
    ensures dot.None? && r.dot.Some? ==> i <= r.dot.value < r.end && src[r.dot.value] == '.' as int
    decreases |src| - i
  {
    if i == |src| then NumberScan(digits, dot, i)
    else
      var c := src[i];
      if c == '.' as int && dot.None? then ScanNumber(src, i + 1, Some(i), digits)
      else if IsDigit(c) then ScanNumber(src, i + 1, dot, digits + [c])
      else if c == '_' as int then ScanNumber(src, i + 1, dot, digits)
      else NumberScan(digits, dot, i)
  }

  /** The numeric-literal loop stops only at a byte that cannot continue the literal. */
  lemma {:induction false} ScanNumberMaximal(src: seq<Byte>, i: nat, dot: Option<nat>, digits: seq<Byte>)
    requires i <= |src| && AllDigits(digits)
    ensures var r := ScanNumber(src, i, dot, digits);
      r.end < |src| ==> !InNumber(src[r.end], r.dot.Some?)
    decreases |src| - i
  {
    if i < |src| {
      var c := src[i];
      if c == '.' as int && dot.None? {
        ScanNumberMaximal(src, i + 1, Some(i), digits);
      } else if IsDigit(c) {
        ScanNumberMaximal(src, i + 1, dot, digits + [c]);
      } else if c == '_' as int {
        ScanNumberMaximal(src, i + 1, dot, digits);
      }
    }
  }

  /** Every byte the numeric-literal loop consumes is a digit, a `_`, or the
      one `.` it records. */
  lemma {:induction false} ScanNumberConsumes(src: seq<Byte>, i: nat, dot: Option<nat>, digits: seq<Byte>)
    requires i <= |src| && AllDigits(digits)
    ensures var r := ScanNumber(src, i, dot, digits);
      forall j | i <= j < r.end :: InNumber(src[j], dot.Some? || (r.dot.Some? && j > r.dot.value))
    decreases |src| - i
  {
    if i < |src| {
      var c := src[i];
      if c == '.' as int && dot.None? {
        ScanNumberConsumes(src, i + 1, Some(i), digits);
      } else if IsDigit(c) {
        ScanNumberConsumes(src, i + 1, dot, digits + [c]);
      } else if c == '_' as int {
        ScanNumberConsumes(src, i + 1, dot, digits);
      }
    }
  }

  /** The `.` a numeric literal records is the first one it consumes. */
  lemma {:induction false} ScanNumberFirstDot(src: seq<Byte>, i: nat, digits: seq<Byte>)
    requires i <= |src| && AllDigits(digits)
    ensures var r := ScanNumber(src, i, None, digits);
      forall j | i <= j < r.end && src[j] == '.' as int :: r.dot == Some(j)
    decreases |src| - i
  {
    if i < |src| {
      var c := src[i];
      if c == '.' as int {
        ScanNumberConsumes(src, i + 1, Some(i), digits);
      } else if IsDigit(c) {
        ScanNumberFirstDot(src, i + 1, digits + [c]);
      } else if c == '_' as int {
        ScanNumberFirstDot(src, i + 1, digits);
      }
    }
  }

  /** The numeric-literal loop collects exactly the digits it consumes, in order. */
  lemma {:induction false} ScanNumberDigits(src: seq<Byte>, i: nat, dot: Option<nat>, digits: seq<Byte>)
    requires i <= |src| && AllDigits(digits)
    ensures var r := ScanNumber(src, i, dot, digits);
      r.digits == digits + DigitsOf(src[i..r.end])
    decreases |src| - i
  {
    if i < |src| && InNumber(src[i], dot.Some?) {
      var dot' := if src[i] == '.' as int && dot.None? then Some(i) else dot;
      ScanNumberStep(src, i, dot, digits);
      ScanNumberDigits(src, i + 1, dot', digits + DigitsOf([src[i]]));
      DigitsStep(src, i, ScanNumber(src, i, dot, digits).end, digits);
    } else {
      ScanNumberStops(src, i, dot, digits);
    }
  }

  /** The digits of a stretch are those of its first byte followed by the rest's. */
  lemma DigitsStep(src: seq<Byte>, i: nat, end: nat, digits: seq<Byte>)
    requires i < end <= |src|
    ensures digits + DigitsOf([src[i]]) + DigitsOf(src[i + 1..end]) == digits + DigitsOf(src[i..end])
  {
    DigitsOfCons(src, i, end);
  }

  /** Where the numeric-literal loop cannot go on, it consumes nothing. */
  lemma ScanNumberStops(src: seq<Byte>, i: nat, dot: Option<nat>, digits: seq<Byte>)
    requires i <= |src| && AllDigits(digits)
    requires i == |src| || !InNumber(src[i], dot.Some?)
    ensures ScanNumber(src, i, dot, digits) == NumberScan(digits, dot, i)
    ensures digits + DigitsOf(src[i..i]) == digits
  {
    assert src[i..i] == [];
  }

  /** One byte of the numeric-literal loop. */
  lemma ScanNumberStep(src: seq<Byte>, i: nat, dot: Option<nat>, digits: seq<Byte>)
    requires i < |src| && AllDigits(digits) && InNumber(src[i], dot.Some?)
    ensures AllDigits(digits + DigitsOf([src[i]]))
    ensures ScanNumber(src, i, dot, digits) ==
      ScanNumber(src, i + 1, if src[i] == '.' as int && dot.None? then Some(i) else dot, digits + DigitsOf([src[i]]))
  {
    var c := src[i];
    DigitsOfSingle(c);
    if IsDigit(c) {
      assert ScanNumber(src, i, dot, digits) == ScanNumber(src, i + 1, dot, digits + [c]);
    } else {
      assert digits + DigitsOf([c]) == digits;
    }
  }

  lemma DigitsOfSingle(c: Byte)
    ensures DigitsOf([c]) == if IsDigit(c) then [c] else []
  {
    assert [c][..0] == [];
  }

  lemma DigitsOfAppend(s: seq<Byte>, t: seq<Byte>)
    ensures DigitsOf(s + t) == DigitsOf(s) + DigitsOf(t)
    decreases |t|
  {
    if t == [] {
      assert s + t == s;
    } else {
      assert (s + t)[..|s + t| - 1] == s + t[..|t| - 1];
      DigitsOfAppend(s, t[..|t| - 1]);
    }
  }

  lemma DigitsOfCons(src: seq<Byte>, i: nat, end: nat)
    requires i < end <= |src|
    ensures DigitsOf(src[i..end]) == DigitsOf([src[i]]) + DigitsOf(src[i + 1..end])
  {
    assert src[i..end] == [src[i]] + src[i + 1..end];
    DigitsOfAppend([src[i]], src[i + 1..end]);
  }

  /** The numeric-literal branch (nli.js:236-279) for a literal starting at
      `i`: the token and the index the scan resumes at. The denominator is 10
      to the number of bytes after the `.`, separators included; a `.` that
      ends the literal is handed back to the main loop. */
  function NumberLiteral(src: seq<Byte>, i: nat): (r: (Token, nat))
    requires i < |src| && IsDigit(src[i])
    ensures i < r.1 <= |src|
  {
    var s := ScanNumber(src, i, None, []);
    var last := s.end - 1;
    var k: nat := if s.dot.Some? then last - s.dot.value else 0;
    var value := Simplify(DigitsValue(s.digits), Pow(10, k));
    (NumberToken(value), if s.dot == Some(last) then last else s.end)
  }

  // ---------------------------------------------------------------------
  // The main loop (nli.js:109-313)

  /** Add byte `c` to a run of kind `k`, ending a run of the other kind first. */
  function Extend(p: Pending, k: RunKind, c: Byte, toks: seq<Token>): (r: (Pending, seq<Token>))
    requires PendingWellFormed(p) && AllWellFormed(toks) && OfKind(k, c)
    ensures r.0.Run? && r.0.kind == k
    ensures PendingWellFormed(r.0) && AllWellFormed(r.1)
    ensures |toks| <= |r.1| && r.1[..|toks|] == toks
  {
    if p.Run? && p.kind == k then (Run(k, p.text + [c]), toks)
    else (Run(k, [c]), EndToken(p, toks))
  }

  /** The bytes a run of kind `k` is made of. */
  predicate OfKind(k: RunKind, c: Byte) {
    if k == OperatorRun then IsOperatorByte(c) else IsWordByte(c)
  }

  /** End the pending run, then emit `t`. */
  function Emit(p: Pending, toks: seq<Token>, t: Token): (r: seq<Token>)
    requires PendingWellFormed(p) && AllWellFormed(toks) && WellFormed(t)
    ensures AllWellFormed(r) && |toks| < |r| && r[..|toks|] == toks
  {
    var e := EndToken(p, toks);
    assert e[..|toks|] == toks;
    e + [t]
  }

  /** One iteration of the main loop at byte `i`: the index the next
      iteration reads, the pending run and the tokens emitted so far. */
  function Step(src: seq<Byte>, i: nat, p: Pending, toks: seq<Token>): (r: (nat, Pending, seq<Token>))
    requires i < |src|
    requires PendingWellFormed(p) && AllWellFormed(toks)
    ensures i < r.0 <= |src| + 1
    ensures PendingWellFormed(r.1) && AllWellFormed(r.2)
    ensures |toks| <= |r.2| && r.2[..|toks|] == toks
  {
    var c := src[i];
    if c == '#' as int then
      (CommentEnd(src, i + 1) + 1, p, toks)
    else if c == '"' as int then
      var (s, e) := ScanString(src, i + 1, false, []);
      (e + 1, Idle, Emit(p, toks, StringToken(s)))
    else if IsWhitespace(c) then
      (i + 1, Idle, EndToken(p, toks))
    else if BracketOf(c).Some? then
      (i + 1, Idle, Emit(p, toks, BracketToken(BracketOf(c).value)))
    else if SpecialOf(c).Some? then
      (i + 1, Idle, Emit(p, toks, SpecialToken(SpecialOf(c).value)))
    else if c == '_' as int then
      (i + 1, Idle, Emit(p, toks, NullToken))
    else if c == '@' as int then
      (i + 1, Idle, Emit(p, toks, NumberToken(Frac(1, 0))))
    else if IsDigit(c) then
      var (t, next) := NumberLiteral(src, i);
      (next, Idle, Emit(p, toks, t))
    else if IsOperatorByte(c) then
      var (p', toks') := Extend(p, OperatorRun, c, toks);
      (i + 1, p', toks')
    else
      var (p', toks') := Extend(p, WordRun, c, toks);
      (i + 1, p', toks')
  }

  /** The scan from index `i`, with pending run `p` and tokens `toks` emitted so far. */
  function LexFrom(src: seq<Byte>, i: nat, p: Pending, toks: seq<Token>): (r: seq<Token>)
    requires i <= |src| + 1
    requires PendingWellFormed(p) && AllWellFormed(toks)
    ensures AllWellFormed(r)
    ensures |toks| <= |r| && r[..|toks|] == toks
    decreases |src| + 1 - i
  {
    if i >= |src| then toks
    else
      var (i', p', toks') := Step(src, i, p, toks);
      LexFrom(src, i', p', toks')
  }

  /** `lex`: the tokens of a program text, in order. The run still pending at
      the end of the text is not emitted. */
  function Lex(src: seq<Byte>): (r: seq<Token>)
    ensures AllWellFormed(r)
  {
    LexFrom(src, 0, Idle, [])
  }

  // ---------------------------------------------------------------------
  // Properties

  /** A run of digits is consumed whole, every digit collected. */
  lemma {:induction false} ScanAllDigits(src: seq<Byte>, i: nat, dot: Option<nat>, digits: seq<Byte>)
    requires i <= |src| && AllDigits(digits)
    requires forall j | i <= j < |src| :: IsDigit(src[j])
    ensures ScanNumber(src, i, dot, digits) == NumberScan(digits + src[i..], dot, |src|)
    decreases |src| - i
  {
    if i == |src| {
      assert digits + src[i..] == digits;
    } else {
      ScanAllDigits(src, i + 1, dot, digits + [src[i]]);
      assert digits + [src[i]] + src[i + 1..] == digits + src[i..];
    }
  }

  /** Scanning through a stretch of digits collects them and carries on after it. */
  lemma {:induction false} ScanDigitStretch(src: seq<Byte>, i: nat, j: nat, dot: Option<nat>, digits: seq<Byte>)
    requires i <= j <= |src| && AllDigits(digits)
    requires forall k | i <= k < j :: IsDigit(src[k])
    ensures ScanNumber(src, i, dot, digits) == ScanNumber(src, j, dot, digits + src[i..j])
    decreases j - i
  {
    if i == j {
      assert digits + src[i..j] == digits;
    } else {
      ScanDigitStretch(src, i + 1, j, dot, digits + [src[i]]);
      assert digits + [src[i]] + src[i + 1..j] == digits + src[i..j];
    }
  }

  /** Dividing by one leaves an integer alone. */
  lemma SimplifyByOne(n: int)
    ensures Simplify(n, 1) == Frac(n, 1)
  {
    var r := Simplify(n, 1);
    assert r.den * Reduction(n, 1) == 1;
    assert Reduction(n, 1) == 1;
  }

  /** A decimal numeral lexes back to the one integer it writes. */
  lemma NumeralLexes(n: nat)
    ensures Lex(Decimal(n)) == [NumberToken(Frac(n, 1))]
  {
    var src := Decimal(n);
    var t := NumberToken(Frac(n, 1));
    NumeralLiteral(n);
    StepOnDigit(src, 0, Idle, []);
    assert Step(src, 0, Idle, []) == (|src|, Idle, [t]);
    assert LexFrom(src, |src|, Idle, [t]) == [t];
  }

  lemma NumeralLiteral(n: nat)
    ensures NumberLiteral(Decimal(n), 0) == (NumberToken(Frac(n, 1)), |Decimal(n)|)
  {
    var src := Decimal(n);
    ScanAllDigits(src, 0, None, []);
    assert [] + src[0..] == src;
    DecimalRoundTrip(n);
    SimplifyByOne(n);
  }

  /** A digit always starts a numeric literal and ends the pending run. */
  lemma StepOnDigit(src: seq<Byte>, i: nat, p: Pending, toks: seq<Token>)
    requires i < |src| && IsDigit(src[i])
    requires PendingWellFormed(p) && AllWellFormed(toks)
    ensures var (t, next) := NumberLiteral(src, i);
      Step(src, i, p, toks) == (next, Idle, EndToken(p, toks) + [t])
  {
  }

  /** A literal with a decimal point: the digits on both sides read as one
      integer over ten to the number of digits after the point. */
  lemma PointLiteral(a: seq<Byte>, b: seq<Byte>)
    requires |a| > 0 && |b| > 0 && AllDigits(a) && AllDigits(b)
    ensures var src := a + ['.' as int] + b;
      NumberLiteral(src, 0) == (NumberToken(Simplify(DigitsValue(a + b), Pow(10, |b|))), |src|)
  {
    var src := a + ['.' as int] + b;
    PointSource(a, '.' as int, b);
    ScanDigitStretch(src, 0, |a|, None, []);
    ScanAllDigits(src, |a| + 1, Some(|a|), a);
    var s := NumberScan(a + b, Some(|a|), |src|);
    assert ScanNumber(src, |a| + 1, Some(|a|), a) == s;
    assert ScanNumber(src, |a|, None, a) == s;
    NumberLiteralOf(src, 0, s);
  }

  /** Index and slice facts about `a + [x] + b`. */
  lemma PointSource(a: seq<Byte>, x: Byte, b: seq<Byte>)
    ensures var src := a + [x] + b;
      && |src| == |a| + 1 + |b| && src[0..|a|] == a && [] + a == a && src[|a|] == x && src[|a| + 1..] == b
      && (forall k | 0 <= k < |a| :: src[k] == a[k])
      && (forall k | |a| < k < |src| :: src[k] == b[k - |a| - 1])
  {
  }

  /** A `.` right after the digits that no digit follows is not part of the
      number: the main loop resumes at the `.`, which then lexes as an operator. */
  lemma TrailingPoint(a: seq<Byte>, c: Byte)
    requires |a| > 0 && AllDigits(a) && !InNumber(c, true)
    ensures var src := a + ['.' as int] + [c];
      NumberLiteral(src, 0) == (NumberToken(Frac(DigitsValue(a), 1)), |a|)
  {
    var src := a + ['.' as int] + [c];
    PointSource(a, '.' as int, [c]);
    ScanDigitStretch(src, 0, |a|, None, []);
    var s := NumberScan(a, Some(|a|), |a| + 1);
    ScanPointThenStop(src, |a|, a);
    NumberLiteralOf(src, 0, s);
    SimplifyByOne(DigitsValue(a));
  }

  /** A `.` followed by a byte that cannot continue the literal ends the scan. */
  lemma ScanPointThenStop(src: seq<Byte>, i: nat, digits: seq<Byte>)
    requires i + 1 < |src| && AllDigits(digits)
    requires src[i] == '.' as int && !InNumber(src[i + 1], true)
    ensures ScanNumber(src, i, None, digits) == NumberScan(digits, Some(i), i + 1)
  {
    assert ScanNumber(src, i + 1, Some(i), digits) == NumberScan(digits, Some(i), i + 1);
  }

  /** `NumberLiteral` in terms of the scan it makes. */
  lemma NumberLiteralOf(src: seq<Byte>, i: nat, s: NumberScan)
    requires i < |src| && IsDigit(src[i]) && ScanNumber(src, i, None, []) == s
    ensures s.dot.Some? ==> s.dot.value < s.end
    ensures var k: nat := if s.dot.Some? then s.end - 1 - s.dot.value else 0;
      NumberLiteral(src, i) ==
        (NumberToken(Simplify(DigitsValue(s.digits), Pow(10, k))), if s.dot == Some(s.end - 1) then s.end - 1 else s.end)
  {
  }

  /** Separators after the point still count towards the denominator, so
      `1.5_0` reads as 150/1000 = 3/20 rather than 1.5. */
  lemma SeparatorAfterPoint()
    ensures NumberLiteral(Text("1.5_0"), 0) == (NumberToken(Frac(3, 20)), 5)
  {
    var src := Text("1.5_0");
    var s := NumberScan(Text("150"), Some(1), 5);
    assert src[0] == '1' as int;
    ScanOnePointFiveZero();
    NumberLiteralOf(src, 0, s);
    assert NumberLiteral(src, 0) == (NumberToken(Simplify(DigitsValue(s.digits), Pow(10, 3))), 5);
    OneFiftyValue();
    ThousandIsPow();
    OneFiftyOverThousand();
  }

  lemma ThousandIsPow()
    ensures Pow(10, 3) == 1000
  {
    assert Pow(10, 1) == 10;
  }

  lemma ScanOnePointFiveZero()
    ensures ScanNumber(Text("1.5_0"), 0, None, []) == NumberScan(Text("150"), Some(1), 5)
  {
    var src := Text("1.5_0");
    assert src == [49, 46, 53, 95, 48];
    assert ScanNumber(src, 5, Some(1), [49, 53, 48]) == NumberScan([49, 53, 48], Some(1), 5);
    assert ScanNumber(src, 4, Some(1), [49, 53]) == NumberScan([49, 53, 48], Some(1), 5);
    assert ScanNumber(src, 3, Some(1), [49, 53]) == NumberScan([49, 53, 48], Some(1), 5);
    assert ScanNumber(src, 2, Some(1), [49]) == NumberScan([49, 53, 48], Some(1), 5);
    assert ScanNumber(src, 1, None, [49]) == NumberScan([49, 53, 48], Some(1), 5);
    assert [] + [49] == [49];
  }

  lemma OneFiftyValue()
    ensures DigitsValue(Text("150")) == 150
  {
    var d := Text("150");
    assert d == [49, 53, 48];
    assert d[..2] == [49, 53] && d[..2][..1] == [49] && [49][..0] == [];
    assert DigitsValue([49]) == 1;
    assert DigitsValue([49, 53]) == 15;
  }

  lemma OneFiftyOverThousand()
    ensures Simplify(150, 1000) == Frac(3, 20)
  {
    assert JsGcd(150, 1000) == 50 by {
      assert JsRem(150, 1000) == 150;
      assert JsRem(1000, 150) == 100;
      assert JsRem(150, 100) == 50;
      assert JsRem(100, 50) == 0;
    }
  }

  /** A comment is skipped without ending the pending run: the scan after it
      goes on as if the comment were not there, so `ab#c#d` holds one word. */
  lemma CommentSkipped(src: seq<Byte>, i: nat, body: nat, p: Pending, toks: seq<Token>)
    requires i + body + 1 < |src| && src[i] == '#' as int && src[i + body + 1] == '#' as int
    requires forall j | i < j <= i + body :: src[j] != '#' as int
    requires PendingWellFormed(p) && AllWellFormed(toks)
    ensures LexFrom(src, i, p, toks) == LexFrom(src, i + body + 2, p, toks)
  {
    CommentEndAt(src, i, body);
    CommentStep(src, i, p, toks);
    LexJump(src, i, p, toks, i + body + 2);
  }

  /** A step that only moves the index lets the lexer loop carry on from there. */
  lemma LexJump(src: seq<Byte>, i: nat, p: Pending, toks: seq<Token>, j: nat)
    requires i < |src| && PendingWellFormed(p) && AllWellFormed(toks)
    requires Step(src, i, p, toks) == (j, p, toks)
    ensures LexFrom(src, i, p, toks) == LexFrom(src, j, p, toks)
  {
  }

  /** A comment's body ends at the next `#`. */
  lemma CommentEndAt(src: seq<Byte>, i: nat, body: nat)
    requires i + body + 1 < |src| && src[i + body + 1] == '#' as int
    requires forall j | i < j <= i + body :: src[j] != '#' as int
    ensures CommentEnd(src, i + 1) == i + body + 1
  {
  }

  /** At a `#` the lexer skips to just past the comment's closing `#`. */
  lemma CommentStep(src: seq<Byte>, i: nat, p: Pending, toks: seq<Token>)
    requires i < |src| && src[i] == '#' as int && PendingWellFormed(p) && AllWellFormed(toks)
    ensures Step(src, i, p, toks) == (CommentEnd(src, i + 1) + 1, p, toks)
  {
  }

  /** The run still pending when the text ends is dropped: a lone word lexes to nothing. */
  lemma TrailingRunDropped(w: seq<Byte>)
    requires |w| > 0 && forall i | 0 <= i < |w| :: IsWordByte(w[i])
    ensures Lex(w) == []
  {
    WordsPend(w, 0, Idle);
  }

  /** Word bytes only ever grow the pending run. */
  lemma {:induction false} WordsPend(w: seq<Byte>, i: nat, p: Pending)
    requires i <= |w| && forall j | 0 <= j < |w| :: IsWordByte(w[j])
    requires p.Idle? || (p.Run? && p.kind == WordRun && PendingWellFormed(p))
    ensures LexFrom(w, i, p, []) == []
    decreases |w| - i
  {
    if i < |w| {
      var c := w[i];
      assert !IsDigit(c) && !IsOperatorByte(c) && BracketOf(c).None? && SpecialOf(c).None?;
      var (i', p', t') := Step(w, i, p, []);
      assert t' == [] && i' == i + 1;
      WordsPend(w, i + 1, p');
    }
  }
}

=== FILE: parser.dfy ===
/** The parser (`parse`, nli.js:316-487): recursive descent over the token
    list into a tree, followed by a precedence fold of each flat expression.

    `pexp` collects the operands and operators of one expression up to a
    closing bracket, `,` or `:`; `[` and `{` hand over to `plist` and `pdict`,
    `\` to a function literal. The collected branches are then folded tier by
    tier: an operator of the tier takes the branches on either side, and two
    adjacent operands become an application. Whatever the fold leaves after
    the first branch is dropped. */
module Parser {
  import opened Bytes
  import opened Results
  import opened Lexer

  /** The operators of the precedence table (nli.js:86). */
  datatype Op =
    | Dot | MapOver | TrimEnd | TrimStart | LengthMinus | Append | Concat | Merge
    | Times | Over | Plus | Minus | ShiftLeft | ShiftRight
    | AtMost | AtLeast | Less | Greater | Equal | SameKind | And | Or | Xor

  function OpText(op: Op): seq<Byte> {
    match op
    case Dot => ['.' as int]
    case MapOver => ['.' as int, '>' as int]
    case TrimEnd => ['/' as int, '<' as int]
    case TrimStart => ['/' as int, '>' as int]
    case LengthMinus => ['-' as int, '-' as int]
    case Append => ['+' as int, '+' as int]
    case Concat => ['.' as int, '.' as int]
    case Merge => ['/' as int, '/' as int]
    case Times => ['*' as int]
    case Over => ['/' as int]
    case Plus => ['+' as int]
    case Minus => ['-' as int]
    case ShiftLeft => ['<' as int, '<' as int]
    case ShiftRight => ['>' as int, '>' as int]
    case AtMost => ['<' as int, '=' as int]
    case AtLeast => ['>' as int, '=' as int]
    case Less => ['<' as int]
    case Greater => ['>' as int]
    case Equal => ['=' as int]
    case SameKind => ['~' as int, '=' as int]
    case And => ['&' as int]
    case Or => ['|' as int]
    case Xor => ['^' as int]
  }

  /** The operator an OPERATOR token's text names, if the table has it.
      Every operator is one or two bytes long, so the text is looked up by
      its bytes. */
  function ParseOp(t: seq<Byte>): (r: Option<Op>)
    ensures r.Some? ==> OpText(r.value) == t
  {
    if |t| == 1 then
      assert t == [t[0]];
      OneByteText(t[0]);
      OneByteOp(t[0])
    else if |t| == 2 then
      assert t == [t[0], t[1]];
      TwoByteText(t[0], t[1]);
      TwoByteOp(t[0], t[1])
    else
      None
  }

  function OneByteOp(c: Byte): Option<Op> {
    if c == '.' as int then Some(Dot)
    else if c == '*' as int then Some(Times)
    else if c == '/' as int then Some(Over)
    else if c == '+' as int then Some(Plus)
    else if c == '-' as int then Some(Minus)
    else if c == '<' as int then Some(Less)
    else if c == '>' as int then Some(Greater)
    else if c == '=' as int then Some(Equal)
    else if c == '&' as int then Some(And)
    else if c == '|' as int then Some(Or)
    else if c == '^' as int then Some(Xor)
    else None
  }

  function TwoByteOp(c: Byte, d: Byte): Option<Op> {
    if c == '.' as int && d == '>' as int then Some(MapOver)
    else if c == '/' as int && d == '<' as int then Some(TrimEnd)
    else if c == '/' as int && d == '>' as int then Some(TrimStart)
    else if c == '-' as int && d == '-' as int then Some(LengthMinus)
    else if c == '+' as int && d == '+' as int then Some(Append)
    else if c == '.' as int && d == '.' as int then Some(Concat)
    else if c == '/' as int && d == '/' as int then Some(Merge)
    else if c == '<' as int && d == '<' as int then Some(ShiftLeft)
    else if c == '>' as int && d == '>' as int then Some(ShiftRight)
    else if c == '<' as int && d == '=' as int then Some(AtMost)
    else if c == '>' as int && d == '=' as int then Some(AtLeast)
    else if c == '~' as int && d == '=' as int then Some(SameKind)
    else None
  }

  lemma OneByteText(c: Byte)
    ensures OneByteOp(c).Some? ==> OpText(OneByteOp(c).value) == [c]
  {}

  lemma TwoByteText(c: Byte, d: Byte)
    ensures TwoByteOp(c, d).Some? ==> OpText(TwoByteOp(c, d).value) == [c, d]
  {}

  /** The position of an operator's tier in the precedence table, tightest first. */
  function Tier(op: Op): (k: nat)
    ensures k < TierCount
  {
    match op
    case Dot => 0
    case MapOver => 1
    case TrimEnd | TrimStart => 2
    case LengthMinus => 3
    case Append | Concat | Merge => 4
    case Times | Over => 5
    case Plus | Minus => 6
    case ShiftLeft | ShiftRight => 7
    case AtMost | AtLeast | Less | Greater => 8
    case Equal | SameKind => 9
    case And | Or | Xor => 10
  }

  const TierCount: nat := 11

  /** The syntax tree. Leaves are the tokens `pexp` pushes as they are;
      `Absent` stands for the missing right operand of an operator that ends
      an expression. */
  datatype Branch =
    | Leaf(token: Token)
    | Combination(op: Op, a: Branch, b: Branch)
    | Application(a: Branch, b: Branch)
    | Function(param: Option<seq<Byte>>, body: Branch)
    | ListBranch(items: seq<Branch>)
    | DictBranch(entries: seq<(Branch, Branch)>)
    | Expression(child: Branch)
    | Absent

  predicate IsOperatorLeaf(b: Branch) {
    b.Leaf? && b.token.OperatorToken?
  }

  /** An operator leaf whose operator belongs to tier `k`. */
  predicate InTier(b: Branch, k: nat) {
    IsOperatorLeaf(b) && ParseOp(b.token.text).Some? && Tier(ParseOp(b.token.text).value) == k
  }

  /** Tokens that end an expression: `) ] }` and the specials `,` `:`. */
  predicate IsCloser(t: Token) {
    || t == BracketToken(CloseParen) || t == BracketToken(CloseSquare) || t == BracketToken(CloseCurly)
    || t == SpecialToken(Comma) || t == SpecialToken(Colon)
  }

  /** No bracket or special token is ever left in the tree. */
  predicate Clean(b: Branch) {
    match b
    case Leaf(t) => !t.BracketToken? && !t.SpecialToken?
    case Combination(_, x, y) => Clean(x) && Clean(y)
    case Application(x, y) => Clean(x) && Clean(y)
    case Function(_, body) => Clean(body)
    case ListBranch(items) => forall i | 0 <= i < |items| :: Clean(items[i])
    case DictBranch(entries) => forall i | 0 <= i < |entries| :: Clean(entries[i].0) && Clean(entries[i].1)
    case Expression(c) => Clean(c)
    case Absent => true
  }

  predicate AllClean(bs: seq<Branch>) {
    forall i | 0 <= i < |bs| :: Clean(bs[i])
  }

  // ---------------------------------------------------------------------
  // The precedence fold (nli.js:444-481)

  /** The expression after the operator at `x` took its neighbours as
      operands; a missing right neighbour becomes `Absent`. */
  function Combined(bs: seq<Branch>, x: nat): (r: seq<Branch>)
    requires 1 <= x < |bs| && IsOperatorLeaf(bs[x]) && ParseOp(bs[x].token.text).Some?
    ensures x + 1 < |bs| ==> |r| == |bs| - 2
    ensures x + 1 >= |bs| ==> |r| == x
  {
    var op := ParseOp(bs[x].token.text).value;
    var right := if x + 1 < |bs| then bs[x + 1] else Absent;
    var rest := if x + 1 < |bs| then bs[x + 2..] else [];
    bs[..x - 1] + [Combination(op, bs[x - 1], right)] + rest
  }

  /** The expression after the operands at `x - 1` and `x` became an application. */
  function Applied(bs: seq<Branch>, x: nat): (r: seq<Branch>)
    requires 1 <= x < |bs|
    ensures |r| == |bs| - 1
  {
    bs[..x - 1] + [Application(bs[x - 1], bs[x])] + bs[x + 1..]
  }

  /** One pass of the fold for tier `k`, resuming at position `x`. */
  function TierPass(bs: seq<Branch>, k: nat, x: nat): (r: seq<Branch>)
    requires 1 <= x
    ensures |r| <= |bs|
    ensures |bs| > 0 ==> |r| > 0
    ensures AllClean(bs) ==> AllClean(r)
    decreases |bs| - x
  {
    if x >= |bs| then bs
    else if IsOperatorLeaf(bs[x]) then
      if InTier(bs[x], k) then TierPass(Combined(bs, x), k, x)
      else TierPass(bs, k, x + 1)
    else if !IsOperatorLeaf(bs[x - 1]) then
      TierPass(Applied(bs, x), k, x)
    else TierPass(bs, k, x + 1)
  }

  /** The passes for tiers `k` and above, in order. */
  function FoldFrom(bs: seq<Branch>, k: nat): (r: seq<Branch>)
    ensures |r| <= |bs|
    ensures |bs| > 0 ==> |r| > 0
    ensures AllClean(bs) ==> AllClean(r)
    decreases TierCount - k
  {
    if k >= TierCount then bs else FoldFrom(TierPass(bs, k, 1), k + 1)
  }

  function Fold(bs: seq<Branch>): seq<Branch> {
    FoldFrom(bs, 0)
  }

  // ---------------------------------------------------------------------
  // Recursive descent (nli.js:317-442)

  /** How far index `i` is from running off the token list; indices past the
      end (which nested expressions can return) all count as zero. */
  function Dist(toks: seq<Token>, i: nat): nat {
    if i <= |toks| then |toks| + 1 - i else 0
  }

  /** The main loop of `pexp` from index `i`, with the branches `bs`
      collected so far: the branches and the index the loop stopped at. */
  function Collect(toks: seq<Token>, i: nat, bs: seq<Branch>): (r: Result<(seq<Branch>, nat)>)
    requires AllClean(bs)
    ensures r.Ok? ==> i <= r.value.1 && AllClean(r.value.0)
    ensures r.Ok? && r.value.1 < |toks| ==> IsCloser(toks[r.value.1])
    decreases Dist(toks, i), 1
  {
    if i >= |toks| then Ok((bs, i))
    else
      match toks[i]
      case BracketToken(OpenParen) | BracketToken(OpenSquare) | BracketToken(OpenCurly) =>
        var g :- Group(toks, i);
        Collect(toks, g.1 + 1, bs + [g.0])
      case BracketToken(_) => Ok((bs, i))
      case SpecialToken(Backslash) =>
        if i + 1 >= |toks| then Fail(ReadPastEnd)
        else
          var param := if toks[i + 1].WordToken? then Some(toks[i + 1].text) else None;
          var body :- Pexp(toks, i + 2);
          Collect(toks, body.1, bs + [Function(param, body.0)])
      case SpecialToken(_) => Ok((bs, i))
      case _ => Collect(toks, i + 1, bs + [Leaf(toks[i])])
  }

  /** The bracketed group opened at index `i`: the branch it parses to and
      the index of its closing bracket (or of the end of the tokens). */
  function Group(toks: seq<Token>, i: nat): (r: Result<(Branch, nat)>)
    requires i < |toks| && toks[i] in {BracketToken(OpenParen), BracketToken(OpenSquare), BracketToken(OpenCurly)}
    ensures r.Ok? ==> i < r.value.1 && Clean(r.value.0)
    decreases Dist(toks, i), 0
  {
    if toks[i] == BracketToken(OpenParen) then Pexp(toks, i + 1)
    else if toks[i] == BracketToken(OpenSquare) then PList(toks, i + 1, [])
    else PDict(toks, i + 1, [])
  }

  /** `pexp`: one expression from index `i`, wrapped as an EXPRESSION, and
      the index of the token that ended it. */
  function Pexp(toks: seq<Token>, i: nat): (r: Result<(Branch, nat)>)
    ensures r.Ok? ==> i <= r.value.1 && r.value.0.Expression? && Clean(r.value.0)
    decreases Dist(toks, i), 2
  {
    var c :- Collect(toks, i, []);
    var folded := Fold(c.0);
    Ok((Expression(if |folded| > 0 then folded[0] else Leaf(NullToken)), c.1))
  }

  /** `plist` from index `i`, with the elements `items` read so far: the list
      and the index of its `]` (or of the end of the tokens). */
  function PList(toks: seq<Token>, i: nat, items: seq<Branch>): (r: Result<(Branch, nat)>)
    requires AllClean(items)
    ensures r.Ok? ==> i <= r.value.1 && r.value.0.ListBranch? && Clean(r.value.0)
    ensures r.Ok? ==> |items| <= |r.value.0.items| && r.value.0.items[..|items|] == items
    decreases Dist(toks, i), 3
  {
    if i >= |toks| then Ok((ListBranch(items), i))
    else
      var e :- Pexp(toks, i);
      var j := e.1;
      if j >= |toks| then Fail(ReadPastEnd)
      else if toks[j] == BracketToken(CloseSquare) then Ok((ListBranch(items + [e.0]), j))
      else PList(toks, j + 1, items + [e.0])
  }

  predicate AllEntriesClean(entries: seq<(Branch, Branch)>) {
    forall i | 0 <= i < |entries| :: Clean(entries[i].0) && Clean(entries[i].1)
  }

  /** `pdict` from index `i`, with the entries read so far: the dictionary
      and the index of its `}` (or of the end of the tokens). An empty key
      before `}` ends the dictionary. */
  function PDict(toks: seq<Token>, i: nat, entries: seq<(Branch, Branch)>): (r: Result<(Branch, nat)>)
    requires AllEntriesClean(entries)
    ensures r.Ok? ==> i <= r.value.1 && r.value.0.DictBranch? && Clean(r.value.0)
    ensures r.Ok? ==> |entries| <= |r.value.0.entries| && r.value.0.entries[..|entries|] == entries
    decreases Dist(toks, i), 4
  {
    if i >= |toks| then Ok((DictBranch(entries), i))
    else
      var ke :- Pexp(toks, i);
      var j := ke.1;
      if j >= |toks| then Fail(ReadPastEnd)
      else if ke.0.child == Leaf(NullToken) && toks[j] == BracketToken(CloseCurly) then Ok((DictBranch(entries), j))
      else PDictEntry(toks, j, ke.0, entries)
  }

  /** The rest of one `pdict` entry whose key expression `ke` ended at index
      `j`. A key followed directly by `,` or `}` is its own value; otherwise
      the one token after the key is skipped and the value follows. */
  function PDictEntry(toks: seq<Token>, j: nat, ke: Branch, entries: seq<(Branch, Branch)>): (r: Result<(Branch, nat)>)
    requires j < |toks| && ke.Expression? && Clean(ke) && AllEntriesClean(entries)
    ensures r.Ok? ==> j <= r.value.1 && r.value.0.DictBranch? && Clean(r.value.0)
    ensures r.Ok? ==> |entries| < |r.value.0.entries| && r.value.0.entries[..|entries|] == entries
    ensures r.Ok? ==> r.value.0.entries[|entries|].0 == ke.child
    decreases Dist(toks, j), 2
  {
    if toks[j] == BracketToken(CloseCurly) then Ok((DictBranch(entries + [(ke.child, ke)]), j))
    else if toks[j] == SpecialToken(Comma) then PDict(toks, j + 1, entries + [(ke.child, ke)])
    else PDictValue(toks, j + 1, ke.child, entries)
  }

  /** The value of a `pdict` entry with key `key`, starting at index `i`:
      the dictionary with that entry added and the entries after it. */
  function PDictValue(toks: seq<Token>, i: nat, key: Branch, entries: seq<(Branch, Branch)>): (r: Result<(Branch, nat)>)
    requires Clean(key) && AllEntriesClean(entries)
    ensures r.Ok? ==> i <= r.value.1 && r.value.0.DictBranch? && Clean(r.value.0)
    ensures r.Ok? ==> |entries| < |r.value.0.entries| && r.value.0.entries[..|entries|] == entries
    ensures r.Ok? ==> r.value.0.entries[|entries|].0 == key
    decreases Dist(toks, i), 3
  {
    var v :- Pexp(toks, i);
    var k := v.1;
    if k >= |toks| then Fail(ReadPastEnd)
    else if toks[k] == BracketToken(CloseCurly) then Ok((DictBranch(entries + [(key, v.0)]), k))
    else PDict(toks, k + 1, entries + [(key, v.0)])
  }

  /** `parse`: the expression starting at the first token. */
  function Parse(toks: seq<Token>): (r: Result<Branch>)
    ensures r.Ok? ==> r.value.Expression? && Clean(r.value)
  {
    var e :- Pexp(toks, 0);
    Ok(e.0)
  }
}

=== FILE: parser_laws.dfy ===
/** What the precedence fold and the recursive descent guarantee.

    The fold's contract with the rest of the interpreter: every operator of
    the table that is not first in its expression is combined, operands
    that meet are applied, and an expression that alternates operands and
    known operators folds into one tree, with tighter tiers deeper and equal
    tiers grouping to the left. When two operator tokens meet, operands can
    be left side by side and then all but the first branch is dropped. */
module ParserLaws {
  import opened Bytes
  import opened Results
  import opened Lexer
  import opened Parser

  /** No two operator leaves next to each other. */
  predicate NoAdjacentOperators(bs: seq<Branch>) {
    forall i | 0 < i < |bs| :: !IsOperatorLeaf(bs[i - 1]) || !IsOperatorLeaf(bs[i])
  }

  /** Of every two neighbours below position `x`, one is an operator leaf. */
  predicate AlternatesBelow(bs: seq<Branch>, x: nat) {
    forall i | 0 < i < |bs| && i < x :: IsOperatorLeaf(bs[i - 1]) || IsOperatorLeaf(bs[i])
  }

  /** No two operands next to each other: nothing is waiting to be applied. */
  predicate NoAdjacentOperands(bs: seq<Branch>) {
    AlternatesBelow(bs, |bs|)
  }

  // ---------------------------------------------------------------------
  // One step

  /** Combining at `x` puts a combination at `x - 1`, keeps the branches
      before it and shifts those after the right operand down by two. */
  lemma CombinedKeepsRest(bs: seq<Branch>, x: nat)
    requires 1 <= x < |bs| && IsOperatorLeaf(bs[x]) && ParseOp(bs[x].token.text).Some?
    ensures Combined(bs, x)[x - 1].Combination?
    ensures forall i | 0 <= i < x - 1 :: Combined(bs, x)[i] == bs[i]
    ensures forall i | x <= i < |Combined(bs, x)| :: Combined(bs, x)[i] == bs[i + 2]
  {
  }

  /** Applying at `x` puts an application at `x - 1`, keeps the branches
      before it and shifts those after `x` down by one. */
  lemma AppliedKeepsRest(bs: seq<Branch>, x: nat)
    requires 1 <= x < |bs|
    ensures Applied(bs, x)[x - 1].Application?
    ensures forall i | 0 <= i < x - 1 :: Applied(bs, x)[i] == bs[i]
    ensures forall i | x <= i < |Applied(bs, x)| :: Applied(bs, x)[i] == bs[i + 1]
  {
  }

  // ---------------------------------------------------------------------
  // One pass

  /** A pass over an expression without adjacent operator leaves leaves no
      two operands side by side, and creates no adjacent operator leaves. */
  lemma {:induction false} PassAlternates(bs: seq<Branch>, k: nat, x: nat)
    requires 1 <= x && NoAdjacentOperators(bs) && AlternatesBelow(bs, x)
    ensures NoAdjacentOperators(TierPass(bs, k, x)) && NoAdjacentOperands(TierPass(bs, k, x))
    decreases |bs| - x
  {
    if x < |bs| {
      if IsOperatorLeaf(bs[x]) {
        if InTier(bs[x], k) {
          CombinedAlternates(bs, x);
          PassAlternates(Combined(bs, x), k, x);
        } else {
          PassAlternates(bs, k, x + 1);
        }
      } else if !IsOperatorLeaf(bs[x - 1]) {
        AppliedAlternates(bs, x);
        PassAlternates(Applied(bs, x), k, x);
      } else {
        PassAlternates(bs, k, x + 1);
      }
    }
  }

  /** Combining keeps operator leaves apart and operands alternating below `x`. */
  lemma CombinedAlternates(bs: seq<Branch>, x: nat)
    requires 1 <= x < |bs| && IsOperatorLeaf(bs[x]) && ParseOp(bs[x].token.text).Some?
    requires NoAdjacentOperators(bs) && AlternatesBelow(bs, x)
    ensures NoAdjacentOperators(Combined(bs, x)) && AlternatesBelow(Combined(bs, x), x)
  {
    assert x >= 2 ==> IsOperatorLeaf(bs[x - 2]);
    CombinedKeepsRest(bs, x);
  }

  /** Applying two adjacent operands keeps operator leaves apart and
      operands alternating below `x`. */
  lemma AppliedAlternates(bs: seq<Branch>, x: nat)
    requires 1 <= x < |bs| && !IsOperatorLeaf(bs[x]) && !IsOperatorLeaf(bs[x - 1])
    requires NoAdjacentOperators(bs) && AlternatesBelow(bs, x)
    ensures NoAdjacentOperators(Applied(bs, x)) && AlternatesBelow(Applied(bs, x), x)
  {
    assert x >= 2 ==> IsOperatorLeaf(bs[x - 2]);
    AppliedKeepsRest(bs, x);
  }

  /** A pass combines every operator of its tier that is not first: none is
      left after position 0. */
  lemma {:induction false} PassClears(bs: seq<Branch>, k: nat, x: nat)
    requires 1 <= x
    requires forall j | 1 <= j < |bs| && j < x :: !InTier(bs[j], k)
    ensures Cleared(TierPass(bs, k, x), k)
    decreases |bs| - x
  {
    if x < |bs| {
      if IsOperatorLeaf(bs[x]) && InTier(bs[x], k) {
        var bs' := Combined(bs, x);
        PassClears(bs', k, x);
      } else if !IsOperatorLeaf(bs[x]) && !IsOperatorLeaf(bs[x - 1]) {
        var bs' := Applied(bs, x);
        PassClears(bs', k, x);
      } else {
        PassClears(bs, k, x + 1);
      }
    }
  }

  /** No operator of tier `k` past position 0. */
  predicate Cleared(r: seq<Branch>, k: nat) {
    forall j | 1 <= j < |r| :: !InTier(r[j], k)
  }

  /** The operator leaves a pass leaves past position 0 were there before. */
  lemma {:induction false} PassKeepsOperators(bs: seq<Branch>, k: nat, x: nat)
    requires 1 <= x
    ensures OperatorsFrom(TierPass(bs, k, x), bs)
    decreases |bs| - x
  {
    if x < |bs| {
      if IsOperatorLeaf(bs[x]) && InTier(bs[x], k) {
        var bs' := Combined(bs, x);
        PassKeepsOperators(bs', k, x);
        SubsetAfterFirst(bs, bs', x);
        OperatorsTrans(TierPass(bs', k, x), bs', bs);
      } else if !IsOperatorLeaf(bs[x]) && !IsOperatorLeaf(bs[x - 1]) {
        var bs' := Applied(bs, x);
        PassKeepsOperators(bs', k, x);
        SubsetAfterFirst(bs, bs', x);
        OperatorsTrans(TierPass(bs', k, x), bs', bs);
      } else {
        PassKeepsOperators(bs, k, x + 1);
      }
    }
  }

  /** The operator leaves past position 0 of `r` are among those of `bs`. */
  predicate OperatorsFrom(r: seq<Branch>, bs: seq<Branch>) {
    forall j | 1 <= j < |r| && IsOperatorLeaf(r[j]) :: |bs| > 0 && r[j] in bs[1..]
  }

  lemma OperatorsTrans(r: seq<Branch>, m: seq<Branch>, bs: seq<Branch>)
    requires OperatorsFrom(r, m) && OperatorsFrom(m, bs)
    ensures OperatorsFrom(r, bs)
  {
    forall j | 1 <= j < |r| && IsOperatorLeaf(r[j])
      ensures r[j] in bs[1..]
    {
      var i :| 0 <= i < |m[1..]| && m[1..][i] == r[j];
      assert m[1 + i] == r[j];
    }
  }

  /** Operator leaves past position 0 of a rewritten expression that agrees
      with the original up to `x - 1` and takes the rest from its tail are
      operator leaves past position 0 of the original. */
  lemma SubsetAfterFirst(bs: seq<Branch>, bs': seq<Branch>, x: nat)
    requires 1 <= x < |bs| && x - 1 < |bs'| && !IsOperatorLeaf(bs'[x - 1])
    requires forall i | 0 <= i < x - 1 :: bs'[i] == bs[i]
    requires forall i | x <= i < |bs'| :: bs'[i] in bs[x..]
    ensures OperatorsFrom(bs', bs)
  {
    forall j | 1 <= j < |bs'| && IsOperatorLeaf(bs'[j])
      ensures bs'[j] in bs[1..]
    {
      if j < x - 1 {
        assert bs[1..][j - 1] == bs[j];
      } else {
        var t := bs'[j];
        assert t in bs[x..];
        var m :| 0 <= m < |bs[x..]| && bs[x..][m] == t;
        assert bs[1..][x - 1 + m] == t;
      }
    }
  }

  /** A pass keeps an operand in position 0. */
  lemma {:induction false} PassKeepsFirstOperand(bs: seq<Branch>, k: nat, x: nat)
    requires 1 <= x && |bs| > 0 && !IsOperatorLeaf(bs[0])
    ensures !IsOperatorLeaf(TierPass(bs, k, x)[0])
    decreases |bs| - x
  {
    if x < |bs| {
      if IsOperatorLeaf(bs[x]) {
        if InTier(bs[x], k) {
          PassKeepsFirstOperand(Combined(bs, x), k, x);
        } else {
          PassKeepsFirstOperand(bs, k, x + 1);
        }
      } else if !IsOperatorLeaf(bs[x - 1]) {
        PassKeepsFirstOperand(Applied(bs, x), k, x);
      } else {
        PassKeepsFirstOperand(bs, k, x + 1);
      }
    }
  }

  // ---------------------------------------------------------------------
  // The whole fold

  lemma {:induction false} FoldAlternates(bs: seq<Branch>, k: nat)
    requires k < TierCount && NoAdjacentOperators(bs)
    ensures NoAdjacentOperators(FoldFrom(bs, k)) && NoAdjacentOperands(FoldFrom(bs, k))
    decreases TierCount - k
  {
    var r1 := TierPass(bs, k, 1);
    PassAlternates(bs, k, 1);
    if k + 1 < TierCount {
      FoldAlternates(r1, k + 1);
    }
  }

  /** After the passes from tier `k` on, no operator of those tiers is left
      past position 0, and the operator leaves left there were there before. */
  lemma {:induction false} FoldClears(bs: seq<Branch>, k: nat)
    ensures ClearedTiers(FoldFrom(bs, k), k)
    ensures OperatorsFrom(FoldFrom(bs, k), bs)
    decreases TierCount - k
  {
    FoldKeepsOperators(bs, k);
    if k < TierCount {
      var r1 := TierPass(bs, k, 1);
      var r := FoldFrom(r1, k + 1);
      assert FoldFrom(bs, k) == r;
      PassClears(bs, k, 1);
      FoldClears(r1, k + 1);
      ClearedFrom(r, r1, k);
      ClearedTiersStep(r, k);
    }
  }

  /** No operator of tier `k` or above past position 0. */
  predicate ClearedTiers(r: seq<Branch>, k: nat) {
    forall j, k' | 1 <= j < |r| && k <= k' < TierCount :: !InTier(r[j], k')
  }

  lemma ClearedTiersStep(r: seq<Branch>, k: nat)
    requires Cleared(r, k) && ClearedTiers(r, k + 1)
    ensures ClearedTiers(r, k)
  {
    forall j, k' | 1 <= j < |r| && k <= k' < TierCount
      ensures !InTier(r[j], k')
    {
      if k' > k {
        assert !InTier(r[j], k');
      }
    }
  }

  /** The operator leaves the passes from tier `k` on leave past position 0 were there before. */
  lemma {:induction false} FoldKeepsOperators(bs: seq<Branch>, k: nat)
    ensures OperatorsFrom(FoldFrom(bs, k), bs)
    decreases TierCount - k
  {
    if k < TierCount {
      var r1 := TierPass(bs, k, 1);
      PassKeepsOperators(bs, k, 1);
      FoldKeepsOperators(r1, k + 1);
      OperatorsTrans(FoldFrom(r1, k + 1), r1, bs);
    }
  }

  /** Taking operator leaves only from past position 0 of a cleared expression keeps it cleared. */
  lemma ClearedFrom(r: seq<Branch>, r1: seq<Branch>, k: nat)
    requires OperatorsFrom(r, r1) && Cleared(r1, k)
    ensures Cleared(r, k)
  {
    forall j | 1 <= j < |r| && IsOperatorLeaf(r[j])
      ensures !InTier(r[j], k)
    {
      var m :| 0 <= m < |r1[1..]| && r1[1..][m] == r[j];
      assert r1[1 + m] == r[j];
    }
  }

  lemma {:induction false} FoldKeepsFirstOperand(bs: seq<Branch>, k: nat)
    requires |bs| > 0 && !IsOperatorLeaf(bs[0])
    ensures !IsOperatorLeaf(FoldFrom(bs, k)[0])
    decreases TierCount - k
  {
    if k < TierCount {
      PassKeepsFirstOperand(bs, k, 1);
      FoldKeepsFirstOperand(TierPass(bs, k, 1), k + 1);
    }
  }

  /** Every operator leaf names an operator of the table. */
  predicate KnownOperators(bs: seq<Branch>) {
    forall i | 0 <= i < |bs| && IsOperatorLeaf(bs[i]) :: ParseOp(bs[i].token.text).Some?
  }

  /** An expression that starts with an operand, never has two operator
      tokens in a row and uses only operators of the table folds into exactly
      one tree, so nothing is dropped. */
  lemma FoldsToOneTree(bs: seq<Branch>)
    requires |bs| > 0 && !IsOperatorLeaf(bs[0])
    requires NoAdjacentOperators(bs) && KnownOperators(bs)
    ensures |Fold(bs)| == 1
  {
    var r := Fold(bs);
    FoldAlternates(bs, 0);
    FoldClears(bs, 0);
    FoldKeepsFirstOperand(bs, 0);
    if |r| >= 2 {
      assert IsOperatorLeaf(r[0]) || IsOperatorLeaf(r[1]);
      assert r[1] in bs[1..];
      var m :| 0 <= m < |bs[1..]| && bs[1..][m] == r[1];
      assert bs[1 + m] == r[1];
      var op := ParseOp(r[1].token.text).value;
      assert InTier(r[1], Tier(op));
      assert false;
    }
  }

  // ---------------------------------------------------------------------
  // Precedence and grouping

  /** The token text of every operator reads back as that operator. */
  lemma ParseOpText(op: Op)
    ensures ParseOp(OpText(op)) == Some(op)
  {
  }

  /** A text is unrecognised exactly when no operator has it. */
  lemma ParseOpExact(t: seq<Byte>)
    ensures ParseOp(t).None? <==> forall op: Op :: OpText(op) != t
  {
    forall op: Op | OpText(op) == t
      ensures ParseOp(t) == Some(op)
    {
      ParseOpText(op);
    }
  }

  function OpLeaf(op: Op): Branch {
    Leaf(OperatorToken(OpText(op)))
  }

  /** A pass that finds nothing of its tier and no operands to apply changes nothing. */
  lemma {:induction false} PassIdle(bs: seq<Branch>, k: nat, x: nat)
    requires 1 <= x && NoAdjacentOperands(bs) && Cleared(bs, k)
    ensures TierPass(bs, k, x) == bs
    decreases |bs| - x
  {
    if x < |bs| {
      PassIdle(bs, k, x + 1);
    }
  }

  /** Passes for tiers that occur nowhere past position 0 change nothing. */
  lemma {:induction false} FoldIdle(bs: seq<Branch>, k: nat, k2: nat)
    requires k <= k2 <= TierCount && NoAdjacentOperands(bs)
    requires forall k' | k <= k' < k2 :: Cleared(bs, k')
    ensures FoldFrom(bs, k) == FoldFrom(bs, k2)
    decreases k2 - k
  {
    if k < k2 {
      PassIdle(bs, k, 1);
      FoldIdle(bs, k + 1, k2);
    }
  }

  /** An expression of at most one branch folds to itself. */
  lemma FoldOne(bs: seq<Branch>)
    requires |bs| <= 1
    ensures Fold(bs) == bs
  {
    FoldIdle(bs, 0, TierCount);
  }

  /** Two operators between three operands: the tighter tier takes its
      operands first, and of two operators of the same tier the left one does. */
  lemma Precedence(a: Branch, b: Branch, c: Branch, o1: Op, o2: Op)
    requires !IsOperatorLeaf(a) && !IsOperatorLeaf(b) && !IsOperatorLeaf(c)
    ensures Fold([a, OpLeaf(o1), b, OpLeaf(o2), c])
         == if Tier(o2) < Tier(o1) then [Combination(o1, a, Combination(o2, b, c))]
            else [Combination(o2, Combination(o1, a, b), c)]
  {
    if Tier(o2) < Tier(o1) {
      RightTighter(a, b, c, o1, o2);
    } else if Tier(o1) < Tier(o2) {
      LeftTighter(a, b, c, o1, o2);
    } else {
      SameTier(a, b, c, o1, o2);
    }
  }

  lemma OpLeafTier(op: Op, k: nat)
    ensures IsOperatorLeaf(OpLeaf(op))
    ensures InTier(OpLeaf(op), k) <==> Tier(op) == k
  {
    ParseOpText(op);
  }

  lemma FoldStep(bs: seq<Branch>, k: nat)
    requires k < TierCount
    ensures FoldFrom(bs, k) == FoldFrom(TierPass(bs, k, 1), k + 1)
  {
  }

  lemma RightTighter(a: Branch, b: Branch, c: Branch, o1: Op, o2: Op)
    requires !IsOperatorLeaf(a) && !IsOperatorLeaf(b) && !IsOperatorLeaf(c) && Tier(o2) < Tier(o1)
    ensures Fold([a, OpLeaf(o1), b, OpLeaf(o2), c]) == [Combination(o1, a, Combination(o2, b, c))]
  {
    var e := [a, OpLeaf(o1), b, OpLeaf(o2), c];
    UpToTier(e, o1, o2, Tier(o2));
    var e2 := RightFirst(a, b, c, o1, o2);
    OneOperatorLeft(a, Combination(o2, b, c), o1, Tier(o2) + 1);
  }

  lemma LeftTighter(a: Branch, b: Branch, c: Branch, o1: Op, o2: Op)
    requires !IsOperatorLeaf(a) && !IsOperatorLeaf(b) && !IsOperatorLeaf(c) && Tier(o1) < Tier(o2)
    ensures Fold([a, OpLeaf(o1), b, OpLeaf(o2), c]) == [Combination(o2, Combination(o1, a, b), c)]
  {
    var c1 := Combination(o1, a, b);
    LeftTighterFirst(a, b, c, o1, o2);
    OneOperatorLeft(c1, c, o2, Tier(o1) + 1);
  }

  /** The passes up to the left operator's tier leave one operator. */
  lemma LeftTighterFirst(a: Branch, b: Branch, c: Branch, o1: Op, o2: Op)
    requires !IsOperatorLeaf(a) && !IsOperatorLeaf(b) && !IsOperatorLeaf(c) && Tier(o1) < Tier(o2)
    ensures Fold([a, OpLeaf(o1), b, OpLeaf(o2), c]) == FoldFrom([Combination(o1, a, b), OpLeaf(o2), c], Tier(o1) + 1)
  {
    var e := [a, OpLeaf(o1), b, OpLeaf(o2), c];
    UpToTier(e, o1, o2, Tier(o1));
    TighterLeftPass(a, b, c, o1, o2);
  }

  /** The pass for the left operator's tier, when it is the tighter one. */
  lemma TighterLeftPass(a: Branch, b: Branch, c: Branch, o1: Op, o2: Op)
    requires !IsOperatorLeaf(a) && !IsOperatorLeaf(b) && !IsOperatorLeaf(c) && Tier(o1) < Tier(o2)
    ensures TierPass([a, OpLeaf(o1), b, OpLeaf(o2), c], Tier(o1), 1) == [Combination(o1, a, b), OpLeaf(o2), c]
  {
    var e1 := LeftFirst(a, b, c, o1, o2);
  }

  /** The passes below the tiers of both operators change nothing. */
  lemma UpToTier(e: seq<Branch>, o1: Op, o2: Op, t: nat)
    requires |e| == 5 && e[1] == OpLeaf(o1) && e[3] == OpLeaf(o2)
    requires !IsOperatorLeaf(e[0]) && !IsOperatorLeaf(e[2]) && !IsOperatorLeaf(e[4])
    requires t <= Tier(o1) && t <= Tier(o2)
    ensures Fold(e) == FoldFrom(TierPass(e, t, 1), t + 1)
  {
    forall k' | 0 <= k' < t ensures Cleared(e, k') {
      OpLeafTier(o1, k');
      OpLeafTier(o2, k');
    }
    FoldIdle(e, 0, t);
    FoldStep(e, t);
  }

  /** The passes from tier `k` on, over two operands and one operator of tier `k` or above. */
  lemma OneOperatorLeft(x: Branch, y: Branch, op: Op, k: nat)
    requires !IsOperatorLeaf(x) && !IsOperatorLeaf(y) && k <= Tier(op)
    ensures FoldFrom([x, OpLeaf(op), y], k) == [Combination(op, x, y)]
  {
    var e := [x, OpLeaf(op), y];
    forall k' | k <= k' < Tier(op) ensures Cleared(e, k') {
      OpLeafTier(op, k');
    }
    FoldIdle(e, k, Tier(op));
    FoldStep(e, Tier(op));
    var r := LastPass(x, y, op);
    FoldIdle(r, Tier(op) + 1, TierCount);
  }

  lemma SameTier(a: Branch, b: Branch, c: Branch, o1: Op, o2: Op)
    requires !IsOperatorLeaf(a) && !IsOperatorLeaf(b) && !IsOperatorLeaf(c) && Tier(o1) == Tier(o2)
    ensures Fold([a, OpLeaf(o1), b, OpLeaf(o2), c]) == [Combination(o2, Combination(o1, a, b), c)]
  {
    var e := [a, OpLeaf(o1), b, OpLeaf(o2), c];
    forall k' | 0 <= k' < Tier(o1) ensures Cleared(e, k') {
      OpLeafTier(o1, k');
      OpLeafTier(o2, k');
    }
    FoldIdle(e, 0, Tier(o1));
    FoldStep(e, Tier(o1));
    var e1 := LeftFirst(a, b, c, o1, o2);
    FoldIdle(e1, Tier(o1) + 1, TierCount);
  }

  /** The pass for the left operator's tier, when it is not looser than the right one. */
  lemma LeftFirst(a: Branch, b: Branch, c: Branch, o1: Op, o2: Op) returns (e1: seq<Branch>)
    requires !IsOperatorLeaf(a) && !IsOperatorLeaf(b) && !IsOperatorLeaf(c) && Tier(o1) <= Tier(o2)
    ensures e1 == TierPass([a, OpLeaf(o1), b, OpLeaf(o2), c], Tier(o1), 1)
    ensures Tier(o1) == Tier(o2) ==> e1 == [Combination(o2, Combination(o1, a, b), c)]
    ensures Tier(o1) < Tier(o2) ==> e1 == [Combination(o1, a, b), OpLeaf(o2), c]
  {
    var e := [a, OpLeaf(o1), b, OpLeaf(o2), c];
    var t := Tier(o1);
    ParseOpText(o1);
    ParseOpText(o2);
    var c1 := Combination(o1, a, b);
    var m := [c1, OpLeaf(o2), c];
    assert Combined(e, 1) == m;
    assert TierPass(e, t, 1) == TierPass(m, t, 1);
    if t == Tier(o2) {
      assert Combined(m, 1) == [Combination(o2, c1, c)];
      assert TierPass(m, t, 1) == TierPass([Combination(o2, c1, c)], t, 1);
    } else {
      assert !InTier(m[1], t);
      assert TierPass(m, t, 2) == m;
    }
    e1 := TierPass(e, t, 1);
  }

  /** The pass for the right operator's tier, when it is the tighter one. */
  lemma RightFirst(a: Branch, b: Branch, c: Branch, o1: Op, o2: Op) returns (e2: seq<Branch>)
    requires !IsOperatorLeaf(a) && !IsOperatorLeaf(b) && !IsOperatorLeaf(c) && Tier(o2) < Tier(o1)
    ensures e2 == TierPass([a, OpLeaf(o1), b, OpLeaf(o2), c], Tier(o2), 1)
    ensures e2 == [a, OpLeaf(o1), Combination(o2, b, c)]
  {
    var e := [a, OpLeaf(o1), b, OpLeaf(o2), c];
    var t := Tier(o2);
    ParseOpText(o1);
    ParseOpText(o2);
    assert !InTier(e[1], t) && InTier(e[3], t);
    assert Combined(e, 3) == [a, OpLeaf(o1), Combination(o2, b, c)];
    assert TierPass(e, t, 3) == [a, OpLeaf(o1), Combination(o2, b, c)];
    assert TierPass(e, t, 2) == TierPass(e, t, 3);
    e2 := TierPass(e, t, 1);
  }

  /** The pass for the one operator left between two operands. */
  lemma LastPass(x: Branch, y: Branch, op: Op) returns (r: seq<Branch>)
    requires !IsOperatorLeaf(x) && !IsOperatorLeaf(y)
    ensures r == TierPass([x, OpLeaf(op), y], Tier(op), 1) == [Combination(op, x, y)]
  {
    ParseOpText(op);
    var e := [x, OpLeaf(op), y];
    assert Combined(e, 1) == [Combination(op, x, y)];
    r := TierPass(e, Tier(op), 1);
  }

  /** Juxtaposed operands apply from the left: `f x y` is `(f x) y`. */
  function ApplyAll(head: Branch, rest: seq<Branch>): Branch
    decreases |rest|
  {
    if rest == [] then head else ApplyAll(Application(head, rest[0]), rest[1..])
  }

  predicate NoOperators(bs: seq<Branch>) {
    forall i | 0 <= i < |bs| :: !IsOperatorLeaf(bs[i])
  }

  lemma {:induction false} OperandsApplyLeftToRight(head: Branch, rest: seq<Branch>, k: nat)
    requires !IsOperatorLeaf(head) && NoOperators(rest)
    ensures TierPass([head] + rest, k, 1) == [ApplyAll(head, rest)]
    decreases |rest|
  {
    if rest != [] {
      var bs := [head] + rest;
      assert Applied(bs, 1) == [Application(head, rest[0])] + rest[1..];
      OperandsApplyLeftToRight(Application(head, rest[0]), rest[1..], k);
    }
  }

  // ---------------------------------------------------------------------
  // Two operator tokens in a row

  /** A pass over operands that meet only through operator tokens and that
      cannot pair an operand with its left neighbour, as in `a ~ . b`: the
      operator `~`, unknown to the table, becomes the left operand of `.`,
      which leaves `a` and the combination side by side without an application. */
  lemma OperatorAsOperand(a: Branch, b: Branch, t: seq<Byte>)
    requires !IsOperatorLeaf(a) && !IsOperatorLeaf(b) && ParseOp(t).None?
    ensures var e := [a, Leaf(OperatorToken(t)), OpLeaf(Dot), b];
      && NoAdjacentOperands(e)
      && TierPass(e, 0, 1) == [a, Combination(Dot, Leaf(OperatorToken(t)), b)]
      && !NoAdjacentOperands(TierPass(e, 0, 1))
  {
    var e := [a, Leaf(OperatorToken(t)), OpLeaf(Dot), b];
    OpLeafTier(Dot, 0);
    var r := [a, Combination(Dot, Leaf(OperatorToken(t)), b)];
    assert Combined(e, 2) == r;
    assert TierPass(e, 0, 2) == r;
    assert !InTier(e[1], 0);
    assert TierPass(e, 0, 1) == TierPass(e, 0, 2);
    assert !IsOperatorLeaf(r[0]) && !IsOperatorLeaf(r[1]);
  }

  /** With the loosest tier, the combination is made by the last pass and is
      then dropped: `a ~ & b` is just `a`. */
  lemma TrailingCombinationDropped(a: Branch, b: Branch, t: seq<Byte>)
    requires !IsOperatorLeaf(a) && !IsOperatorLeaf(b) && ParseOp(t).None?
    ensures Fold([a, Leaf(OperatorToken(t)), OpLeaf(And), b]) == [a, Combination(And, Leaf(OperatorToken(t)), b)]
  {
    LoosestOnly([a, Leaf(OperatorToken(t)), OpLeaf(And), b]);
    TrailingPass(a, b, t);
  }

  /** The loosest tier's pass over `a ~ & b` combines `~ & b`. */
  lemma TrailingPass(a: Branch, b: Branch, t: seq<Byte>)
    requires !IsOperatorLeaf(a) && !IsOperatorLeaf(b) && ParseOp(t).None?
    ensures TierPass([a, Leaf(OperatorToken(t)), OpLeaf(And), b], Tier(And), 1)
         == [a, Combination(And, Leaf(OperatorToken(t)), b)]
  {
    var e := [a, Leaf(OperatorToken(t)), OpLeaf(And), b];
    OpLeafTier(And, Tier(And));
    assert Combined(e, 2) == [a, Combination(And, Leaf(OperatorToken(t)), b)];
    assert TierPass(e, Tier(And), 2) == [a, Combination(And, Leaf(OperatorToken(t)), b)];
  }

  lemma LoosestOnly(e: seq<Branch>)
    requires |e| == 4 && !IsOperatorLeaf(e[0]) && IsOperatorLeaf(e[1]) && e[2] == OpLeaf(And) && !IsOperatorLeaf(e[3])
    requires ParseOp(e[1].token.text).None?
    ensures Fold(e) == TierPass(e, Tier(And), 1)
  {
    UpToLoosest(e);
    AfterLoosest(TierPass(e, Tier(And), 1));
  }

  /** The passes before the loosest tier change nothing. */
  lemma UpToLoosest(e: seq<Branch>)
    requires |e| == 4 && !IsOperatorLeaf(e[0]) && IsOperatorLeaf(e[1]) && e[2] == OpLeaf(And) && !IsOperatorLeaf(e[3])
    requires ParseOp(e[1].token.text).None?
    ensures Fold(e) == FoldFrom(TierPass(e, Tier(And), 1), Tier(And) + 1)
  {
    IdleBelowAnd(e);
    FoldStep(e, Tier(And));
  }

  /** No tier tighter than `&` occurs in such an expression, so folding
      starts in effect at the tier of `&`. */
  lemma IdleBelowAnd(e: seq<Branch>)
    requires |e| == 4 && !IsOperatorLeaf(e[0]) && IsOperatorLeaf(e[1]) && e[2] == OpLeaf(And) && !IsOperatorLeaf(e[3])
    requires ParseOp(e[1].token.text).None?
    ensures Tier(And) < TierCount && Fold(e) == FoldFrom(e, Tier(And))
  {
    ClearedBelowAnd(e);
    FoldIdle(e, 0, Tier(And));
  }

  /** No tier tighter than `&` occurs in such an expression, and no two
      operands are side by side. */
  lemma ClearedBelowAnd(e: seq<Branch>)
    requires |e| == 4 && !IsOperatorLeaf(e[0]) && IsOperatorLeaf(e[1]) && e[2] == OpLeaf(And) && !IsOperatorLeaf(e[3])
    requires ParseOp(e[1].token.text).None?
    ensures Tier(And) < TierCount && NoAdjacentOperands(e)
    ensures forall k' | 0 <= k' < Tier(And) :: Cleared(e, k')
  {
    forall k' | 0 <= k' < Tier(And) ensures Cleared(e, k') {
      OpLeafTier(And, k');
    }
  }

  /** Nothing follows the loosest tier's pass. */
  lemma AfterLoosest(r: seq<Branch>)
    ensures FoldFrom(r, Tier(And) + 1) == r
  {
    LastTier(r, Tier(And) + 1);
  }

  lemma LastTier(r: seq<Branch>, k: nat)
    requires k == TierCount
    ensures FoldFrom(r, k) == r
  {
  }

  // ---------------------------------------------------------------------
  // Recursive descent

  /** An empty expression folds to nothing and reads as NULL. */
  lemma EmptyExpression(toks: seq<Token>, i: nat)
    requires i < |toks| && IsCloser(toks[i])
    ensures Pexp(toks, i) == Ok((Expression(Leaf(NullToken)), i))
  {
    assert Collect(toks, i, []) == Ok(([], i));
    FoldOne([]);
  }

  /** A program of one literal or word is that token alone. */
  lemma SingleToken(t: Token)
    requires t.WordToken? || t.NumberToken? || t.StringToken? || t.NullToken?
    ensures Parse([t]) == Ok(Expression(Leaf(t)))
  {
    var toks := [t];
    assert Collect(toks, 1, [Leaf(t)]) == Ok(([Leaf(t)], 1));
    assert [] + [Leaf(t)] == [Leaf(t)];
    assert Collect(toks, 0, []) == Ok(([Leaf(t)], 1));
    FoldOne([Leaf(t)]);
  }

  /** `[]` is not empty: its one element is the empty expression, NULL. */
  lemma EmptyListHoldsNull()
    ensures Parse([BracketToken(OpenSquare), BracketToken(CloseSquare)])
         == Ok(Expression(ListBranch([Expression(Leaf(NullToken))])))
  {
    var toks := [BracketToken(OpenSquare), BracketToken(CloseSquare)];
    EmptyExpression(toks, 1);
    var l := ListBranch([Expression(Leaf(NullToken))]);
    assert PList(toks, 1, []) == Ok((l, 1));
    assert Group(toks, 0) == Ok((l, 1));
    assert Collect(toks, 2, [l]) == Ok(([l], 2));
    assert [] + [l] == [l];
    assert Collect(toks, 0, []) == Ok(([l], 2));
    FoldOne([l]);
  }

  /** `{}` is the empty dictionary: an empty key before `}` ends it. */
  lemma EmptyDictionary()
    ensures Parse([BracketToken(OpenCurly), BracketToken(CloseCurly)]) == Ok(Expression(DictBranch([])))
  {
    var toks := [BracketToken(OpenCurly), BracketToken(CloseCurly)];
    EmptyExpression(toks, 1);
    assert PDict(toks, 1, []) == Ok((DictBranch([]), 1));
    assert Group(toks, 0) == Ok((DictBranch([]), 1));
    assert Collect(toks, 2, [DictBranch([])]) == Ok(([DictBranch([])], 2));
    assert [] + [DictBranch([])] == [DictBranch([])];
    assert Collect(toks, 0, []) == Ok(([DictBranch([])], 2));
    FoldOne([DictBranch([])]);
  }

  /** `\` with nothing after it reads past the end of the tokens. */
  lemma BackslashAtEnd()
    ensures Parse([SpecialToken(Backslash)]) == Fail(ReadPastEnd)
  {
  }

  /** A list that is never closed reads past the end looking for `]` or `,`. */
  lemma UnclosedList(t: Token)
    requires t.NumberToken? || t.StringToken? || t.WordToken?
    ensures Parse([BracketToken(OpenSquare), t]) == Fail(ReadPastEnd)
  {
    var toks := [BracketToken(OpenSquare), t];
    assert Collect(toks, 2, [Leaf(t)]) == Ok(([Leaf(t)], 2));
    assert [] + [Leaf(t)] == [Leaf(t)];
    assert Collect(toks, 1, []) == Ok(([Leaf(t)], 2));
    FoldOne([Leaf(t)]);
    assert Pexp(toks, 1) == Ok((Expression(Leaf(t)), 2));
    assert PList(toks, 1, []) == Fail(ReadPastEnd);
    assert Collect(toks, 0, []) == Fail(ReadPastEnd);
  }

  /** `\` always takes the next token as its parameter slot: a WORD names
      the parameter, and any other token is skipped, leaving no parameter. */
  lemma BackslashTakesNextToken(t: Token, u: Token)
    requires t.WordToken? || t.NumberToken? || t.StringToken? || t.NullToken?
    requires u.WordToken? || u.NumberToken? || u.StringToken? || u.NullToken?
    ensures Parse([SpecialToken(Backslash), t, u])
         == Ok(Expression(Function(if t.WordToken? then Some(t.text) else None, Expression(Leaf(u)))))
  {
    var toks := [SpecialToken(Backslash), t, u];
    assert Collect(toks, 3, [Leaf(u)]) == Ok(([Leaf(u)], 3));
    assert [] + [Leaf(u)] == [Leaf(u)];
    assert Collect(toks, 2, []) == Ok(([Leaf(u)], 3));
    FoldOne([Leaf(u)]);
    var f := Function(if t.WordToken? then Some(t.text) else None, Expression(Leaf(u)));
    assert Pexp(toks, 2) == Ok((Expression(Leaf(u)), 3));
    assert Collect(toks, 3, [f]) == Ok(([f], 3));
    assert [] + [f] == [f];
    assert Collect(toks, 0, []) == Ok(([f], 3));
    FoldOne([f]);
  }

  /** After each list element exactly one token is skipped, whatever it is
      (`,`, an operator, a word): only `]` ends the list there. */
  lemma ListSkipsOneToken(toks: seq<Token>, i: nat, items: seq<Branch>, e: Branch, j: nat)
    requires AllClean(items) && i < |toks|
    requires Pexp(toks, i) == Ok((e, j)) && j < |toks| && toks[j] != BracketToken(CloseSquare)
    ensures AllClean(items + [e])
    ensures PList(toks, i, items) == PList(toks, j + 1, items + [e])
  {
    assert forall k | 0 <= k < |items + [e]| :: (items + [e])[k] == if k < |items| then items[k] else e;
  }

  /** After a dictionary key that is not followed by `,` or `}` exactly one
      token is skipped, whatever it is, before the value. */
  lemma KeySkipsOneToken(toks: seq<Token>, j: nat, ke: Branch, entries: seq<(Branch, Branch)>)
    requires j < |toks| && ke.Expression? && Clean(ke) && AllEntriesClean(entries)
    requires toks[j] != BracketToken(CloseCurly) && toks[j] != SpecialToken(Comma)
    ensures PDictEntry(toks, j, ke, entries) == PDictValue(toks, j + 1, ke.child, entries)
  {
  }

  /** After a dictionary value exactly one token is skipped, whatever it is:
      only `}` ends the dictionary there. */
  lemma ValueSkipsOneToken(toks: seq<Token>, i: nat, key: Branch, entries: seq<(Branch, Branch)>, v: Branch, k: nat)
    requires Clean(key) && AllEntriesClean(entries)
    requires Pexp(toks, i) == Ok((v, k)) && k < |toks| && toks[k] != BracketToken(CloseCurly)
    ensures AllEntriesClean(entries + [(key, v)])
    ensures PDictValue(toks, i, key, entries) == PDict(toks, k + 1, entries + [(key, v)])
  {
    EntryAppendClean(entries, key, v);
  }

  lemma EntryAppendClean(entries: seq<(Branch, Branch)>, key: Branch, v: Branch)
    requires AllEntriesClean(entries) && Clean(key) && Clean(v)
    ensures AllEntriesClean(entries + [(key, v)])
  {
    var es := entries + [(key, v)];
    assert forall n | 0 <= n < |es| :: es[n] == if n < |entries| then entries[n] else (key, v);
  }

  /** The tokens from `i` hold the rest of a list `e1 t1 e2 t2 ... en ]`
      whose `]` is at `k`: each element is the expression read from one
      token past the end of the one before it; every separator `t` but the
      last may be any token other than `]`. */
  predicate ListShape(toks: seq<Token>, i: nat, es: seq<Branch>, k: nat)
    decreases |es|
  {
    && 0 < |es|
    && Pexp(toks, i).Ok? && Pexp(toks, i).value.0 == es[0]
    && var j := Pexp(toks, i).value.1;
       j < |toks| &&
       if |es| == 1 then j == k && toks[j] == BracketToken(CloseSquare)
       else toks[j] != BracketToken(CloseSquare) && ListShape(toks, j + 1, es[1..], k)
  }

  /** A whole list `[e1 t1 e2 t2 ... en ]` reads as the elements, in order,
      and ends at its `]`, whatever the separators `t1 ... t(n-1)` are. */
  lemma {:induction false} ListOfElements(toks: seq<Token>, i: nat, items: seq<Branch>, es: seq<Branch>, k: nat)
    requires AllClean(items) && ListShape(toks, i, es, k)
    ensures PList(toks, i, items) == Ok((ListBranch(items + es), k))
    decreases |es|
  {
    if |es| == 1 {
      ListOfOne(toks, i, items, es, k);
    } else {
      var j := ListTail(toks, i, items, es, k);
      ListOfElements(toks, j + 1, items + [es[0]], es[1..], k);
      ListOfMore(toks, i, items, es, k, j);
    }
  }

  lemma HeadThenTail(items: seq<Branch>, es: seq<Branch>)
    requires 0 < |es|
    ensures items + [es[0]] + es[1..] == items + es
  {
    assert es == [es[0]] + es[1..];
  }

  /** The rest of a list after its first element: `j` is where the
      separator after that element stands. */
  lemma ListTail(toks: seq<Token>, i: nat, items: seq<Branch>, es: seq<Branch>, k: nat) returns (j: nat)
    requires AllClean(items) && ListShape(toks, i, es, k) && |es| > 1
    ensures Pexp(toks, i) == Ok((es[0], j)) && i <= j < |toks| && toks[j] != BracketToken(CloseSquare)
    ensures AllClean(items + [es[0]]) && ListShape(toks, j + 1, es[1..], k)
  {
    j := Pexp(toks, i).value.1;
    ListSkipsOneToken(toks, i, items, es[0], j);
  }

  lemma ListOfMore(toks: seq<Token>, i: nat, items: seq<Branch>, es: seq<Branch>, k: nat, j: nat)
    requires AllClean(items) && |es| > 1 && Pexp(toks, i) == Ok((es[0], j))
    requires i <= j < |toks| && toks[j] != BracketToken(CloseSquare)
    requires PList(toks, j + 1, items + [es[0]]) == Ok((ListBranch(items + [es[0]] + es[1..]), k))
    ensures PList(toks, i, items) == Ok((ListBranch(items + es), k))
  {
    ListSkipsOneToken(toks, i, items, es[0], j);
    HeadThenTail(items, es);
  }

  lemma ListOfOne(toks: seq<Token>, i: nat, items: seq<Branch>, es: seq<Branch>, k: nat)
    requires AllClean(items) && ListShape(toks, i, es, k) && |es| == 1
    ensures PList(toks, i, items) == Ok((ListBranch(items + es), k))
  {
    ListLastElement(toks, i, items, es[0], k);
    assert es == [es[0]];
  }

  /** The last element of a list, followed by `]`. */
  lemma ListLastElement(toks: seq<Token>, i: nat, items: seq<Branch>, e: Branch, j: nat)
    requires AllClean(items)
    requires Pexp(toks, i) == Ok((e, j)) && j < |toks| && toks[j] == BracketToken(CloseSquare)
    ensures PList(toks, i, items) == Ok((ListBranch(items + [e]), j))
  {
  }
}

=== FILE: results.dfy ===
/** Failure-compatible result type shared by the parser and the evaluator.

    The interpreter has no error handling of its own: a token read past the
    end of the token list, an operand of the wrong kind or a call of a
    non-function surfaces as a JavaScript exception (or as a garbage value
    that later crashes). The model names each of those situations. */
module Results {

  datatype Error =
    | ReadPastEnd     // the parser inspected a token beyond the last one
    | BadOperands     // an operator received operands outside its domain
    | NotCallable     // application of a value that is not a function
    | MissingOperand  // evaluation reached the absent right operand of an operator
    | Unmodelled      // the source's behaviour depends on JavaScript object identity or coercions
    | OutOfFuel       // the closure-call budget of the evaluation ran out

  datatype Result<+T> = Ok(value: T) | Fail(error: Error) {

    predicate IsFailure() {
      Fail?
    }

    function PropagateFailure<U>(): Result<U>
      requires Fail?
    {
      Fail(error)
    }

    function Extract(): T
      requires Ok?
    {
      value
    }
  }

  datatype Option<+T> = None | Some(value: T)
}

=== FILE: values.dfy ===
/** The run-time values of the evaluator (nli.js:489-730) and the JavaScript
    object behaviour they lean on: the property order of the plain objects
    that hold dictionaries, the default string sort `.>` applies to their
    keys, and the index clamping of `subarray` behind `/<` and `/>`. */
module Values {
  import opened Bytes
  import opened Fraction
  import opened Results
  import opened Parser

  /** The evaluated values. A closure keeps the environment it was made in,
      its parameter (none when `\` was not followed by a word) and its body;
      `Tee` is the built-in `TEE`; `Stray` is an operator token evaluated as
      an operand, which the evaluator hands back unchanged. */
  datatype Value =
    | Number(frac: Frac)
    | Str(bytes: seq<Byte>)
    | Null
    | List(items: seq<Value>)
    | Dict(entries: seq<(seq<Byte>, Value)>)
    | Closure(env: map<seq<Byte>, Value>, param: Option<seq<Byte>>, body: Branch)
    | Tee
    | Stray(text: seq<Byte>)

  type Env = map<seq<Byte>, Value>

  /** The `type` tag the source compares in `~=` and `=`: closures and the
      built-in share one. */
  datatype Kind = NumberKind | StringKind | NullKind | ListKind | DictKind | ClosureKind | OperatorKind

  function KindOf(v: Value): Kind {
    match v
    case Number(_) => NumberKind
    case Str(_) => StringKind
    case Null => NullKind
    case List(_) => ListKind
    case Dict(_) => DictKind
    case Closure(_, _, _) => ClosureKind
    case Tee => ClosureKind
    case Stray(_) => OperatorKind
  }

  // ---------------------------------------------------------------------
  // Dictionaries as JavaScript objects

  /** A property name that is an array index: a numeral without leading
      zeros below 2^32 - 1. Such keys come first in an object's key order,
      in ascending numeric order. */
  predicate IsIndexKey(k: seq<Byte>) {
    IsNumeral(k) && DigitsValue(k) < 0xFFFF_FFFF
  }

  /** The key order of a JavaScript object: distinct keys, array indices
      first and ascending, the other keys after them (in insertion order,
      which `Put` maintains). */
  predicate PropertyOrder(e: seq<(seq<Byte>, Value)>) {
    && (forall i, j | 0 <= i < j < |e| :: e[i].0 != e[j].0)
    && (forall i, j | 0 <= i < j < |e| && IsIndexKey(e[j].0) ::
          IsIndexKey(e[i].0) && DigitsValue(e[i].0) < DigitsValue(e[j].0))
  }

  function Keys(e: seq<(seq<Byte>, Value)>): (r: seq<seq<Byte>>)
    ensures |r| == |e| && forall i | 0 <= i < |e| :: r[i] == e[i].0
  {
    seq(|e|, i requires 0 <= i < |e| => e[i].0)
  }

  /** Where key `k` sits among the entries, if anywhere. */
  function Find(e: seq<(seq<Byte>, Value)>, k: seq<Byte>): (r: Option<nat>)
    ensures r.Some? ==> r.value < |e| && e[r.value].0 == k && forall j | 0 <= j < r.value :: e[j].0 != k
    ensures r.None? ==> forall j | 0 <= j < |e| :: e[j].0 != k
  {
    if e == [] then None
    else if e[0].0 == k then Some(0)
    else match Find(e[1..], k)
      case None => None
      case Some(i) => Some(i + 1)
  }

  /** `obj[k]` for an own property. */
  function Lookup(e: seq<(seq<Byte>, Value)>, k: seq<Byte>): (r: Option<Value>)
    ensures r.Some? <==> k in Keys(e)
  {
    match Find(e, k)
    case None => None
    case Some(i) => Some(e[i].1)
  }

  /** How many leading entries are array indices below `n`: where a new
      array-index key of value `n` goes. */
  function Position(e: seq<(seq<Byte>, Value)>, n: nat): (r: nat)
    ensures r <= |e|
    ensures forall j | 0 <= j < r :: IsIndexKey(e[j].0) && DigitsValue(e[j].0) < n
    ensures r < |e| ==> !IsIndexKey(e[r].0) || DigitsValue(e[r].0) >= n
  {
    if e == [] || !IsIndexKey(e[0].0) || DigitsValue(e[0].0) >= n then 0
    else 1 + Position(e[1..], n)
  }

  /** `obj[k] = v`: an existing key keeps its place and takes the new value;
      a new array index goes into numeric position; any other new key goes
      last. */
  function Put(e: seq<(seq<Byte>, Value)>, k: seq<Byte>, v: Value): (r: seq<(seq<Byte>, Value)>)
  {
    match Find(e, k)
    case Some(i) => e[i := (k, v)]
    case None =>
      if IsIndexKey(k) then
        var p := Position(e, DigitsValue(k));
        e[..p] + [(k, v)] + e[p..]
      else e + [(k, v)]
  }

  // ---------------------------------------------------------------------
  // The default sort of `Array.prototype.sort` on the key strings

  /** Code-unit order of strings, which for byte strings is byte order. */
  predicate LexLe(a: seq<Byte>, b: seq<Byte>) {
    if a == [] then true
    else if b == [] then false
    else if a[0] != b[0] then a[0] < b[0]
    else LexLe(a[1..], b[1..])
  }

  predicate Sorted(s: seq<seq<Byte>>) {
    forall i, j | 0 <= i < j < |s| :: LexLe(s[i], s[j])
  }

  function Insert(x: seq<Byte>, s: seq<seq<Byte>>): seq<seq<Byte>> {
    if s == [] || LexLe(x, s[0]) then [x] + s
    else [s[0]] + Insert(x, s[1..])
  }

  /** The keys in sorted order. */
  function SortKeys(s: seq<seq<Byte>>): seq<seq<Byte>> {
    if s == [] then [] else Insert(s[0], SortKeys(s[1..]))
  }

  // ---------------------------------------------------------------------
  // `subarray`

  /** A relative index as `subarray` resolves it: negative counts from the end. */
  function Clamp(x: int, len: nat): (r: nat)
    ensures r <= len
  {
    if x < 0 then (if len + x < 0 then 0 else len + x)
    else if x > len then len else x
  }

  /** `s.subarray(begin, end)`: in range it is the plain slice, and a start
      at or past the end gives nothing. */
  function Subarray(s: seq<Byte>, begin: int, end: int): (r: seq<Byte>)
    ensures |r| <= |s|
    ensures 0 <= begin <= end <= |s| ==> r == s[begin..end]
    ensures 0 <= end <= begin ==> r == []
  {
    var b, e := Clamp(begin, |s|), Clamp(end, |s|);
    if b >= e then [] else s[b..e]
  }

  // ---------------------------------------------------------------------
  // Laws of `Put`

  /** The first place key `k` sits is where `Find` reports it. */
  lemma FindFirst(e: seq<(seq<Byte>, Value)>, k: seq<Byte>, i: nat)
    requires i < |e| && e[i].0 == k && forall j | 0 <= j < i :: e[j].0 != k
    ensures Find(e, k) == Some(i)
  {}

  /** Putting keeps an object's key order. */
  lemma PutKeepsOrder(e: seq<(seq<Byte>, Value)>, k: seq<Byte>, v: Value)
    requires PropertyOrder(e)
    ensures PropertyOrder(Put(e, k, v))
  {
    var r := Put(e, k, v);
    match Find(e, k)
    case Some(i) =>
      assert forall j | 0 <= j < |e| :: r[j].0 == e[j].0;
    case None =>
      if IsIndexKey(k) {
        InsertKeepsOrder(e, k, v, Position(e, DigitsValue(k)));
      }
  }

  /** Inserting a new array-index key at its numeric position keeps the order. */
  lemma InsertKeepsOrder(e: seq<(seq<Byte>, Value)>, k: seq<Byte>, v: Value, p: nat)
    requires PropertyOrder(e) && IsIndexKey(k) && Find(e, k).None?
    requires p == Position(e, DigitsValue(k))
    ensures PropertyOrder(e[..p] + [(k, v)] + e[p..])
  {
    var r := e[..p] + [(k, v)] + e[p..];
    forall i, j | 0 <= i < j < |r| && IsIndexKey(r[j].0)
      ensures IsIndexKey(r[i].0) && DigitsValue(r[i].0) < DigitsValue(r[j].0)
    {
      InsertedPair(e, k, v, p, i, j);
    }
    forall i, j | 0 <= i < j < |r|
      ensures r[i].0 != r[j].0
    {
      InsertedDistinct(e, k, v, p, i, j);
    }
  }

  lemma InsertedPair(e: seq<(seq<Byte>, Value)>, k: seq<Byte>, v: Value, p: nat, i: nat, j: nat)
    requires PropertyOrder(e) && IsIndexKey(k) && Find(e, k).None?
    requires p == Position(e, DigitsValue(k))
    requires i < j < |e| + 1 && IsIndexKey((e[..p] + [(k, v)] + e[p..])[j].0)
    ensures var r := e[..p] + [(k, v)] + e[p..];
      IsIndexKey(r[i].0) && DigitsValue(r[i].0) < DigitsValue(r[j].0)
  {
    var r := e[..p] + [(k, v)] + e[p..];
    InsertedAt(e, (k, v), p, i);
    InsertedAt(e, (k, v), p, j);
    if j > p && i == p {
      NewBelowLater(e, k, p, j - 1);
    }
  }

  /** The entries after inserting `x` at `p`, by index. */
  lemma InsertedAt<T>(e: seq<T>, x: T, p: nat, m: nat)
    requires p <= |e| && m <= |e|
    ensures (e[..p] + [x] + e[p..])[m] == if m < p then e[m] else if m == p then x else e[m - 1]
  {}

  /** A new array index is below every array index at or after its position. */
  lemma NewBelowLater(e: seq<(seq<Byte>, Value)>, k: seq<Byte>, p: nat, m: nat)
    requires PropertyOrder(e) && IsIndexKey(k) && Find(e, k).None?
    requires p == Position(e, DigitsValue(k))
    requires p <= m < |e| && IsIndexKey(e[m].0)
    ensures DigitsValue(k) < DigitsValue(e[m].0)
  {
    if p < m {
      OrderAt(e, p, m);
    }
    if DigitsValue(e[p].0) == DigitsValue(k) {
      NumeralInjective(e[p].0, k);
    }
  }

  /** An index key has only index keys before it, with smaller values. */
  lemma OrderAt(e: seq<(seq<Byte>, Value)>, i: nat, j: nat)
    requires PropertyOrder(e) && i < j < |e| && IsIndexKey(e[j].0)
    ensures IsIndexKey(e[i].0) && DigitsValue(e[i].0) < DigitsValue(e[j].0)
  {
  }

  lemma InsertedDistinct(e: seq<(seq<Byte>, Value)>, k: seq<Byte>, v: Value, p: nat, i: nat, j: nat)
    requires PropertyOrder(e) && Find(e, k).None? && p <= |e|
    requires i < j < |e| + 1
    ensures var r := e[..p] + [(k, v)] + e[p..]; r[i].0 != r[j].0
  {
    InsertedAt(e, (k, v), p, i);
    InsertedAt(e, (k, v), p, j);
  }

  /** After `obj[k] = v`, `obj[k]` is `v` and every other property is as it was. */
  lemma PutLookup(e: seq<(seq<Byte>, Value)>, k: seq<Byte>, v: Value, k2: seq<Byte>)
    ensures Lookup(Put(e, k, v), k2) == if k2 == k then Some(v) else Lookup(e, k2)
  {
    match Find(e, k)
    case Some(i) => ReplacedLookup(e, k, v, k2, i);
    case None =>
      var p := if IsIndexKey(k) then Position(e, DigitsValue(k)) else |e|;
      assert Put(e, k, v) == e[..p] + [(k, v)] + e[p..];
      InsertedLookup(e, k, v, k2, p);
  }

  /** Put on a key already present. */
  lemma ReplacedLookup(e: seq<(seq<Byte>, Value)>, k: seq<Byte>, v: Value, k2: seq<Byte>, i: nat)
    requires Find(e, k) == Some(i)
    ensures Lookup(e[i := (k, v)], k2) == if k2 == k then Some(v) else Lookup(e, k2)
  {
    var r := e[i := (k, v)];
    if k2 == k {
      FindFirst(r, k, i);
    } else {
      match Find(e, k2)
      case Some(j) => FindFirst(r, k2, j);
      case None =>
    }
  }

  /** Put on a new key, which lands at position `p`. */
  lemma InsertedLookup(e: seq<(seq<Byte>, Value)>, k: seq<Byte>, v: Value, k2: seq<Byte>, p: nat)
    requires Find(e, k) == None && p <= |e|
    ensures Lookup(e[..p] + [(k, v)] + e[p..], k2) == if k2 == k then Some(v) else Lookup(e, k2)
  {
    var r := e[..p] + [(k, v)] + e[p..];
    if k2 == k {
      InsertedFindNew(e, k, v, p);
    } else {
      match Find(e, k2)
      case Some(j) => InsertedFindOld(e, k, v, p, k2, j);
      case None => InsertedFindNone(e, k, v, p, k2);
    }
  }

  /** The inserted key is found where it was inserted. */
  lemma InsertedFindNew(e: seq<(seq<Byte>, Value)>, k: seq<Byte>, v: Value, p: nat)
    requires Find(e, k) == None && p <= |e|
    ensures Find(e[..p] + [(k, v)] + e[p..], k) == Some(p)
  {
    var r := e[..p] + [(k, v)] + e[p..];
    forall m | 0 <= m < p
      ensures r[m].0 != k
    {
      InsertedAt(e, (k, v), p, m);
    }
    InsertedAt(e, (k, v), p, p);
    FindFirst(r, k, p);
  }

  /** A key already present is found at its old place, moved up by one behind the insertion. */
  lemma InsertedFindOld(e: seq<(seq<Byte>, Value)>, k: seq<Byte>, v: Value, p: nat, k2: seq<Byte>, j: nat)
    requires Find(e, k) == None && p <= |e| && Find(e, k2) == Some(j)
    ensures var r := e[..p] + [(k, v)] + e[p..];
      var m := if j < p then j else j + 1;
      Find(r, k2) == Some(m) && r[m] == e[j]
  {
    var r := e[..p] + [(k, v)] + e[p..];
    var m := if j < p then j else j + 1;
    forall i | 0 <= i < m
      ensures r[i].0 != k2
    {
      InsertedAt(e, (k, v), p, i);
    }
    InsertedAt(e, (k, v), p, m);
    FindFirst(r, k2, m);
  }

  /** A key absent before, other than the inserted one, is still absent. */
  lemma InsertedFindNone(e: seq<(seq<Byte>, Value)>, k: seq<Byte>, v: Value, p: nat, k2: seq<Byte>)
    requires Find(e, k) == None && p <= |e| && Find(e, k2) == None && k2 != k
    ensures Find(e[..p] + [(k, v)] + e[p..], k2) == None
  {
    var r := e[..p] + [(k, v)] + e[p..];
    forall i | 0 <= i < |r|
      ensures r[i].0 != k2
    {
      InsertedAt(e, (k, v), p, i);
    }
  }

  /** The keys other than array indices, in order: the object's insertion order. */
  function NamedKeys(e: seq<(seq<Byte>, Value)>): seq<seq<Byte>> {
    if e == [] then []
    else (if IsIndexKey(e[0].0) then [] else [e[0].0]) + NamedKeys(e[1..])
  }

  lemma {:induction false} NamedKeysAppend(a: seq<(seq<Byte>, Value)>, b: seq<(seq<Byte>, Value)>)
    ensures NamedKeys(a + b) == NamedKeys(a) + NamedKeys(b)
  {
    if a == [] {
      assert a + b == b;
    } else {
      assert (a + b)[1..] == a[1..] + b;
      NamedKeysAppend(a[1..], b);
    }
  }

  lemma {:induction false} NoNamedKeys(e: seq<(seq<Byte>, Value)>)
    requires forall j | 0 <= j < |e| :: IsIndexKey(e[j].0)
    ensures NamedKeys(e) == []
  {
    if e != [] {
      NoNamedKeys(e[1..]);
    }
  }

  /** A new key that is not an array index goes after every other such key;
      anything else leaves the insertion order of those keys alone. */
  lemma PutNamedKeys(e: seq<(seq<Byte>, Value)>, k: seq<Byte>, v: Value)
    ensures NamedKeys(Put(e, k, v)) ==
      if Find(e, k).None? && !IsIndexKey(k) then NamedKeys(e) + [k] else NamedKeys(e)
  {
    match Find(e, k)
    case Some(i) =>
      assert Put(e, k, v) == e[i := (k, v)];
      ReplacedNamedKeys(e, k, v, i);
    case None =>
      if IsIndexKey(k) {
        var p := Position(e, DigitsValue(k));
        assert Put(e, k, v) == e[..p] + [(k, v)] + e[p..];
        IndexInsertedNamedKeys(e, k, v, p);
      } else {
        assert Put(e, k, v) == e + [(k, v)];
        NamedKeysAppend(e, [(k, v)]);
        assert NamedKeys([(k, v)]) == [k] by {
          assert [(k, v)][1..] == [];
        }
      }
  }

  /** Replacing the value of a present key leaves the named keys alone. */
  lemma ReplacedNamedKeys(e: seq<(seq<Byte>, Value)>, k: seq<Byte>, v: Value, i: nat)
    requires i < |e| && e[i].0 == k
    ensures NamedKeys(e[i := (k, v)]) == NamedKeys(e)
  {
    assert e == e[..i] + [e[i]] + e[i + 1..];
    assert e[i := (k, v)] == e[..i] + [(k, v)] + e[i + 1..];
    NamedKeysAppend(e[..i] + [e[i]], e[i + 1..]);
    NamedKeysAppend(e[..i], [e[i]]);
    NamedKeysAppend(e[..i] + [(k, v)], e[i + 1..]);
    NamedKeysAppend(e[..i], [(k, v)]);
    assert NamedKeys([e[i]]) == NamedKeys([(k, v)]) by {
      assert [e[i]][1..] == [(k, v)][1..];
    }
  }

  /** An array index inserted behind a run of array indices adds no named key. */
  lemma IndexInsertedNamedKeys(e: seq<(seq<Byte>, Value)>, k: seq<Byte>, v: Value, p: nat)
    requires p <= |e| && IsIndexKey(k)
    requires forall j | 0 <= j < p :: IsIndexKey(e[j].0)
    ensures NamedKeys(e[..p] + [(k, v)] + e[p..]) == NamedKeys(e)
  {
    var a, x, b := e[..p], [(k, v)], e[p..];
    SplitAt(e, p);
    NamedKeysAppend(a, b);
    NamedKeysInsert(a, x, b);
    NoNamedKeys(a);
    NoNamedKeys(x);
  }

  lemma SplitAt<T>(s: seq<T>, p: nat)
    requires p <= |s|
    ensures s == s[..p] + s[p..]
  {}

  lemma NamedKeysInsert(a: seq<(seq<Byte>, Value)>, x: seq<(seq<Byte>, Value)>, b: seq<(seq<Byte>, Value)>)
    ensures NamedKeys(a + x + b) == NamedKeys(a) + NamedKeys(x) + NamedKeys(b)
  {
    NamedKeysAppend(a + x, b);
    NamedKeysAppend(a, x);
  }

  // ---------------------------------------------------------------------
  // Laws of the key sort

  lemma {:induction false} LexLeTotal(a: seq<Byte>, b: seq<Byte>)
    ensures LexLe(a, b) || LexLe(b, a)
  {
    if a != [] && b != [] && a[0] == b[0] {
      LexLeTotal(a[1..], b[1..]);
    }
  }

  lemma {:induction false} LexLeTrans(a: seq<Byte>, b: seq<Byte>, c: seq<Byte>)
    requires LexLe(a, b) && LexLe(b, c)
    ensures LexLe(a, c)
  {
    if a != [] && b != [] && c != [] && a[0] == b[0] && b[0] == c[0] {
      LexLeTrans(a[1..], b[1..], c[1..]);
    }
  }

  /** Byte order is antisymmetric: the sort leaves no tie between distinct keys. */
  lemma {:induction false} LexLeAntisymmetric(a: seq<Byte>, b: seq<Byte>)
    requires LexLe(a, b) && LexLe(b, a)
    ensures a == b
  {
    if a != [] && b != [] {
      LexLeAntisymmetric(a[1..], b[1..]);
      assert a == [a[0]] + a[1..] && b == [b[0]] + b[1..];
    }
  }

  lemma {:induction false} InsertLaws(x: seq<Byte>, s: seq<seq<Byte>>)
    requires Sorted(s)
    ensures Sorted(Insert(x, s))
    ensures multiset(Insert(x, s)) == multiset(s) + multiset{x}
  {
    if s == [] {
    } else if LexLe(x, s[0]) {
      forall j | 0 <= j < |s|
        ensures LexLe(x, s[j])
      {
        if j > 0 {
          LexLeTrans(x, s[0], s[j]);
        }
      }
    } else {
      var rest := Insert(x, s[1..]);
      InsertLaws(x, s[1..]);
      assert s == [s[0]] + s[1..];
      LexLeTotal(x, s[0]);
      forall j | 0 <= j < |rest|
        ensures LexLe(s[0], rest[j])
      {
        assert rest[j] in multiset(rest);
        if rest[j] != x {
          assert rest[j] in multiset(s[1..]);
          var m :| 0 <= m < |s[1..]| && s[1..][m] == rest[j];
          assert s[m + 1] == rest[j];
        }
      }
    }
  }

  /** The key sort orders the keys and neither drops nor adds any. */
  lemma {:induction false} SortKeysLaws(s: seq<seq<Byte>>)
    ensures Sorted(SortKeys(s))
    ensures multiset(SortKeys(s)) == multiset(s)
  {
    if s != [] {
      SortKeysLaws(s[1..]);
      InsertLaws(s[0], SortKeys(s[1..]));
      assert s == [s[0]] + s[1..];
    }
  }

  lemma SortKeysLength(s: seq<seq<Byte>>)
    ensures |SortKeys(s)| == |s|
  {
    SortKeysLaws(s);
    assert |multiset(SortKeys(s))| == |multiset(s)|;
  }

  // ---------------------------------------------------------------------
  // Laws of `subarray`

  /** In range, the two trims are prefix and suffix, and they split the string. */
  lemma TrimsSplit(s: seq<Byte>, n: int)
    requires 0 <= n <= |s|
    ensures Subarray(s, 0, |s| - n) == s[..|s| - n]
    ensures Subarray(s, n, |s|) == s[n..]
    ensures Subarray(s, 0, |s| - n) + Subarray(s, |s| - n, |s|) == s
  {}

  /** A negative start counts from the end: `s /> -k` keeps the last `k` bytes. */
  lemma NegativeStart(s: seq<Byte>, k: int)
    requires 0 < k <= |s|
    ensures Subarray(s, -k, |s|) == s[|s| - k..]
  {}

  /** Dropping more bytes than there are wraps around: the end index goes
      negative and counts from the end again, so `"abc" /< 4` is `"ab"`. */
  lemma OverTrim(s: seq<Byte>, n: int)
    requires |s| < n <= 2 * |s|
    ensures Subarray(s, 0, |s| - n) == s[..2 * |s| - n]
  {}
}
